=== FILE: README.md ===
# SwiftScroll virtualization engine, modelled in Dafny

SwiftScroll keeps the children of a long scrolling container in a B-tree and
renders only the part of it near the viewport. Two kinds of node make up the
tree:

- **Leaves** hold runs of the container's child nodes. A leaf is either one
  block-level element or a run of inline nodes.
- **Branches** cache aggregates over their children:
  - item and element counts, summed;
  - height, summed;
  - width, as a maximum;
  - the epoch of the last measurement, as a minimum.

Around the tree the engine keeps:

- an order-statistics lookup (`_findLeaf`, `_findLastLeaf`) and in-order
  navigation (`_siblingLeaf`);
- a degree-restoring split (`_splitNode`);
- the block/inline partitioner (`_leafDomUpdated`);
- aggregate maintenance, which covers branch re-measuring, height deltas and the
  `_setWidth` walk;
- the collapsing-margin rule of `_calculateMargin`;
- a scroll windower with hysteresis (`_updateViewportPosition`);
- an update coalescer (`_scheduleUpdate`) and a time-sliced measurement queue
  (`_addToUpdateQueue`, `_startUpdateWorker`).

The model is purely functional:

- `Tree.Node` is `Leaf(id, items, isBlock, marginTop, marginBottom, box) | Branch(children, box)`.
  The `parent` links are replaced by child-index paths.
- The leaf sequence `Tree.Leaves(root)` is the reference against which
  lookups, navigation, splits and partitions are stated.
- Items are `Text(id)` or `Element(id, displayBlock)`. `_isBlockElement`
  becomes `Tree.IsBlock`: an element whose computed `display` is `block`.
- The host's measurements (computed style and bounding box) are a parameter
  `host: nat -> LeafMetrics`, keyed by leaf id.
- A leaf id stands for the object identity of a `TreeNode`. The update queue
  holds leaf ids.

Modules, following the source's structure:

| file | module | what it holds |
|---|---|---|
| tree.dfy | `Tree` | nodes, boxes, leaf order, the invariants (`Sums`, `Widths`, `Counted`, `Populated`, `Bounded`, `Wf`), paths |
| update.dfy | `Update` | replacing a node along a path, adding a delta along a path, splicing a run into a parent |
| aggregate.dfy | `Aggregates` | `_measureBranchNode`, `_calculateWidth`, `_setWidth` |
| split.dfy | `Split` | `_splitNode` |
| navigation.dfy | `Navigation` | `_findLeaf`, `_findLastLeaf`, `_siblingLeaf` |
| measure.dfy | `Measure` | `_calculateMargin`, `_measureLeafNode`, `_measure` |
| partition.dfy | `Partition` | `_insertNodeInLeaf`'s insertion, the count step and the block/inline scan of `_leafDomUpdated` |
| scheduler.dfy | `Scheduler` | `_scheduleUpdate`, `_addToUpdateQueue`, `_startUpdateWorker` |
| windower.dfy | `Windower` | `_updateViewportPosition`, `_forceUpdateViewportPosition` |
| engine.dfy | `Engine` | the `SwiftScroll` state and its public operations and timer callbacks |

`Engine.Valid` is the invariant every step keeps. It requires:

- the tree is well formed;
- the mirrors `dom.childNodes` and `dom.children` list the tree's items in
  document order;
- every leaf is uniform: one block element, or inline items only;
- leaf ids are unique and below the next fresh id;
- a queued leaf is never forgotten by the worker.

Where the source and its documentation disagree, the model follows the code.
The exceptions are where the code throws, computes `NaN` or loses its own
invariant; those are listed under "Left out" and "Findings".

- No bottom margin is added to the last leaf. The branch that would add it
  tests `this.lastLeaf`, which is never assigned (src/swift-scroll.js:579).
- A queued entry whose leaf was removed by `clear` is not detected by any
  generation check in the code. `_measure` on a detached leaf changes nothing
  the tree can observe. The model skips an id that no leaf carries any more.
- A leaf that gains a node is queued for measuring (src/swift-scroll.js:210),
  but it keeps its `lastMeasured`. When that already equals `state`, the queued
  `_measure` returns at once (src/swift-scroll.js:485), and the leaf's height
  stays what it was before the insertion until the next resize advances
  `state`. The design promises that changed leaves are re-measured. The model
  keeps the code's behaviour: insertion and the partition keep the leaf's epoch, and
  `Measure.MeasureAt` is a no-op at `epoch == state`.

## Model

| member | source | states |
|---|---|---|
| Tree.MaxWidth | src/swift-scroll.js:586-593 | The width `_calculateWidth` computes, starting from 0: it is at least 0, no child is wider, and it is 0 or the width of some child. |
| Tree.MaxWidthIs | src/swift-scroll.js:586-593 | A non-negative bound that no child exceeds and that is 0 or attained is the maximum width. This is the uniqueness half of the characterisation. |
| Tree.MinEpoch | src/swift-scroll.js:504-512 | The `lastMeasured` of a branch is 0 with no children. Otherwise it is at most every child's epoch and equal to one of them. |
| Tree.SizeIsLeafTotal | src/swift-scroll.js:497-511 | In a tree whose branches cache their children's sums, every node's count and height equal the sum over the leaves below it. |
| Tree.NodeTotalIsItemCount | src/swift-scroll.js:164-169 | Over leaves whose counts match their items, the summed `domChildNodes` is the number of items and the summed `domChildren` the number of elements. |
| Tree.LeafPath | src/swift-scroll.js:693-713 | Every position in the leaf order has a path to its leaf, and the position of that path is the one asked for. Paths stand in for the `parent` links. |
| Aggregates.MeasureBranch | src/swift-scroll.js:491-513 | A re-measured branch has counts and height equal to the sums over its children. No child is wider than it, and its width is 0 or some child's. Its width is at least 0, and its epoch is the smallest of the children's. With no children its box is all zeros. |
| Aggregates.MeasureBranchSums | src/swift-scroll.js:491-513 | Re-measuring a branch over summed children gives a summed subtree. |
| Aggregates.MeasureBranchWidths | src/swift-scroll.js:491-513 | Re-measuring a branch over children that keep their maxima gives a subtree that keeps its maxima. |
| Aggregates.CalculateWidth | src/swift-scroll.js:586-593 | The new width is at least 0, no child is wider, and it is 0 or some child's width. Children, sums and epoch stay. Over children that keep their maxima the branch keeps its maximum. On a branch already at its children's maximum it changes nothing. The `_setWidth` walk uses it. |
| Aggregates.WidthWalk | src/swift-scroll.js:598-616 | The upward walk of `_setWidth` gives the leaf the new width. It changes nothing else of the node it starts from but its width, and keeps the shape. |
| Aggregates.SetWidth | src/swift-scroll.js:598-616 | `_setWidth` gives the leaf the new width and leaves the root's box unchanged apart from its width. |
| Aggregates.WalkWidths | src/swift-scroll.js:602-608 | The walk keeps every branch the maximum of its children. It stops only where the width is unchanged. It continues only through a node that grows or was exactly as wide as the leaf. A node narrower than the new width always grows to it. |
| Aggregates.SetWidthKeepsWidths | src/swift-scroll.js:598-616 | `_setWidth` preserves "every branch is as wide as its widest child". |
| Aggregates.SetWidthKeeps | src/swift-scroll.js:598-616 | `_setWidth` keeps the degree bound, the sums and the non-empty branches. In the leaf order only the one leaf changes. |
| Split.Halves | src/swift-scroll.js:267-273 | The cut at `half = floor(len / 2)`: both halves are non-empty, the right one is at most one longer, and together they hold the children in order. |
| Split.HalvesLeaves | src/swift-scroll.js:267-273 | The two halves hold the node's leaves in order. |
| Split.HalvesSums | src/swift-scroll.js:267-275 | Each half, measured from its own children, is summed, and the two halves add up to the node's sums. |
| Split.HalvesWidths | src/swift-scroll.js:267-275 | Each half keeps its maximum width, and together they are as wide as the node. |
| Split.HalvesBounded | src/swift-scroll.js:258-273 | A branch with at most one child too many is cut into two halves that are within the bound. |
| Split.Halve | src/swift-scroll.js:266-277 | One split step replaces the branch in its parent by its two halves. The parent gains one child and the root's box is unchanged. |
| Split.HalveKeeps | src/swift-scroll.js:266-277 | One split step keeps the leaf order, the sums, the widths and the non-empty branches, and moves the one over-full branch up to the parent. |
| Split.Wrap | src/swift-scroll.js:259-264 | An over-full root gets a new root above it, measured at once: the old root is its only child and it has the old root's sums and width. |
| Split.WrapKeeps | src/swift-scroll.js:259-264 | Wrapping the root keeps the leaf order and every invariant. The old root becomes the one branch over the bound. |
| Split.SplitNode | src/swift-scroll.js:257-279 | `_splitNode` from the branch at a path: halve while over the bound, wrapping the root first, and move up. |
| Split.SplitNodeKeeps | src/swift-scroll.js:257-279 | After `_splitNode` from the one branch that is over by one child, no branch exceeds the bound. The leaf order, the sums, the widths and the non-empty branches are as before. |
| Split.HalveAsWritten | src/swift-scroll.js:273-275 | The split step as written: the shrunk branch is re-measured through `_measure`, which returns early when its epoch equals the state, so it keeps its old box. |
| Split.HalveAsWrittenLosesSums | src/swift-scroll.js:273-275 | On a summed three-leaf tree with the bound 2, the split as written leaves a branch whose height is not its children's sum. The corrected split keeps the sums. |
| Update.AddAlong | src/swift-scroll.js:197-205 | Adding a delta to a node and every ancestor shifts that node's box and the root's by the delta and keeps the shape. |
| Update.AddAlongKeeps | src/swift-scroll.js:546-551 | Adding the same delta to a leaf and all its ancestors keeps every branch the sum of its children. It also keeps the widths, the bound and the non-empty branches. |
| Update.AddAlongLeaf | src/swift-scroll.js:546-551 | Adding a delta along a leaf's path changes that leaf only, in the leaf order. |
| Update.SpliceLeaves | src/swift-scroll.js:219-220 | Putting a run of nodes in place of a leaf within its parent replaces that leaf, in the leaf order, by the leaves of the run. |
| Update.SpliceSums | src/swift-scroll.js:219-234 | Splicing in a run whose sums equal the replaced node's keeps every branch summed. |
| Update.SpliceWidths | src/swift-scroll.js:219-234 | Splicing in a run exactly as wide as the replaced node keeps every branch's maximum. |
| Update.SpliceBounded | src/swift-scroll.js:219-220 | Two bounded nodes in place of one leave at most the parent over the bound, and by one child. |
| Navigation.FindIn | src/swift-scroll.js:299-316 | The scan of `_findLeaf` below a branch: a found leaf lies at or after the starting child. Its size takes the running sum past the value. Either the skipped sums do not exceed the value, or it is the first leaf of the starting child. |
| Navigation.FindLeaf | src/swift-scroll.js:281-317 | `_findLeaf(property, value)` returns a leaf whose size takes the reported sum past the value, or `None`. |
| Navigation.FindLeafBefore | src/swift-scroll.js:291-313 | The sums reported with the found leaf are the cached sums of the nodes left of its path. |
| Navigation.BeforeIsLeafPrefix | src/swift-scroll.js:291-313 | In a summed tree, the sums left of a leaf's path are the sums over the leaves before it in order. |
| Navigation.FindLeafCorrect | src/swift-scroll.js:281-289 | What the doc comment promises. A found leaf is reported with the sums of the leaves before it. It covers a non-negative value; over non-negative sizes it is the only such leaf (`CoversUnique`). For any value, the found leaf is the first one or the leaves before it do not exceed the value. `None` means the tree is empty or its total does not exceed the value. |
| Navigation.FindLeafPastEnd | src/swift-scroll.js:300-316 | Conversely, over non-negative sizes, a value at or past the total finds nothing. |
| Navigation.CoversUnique | src/swift-scroll.js:281-289 | Over non-negative sizes at most one leaf covers a value. |
| Navigation.LeftmostPath | src/swift-scroll.js:448-451 | Descending along first children reaches the first leaf in order. |
| Navigation.RightmostPath | src/swift-scroll.js:325-330 | Descending along last children reaches the last leaf in order. |
| Navigation.FindLastLeaf | src/swift-scroll.js:323-339 | `_findLastLeaf` is `None` exactly when the tree has no leaf. Otherwise it is the last leaf in order. |
| Navigation.FindLastLeafBefore | src/swift-scroll.js:334-337 | The sums `_findLastLeaf` reports are the root's minus the last leaf's, which are the sums of all the other leaves. |
| Navigation.SiblingLeaf | src/swift-scroll.js:347-359 | `_siblingLeaf` returns the leaf right before (or after) the given one in order. It returns `None` exactly at the first (or last) leaf. |
| Navigation.LastLeafBefore | src/swift-scroll.js:354-357 | Descending along last children from the sibling before child `i` reaches the leaf just before that child's leaves. There is none exactly when `i` is 0. |
| Navigation.FirstLeafAfter | src/swift-scroll.js:354-357 | Descending along first children from the sibling after child `i` reaches the leaf just after that child's leaves. There is none exactly when `i` is the last child. |
| Measure.CalculateMargin | src/swift-scroll.js:559-583 | The margin above a leaf is the larger of its top margin and the bottom margin of the previous leaf in document order, or 0 for the first leaf. |
| Measure.MarginsCollapse | src/swift-scroll.js:522-529 | A bottom margin of 15 followed by a top margin of 20 leaves 20 between the two leaves, not 35. |
| Measure.MeasureMargin | src/swift-scroll.js:532-534 | With the new margins stored first, the margin `_measureLeafNode` computes uses the new top margin and the previous leaf's bottom margin. |
| Measure.Restyle | src/swift-scroll.js:530-545 | The leaf takes its new margins, its new width through `_setWidth` and the current state as its epoch. It stays at its path. |
| Measure.RestyleLeaves | src/swift-scroll.js:530-545 | Restyling replaces only the one leaf in order, by the leaf with the new margins, width and epoch. |
| Measure.MeasureLeaf | src/swift-scroll.js:516-556 | `_measureLeafNode` keeps the leaf at its path and no branch below the root empty. |
| Measure.MeasureLeafLeaves | src/swift-scroll.js:536-551 | Measuring a leaf replaces only that leaf in order. It gets the reported width and the reported height plus the collapsed margin, and its epoch is the current state. |
| Measure.MeasureLeafKeeps | src/swift-scroll.js:543-551 | Measuring a leaf keeps every invariant of the tree: bound, sums, widths, counts, non-empty branches. |
| Measure.CountedAfterMeasure | src/swift-scroll.js:543-551 | Measuring a leaf keeps every leaf's counts equal to those of its items, since the counts of a leaf are not touched by the height update. |
| Measure.MeasureAt | src/swift-scroll.js:484-488 | `_measure` does nothing on a node measured in the current state. A leaf it measures ends with the current state as its epoch. |
| Measure.MeasureLeafOnce | src/swift-scroll.js:484-485 | Measuring the same leaf twice in one state is the same as measuring it once, whatever the second report says. |
| Partition.Cut | src/swift-scroll.js:218-234 | A cut before item `i` leaves two leaves holding the items in order. The old leaf keeps its id and flag. The new leaf has the fresh id, the flag of item `i` and an empty, unmeasured box. Counts stay matched. |
| Partition.CutTotals | src/swift-scroll.js:231-234 | The two pieces add up to the sums of the leaf they replace and are as wide as it. |
| Partition.CutUniform | src/swift-scroll.js:215-240 | Under the scan's invariant, the piece left behind is uniform, and the scan may continue in the new leaf from its second item. |
| Partition.SplitLeafKeeps | src/swift-scroll.js:218-237 | One cut keeps the tree well formed and replaces the leaf, in order, by its two pieces. |
| Partition.PartitionFrom | src/swift-scroll.js:211-249 | The scan from item `i`: an inline item after inline ones stays, any other item starts a new leaf, and the scan goes on in it. |
| Partition.PartitionFromCorrect | src/swift-scroll.js:207-249 | The scan replaces the leaf, in order, by uniform leaves that hold its items in order. The first keeps its id and the others take consecutive fresh ids. |
| Partition.SetBlock | src/swift-scroll.js:243-246 | After the flag step a non-empty leaf is settled at its first item: it is marked block exactly when that item is a block element. The flag is written only when it differs, so a leaf that already agrees, or an empty one, is unchanged. Items, id, box and margins stay. |
| Partition.Partition | src/swift-scroll.js:207-249 | The flag step and the scan of `_leafDomUpdated` keep the tree well formed. |
| Partition.FlagStep | src/swift-scroll.js:243-246 | After the flag step the leaf is settled at its first item, and the scan may start there. |
| Partition.PartitionCorrect | src/swift-scroll.js:207-249 | An empty leaf is left alone. Any other leaf is replaced by uniform leaves holding its items in order. The tree's items are unchanged. |
| Partition.PartitionedItems | src/swift-scroll.js:207-249 | After the partition the concatenated items of all leaves are as before. |
| Partition.PartitionedUniform | src/swift-scroll.js:13-17 | If every other leaf was uniform, every leaf is uniform after the partition. |
| Partition.InsertInto | src/swift-scroll.js:139-147 | Inserting before item `j`, or appending when `j` is past the end, adds exactly one item. |
| Partition.InsertIntoAsWritten | src/swift-scroll.js:139-147 | As written, the insertion succeeds exactly when `j` is at or past the leaf's cached count. It then agrees with `InsertInto` on a counted leaf; otherwise it throws. |
| Partition.InsertBeforeThrows | src/swift-scroll.js:141-146 | For a counted one-item leaf and `j = 0`, the insertion as written throws, while `InsertInto` puts the node first. |
| Partition.InsertIntoIs | src/swift-scroll.js:139-147 | The inserted node sits at `min(j, length)`, with the items before and after it unchanged. |
| Partition.InsertItem | src/swift-scroll.js:136-147 | The insertion into the leaf's element keeps the leaf at its path and the branches non-empty. |
| Partition.Recount | src/swift-scroll.js:164-205 | The count step makes the leaf's counts those of its items. |
| Partition.RecountKeeps | src/swift-scroll.js:197-205 | Adding the leaf's count difference to it and every ancestor restores every invariant. The leaf keeps its items and is the only leaf that changes. |
| Partition.InsertRecountKeeps | src/swift-scroll.js:136-205 | Inserting a node and recounting keeps the tree well formed. |
| Partition.InsertRecountLeaves | src/swift-scroll.js:136-205 | Inserting and recounting changes only the one leaf, whose items gain the node before item `j`. |
| Partition.InsertRecountLeaf | src/swift-scroll.js:136-205 | The leaf that received the node keeps its id and its block flag. |
| Partition.InsertRecountItems | src/swift-scroll.js:136-205 | Inserting and recounting inserts the node into the tree's document order, at the leaf's offset plus `min(j, length)`. |
| Partition.ScanAsWritten | src/swift-scroll.js:211-240 | The scan as written inserts every new leaf at the stale `results.childIndex + 1`. |
| Partition.PartitionAsWritten | src/swift-scroll.js:207-249 | The flag step and the scan as written, over one parent. |
| Partition.PartitionAsWrittenReorders | src/swift-scroll.js:219-220 | For the items text, block element, text, the scan as written orders the leaves' items as text, text, block element. The items are not in document order. |
| Scheduler.Schedule | src/swift-scroll.js:668-678 | After a request the update waits. The updates waiting are the old ones and the new one. The old list is a prefix of the new one, and no update waits twice. |
| Scheduler.ScheduleIdempotent | src/swift-scroll.js:675-677 | A second request of a waiting update changes nothing. |
| Scheduler.ScheduleAllFirstRequests | src/swift-scroll.js:668-678 | After a burst of requests, the list holds each requested update once, in the order of its first request. |
| Scheduler.Flush | src/swift-scroll.js:671-674 | The flush runs exactly the waiting updates, none twice when the list had no repeats. Nothing stays armed, so the next request arms a new flush holding only itself. |
| Scheduler.FlushRunsFirstRequests | src/swift-scroll.js:668-678 | A flush after a burst of requests runs each requested update once, in the order of its first request, and leaves the next request to arm a new flush. |
| Scheduler.AddToUpdateQueue | src/swift-scroll.js:659-665 | The id always joins the back of the queue. The worker is scheduled only when none is scheduled or running. The flag and the liveness of the worker are kept. |
| Scheduler.AddAll | src/swift-scroll.js:659-665 | Adding a run of ids appends them in order and keeps the worker live. |
| Scheduler.AddAllSchedulesOnce | src/swift-scroll.js:659-665 | A burst of additions schedules a start of the worker at most once, and only if none was scheduled or running. |
| Scheduler.RunSlice | src/swift-scroll.js:640-651 | One time slice clears the flag exactly when the queue runs dry, and continues on a timer exactly when ids are left. |
| Scheduler.RunSliceFifo | src/swift-scroll.js:642-648 | A slice is first-in first-out. It measures the first `budget` ids, or all of them if fewer, and leaves the rest queued in order. |
| Scheduler.SliceKeepsTracked | src/swift-scroll.js:645-650 | After a slice the flag is set exactly while ids remain. |
| Scheduler.SlicesCompose | src/swift-scroll.js:640-652 | Two slices in a row measure what one slice with their joint budget would, and leave the same worker. |
| Scheduler.SliceProgress | src/swift-scroll.js:642-644 | A slice with a positive budget shortens the queue. |
| Scheduler.StartWorker | src/swift-scroll.js:639-653 | `_startUpdateWorker` measures the head of the queue in order. Started from a waiting start, it leaves the worker live. |
| Scheduler.Resume | src/swift-scroll.js:640-651 | The continuation timer disarms itself and runs the next slice. It keeps the worker live. It measures the first `min(budget, n)` queued ids in order, and the rest stays queued in order, so what it measured followed by what is left is the queue it started from. The scheduled updates are untouched. |
| Scheduler.ScheduleForceKeepsLive | src/swift-scroll.js:152 | Scheduling a viewport update does not disturb the worker's liveness. |
| Windower.Render | src/swift-scroll.js:396-456 | A pass covers the band `[top - 2 * buffer, top + height + 2 * buffer]`. It renders a run of consecutive leaves after a padding of the heights above it. The run's first leaf ends below the band's start, and it is leaf 0 or the padding does not exceed the start; for a non-negative start it is the leaf covering the start. It stops at the first leaf whose bottom reaches the band's end, or at the last leaf. The run's leaves are measured, and no other leaf and no item changes. |
| Windower.RenderFrom | src/swift-scroll.js:426-456 | The pass once the descent found the first leaf ending below the band's start, with the same guarantees. |
| Windower.NegativeStartRendersFirst | src/swift-scroll.js:397-416 | Over non-negative heights, a band with a negative start (the viewport within `2 * buffer` of the top) is rendered from leaf 0 with no padding, and a pass renders nothing only when there are no leaves. |
| Windower.RenderedNothing | src/swift-scroll.js:406-417 | When the tree ends above the band's start, nothing is rendered and the padding is the tree's height. |
| Windower.StartCovers | src/swift-scroll.js:400-416 | The descent's `top` is the height of the leaves before the found leaf, and that leaf ends below the band's start. It is leaf 0 or `top` does not exceed the start, so for a non-negative start it covers the start. |
| Windower.Walk | src/swift-scroll.js:428-453 | The loop visits leaves in order from the first one. `renderedBottom` is the running bottom once it reaches the end, and 0 when the leaves run out first. |
| Windower.Turn | src/swift-scroll.js:430-451 | One turn visits the next leaf in order and adds its height to the bottom. |
| Windower.Visit | src/swift-scroll.js:431-434 | Visiting a leaf measures it when it was measured before the current state. Only that leaf changes, and its items stay. |
| Windower.Advance | src/swift-scroll.js:440-451 | The index-stack step reaches the next leaf in order, which is then visited. |
| Windower.UpdateViewportPosition | src/swift-scroll.js:383-458 | Nothing happens while the viewport stays inside the rendered band less the buffer. Otherwise a pass renders a band reaching `2 * buffer` beyond the viewport on both sides, with all of `Render`'s guarantees. The run starts at the first leaf ending below the band's start whose top does not exceed it, or at leaf 0. It is contiguous, its leaves are measured, and no other leaf changes. |
| Windower.ForceUpdateViewportPosition | src/swift-scroll.js:373-380 | After the reset to `-Infinity` a pass always runs, whatever was rendered before. It has all of `Render`'s guarantees: the band around the viewport is rendered, from leaf 0 or a leaf whose top does not exceed the band's start, as a contiguous, measured run, and no other leaf changes. |
| Windower.NoPassWithinBuffer | src/swift-scroll.js:388-395 | After a pass, scrolling by at most `buffer` with the same viewport height does not trigger another one. |
| Engine.SyncMirror | src/swift-scroll.js:181-195 | The stale stretch of a mirror list becomes the leaf's current list. The splice is skipped when they already agree, giving the same list. |
| Engine.SpliceMirrors | src/swift-scroll.js:162-195 | After an insertion into a leaf, both mirror lists gain the node at its position in document order, and `children` stays the element sublist of `childNodes`. |
| Engine.InsertTree | src/swift-scroll.js:136-150 | The insertion, the recount and the partition keep the tree well formed and every leaf uniform, with unique ids. They insert the node into document order. |
| Engine.PartedKeeps | src/swift-scroll.js:218-236 | Partitioning keeps every leaf uniform and every id unique and below the next fresh id. |
| Engine.InsertInLeaf | src/swift-scroll.js:136-153 | `_insertNodeInLeaf` keeps the scroller valid and inserts the node into `childNodes` at the leaf's offset. It queues the leaf for measuring after what was queued, and schedules a viewport update. |
| Engine.Queued | src/swift-scroll.js:207-236 | The worker side of an insertion: the new leaves join the back of the queue in order, a viewport update waits, and a live worker stays live. |
| Engine.FirstLeaf | src/swift-scroll.js:93-100 | The leaf `append` creates in an empty tree is empty, unmeasured and counted. |
| Engine.FirstLeafValid | src/swift-scroll.js:91-101 | An empty scroller with one new leaf under its root is valid, and that leaf is the first and only one. |
| Engine.EndOfLastLeaf | src/swift-scroll.js:90-102 | Inserting at the end of the last leaf inserts at the end of the document. |
| Engine.Append | src/swift-scroll.js:89-103 | `append` keeps the scroller valid, adds the node at the end of `childNodes` and schedules a viewport update. |
| Engine.IndexInLeaf | src/swift-scroll.js:112-114 | For a non-negative index, the found leaf starts at or before the index, and the offset `index - results.domChildNodes` within it puts the node at that index. |
| Engine.IndexPastEnd | src/swift-scroll.js:115-117 | The lookup finds nothing only for an index at or past the number of child nodes. |
| Engine.InsertAt | src/swift-scroll.js:110-118 | `insertAt` makes the node `childNodes[index]`. A negative index counts as 0, and an index past the end appends. The scroller stays valid. |
| Engine.Clear | src/swift-scroll.js:120-125 | `clear` leaves no items and schedules a viewport update. The queue is left alone and the scroller stays valid. |
| Engine.MeasureId | src/swift-scroll.js:643-644 | One turn of the worker applies `_measure` to the leaf with the id, if it is still in the tree. That leaf ends measured in the current state, and no other leaf changes. |
| Engine.MeasureIds | src/swift-scroll.js:642-649 | The worker measures a slice's ids in order. Only the leaves with those ids change, and their items stay. |
| Engine.RunWorker | src/swift-scroll.js:639-653 | `doSomeUpdates` measures the head of the queue, removes it from the queue, keeps the worker live and the document unchanged. With a positive budget it makes progress. |
| Engine.ResumeWorker | src/swift-scroll.js:640-651 | The continuation timer runs one more slice through `Scheduler.Resume`. It measures the ids at the head of the queue, in order, and dequeues them. With a positive budget it makes progress. It keeps the scroller valid and leaves the document and the view unchanged. |
| Engine.Refresh | src/swift-scroll.js:373-380 | `_forceUpdateViewportPosition` renders the band around the viewport as `Windower.Rendered` describes, and changes no item. |
| Engine.Scroll | src/swift-scroll.js:70-76 | On a scroll event nothing changes unless the viewport came within the buffer of an edge of the rendered band. Then the band is rendered again around it, as `Windower.Rendered` describes. |
| Engine.CheckDimensions | src/swift-scroll.js:362-370 | `_updateViewportDimensions` records the new size. When the size changed it renders the band around the viewport as `Windower.Rendered` describes; otherwise it changes nothing. |
| Engine.Resize | src/swift-scroll.js:77-80 | The resize listener advances the state, so every leaf measured so far is due for measuring again. If the size changed, the band is rendered in the new state and its run is re-measured; otherwise the tree and the view stay. |
| Engine.RunUpdate | src/swift-scroll.js:672 | One update of a flush keeps the scroller's invariants and the liveness of a start still to come. A viewport update renders the band. |
| Engine.FlushOne | src/swift-scroll.js:672 | One turn of the flush keeps the flush's invariant. |
| Engine.FlushUpdates | src/swift-scroll.js:671-674 | The flush runs each waiting update once, keeps the scroller valid, leaves the document unchanged and drops the list. A waiting viewport update renders the band. |
| Engine.Empty | src/swift-scroll.js:40-45 | The constructor's starting state is valid, with no items and an empty queue. |
| Engine.AppendNext | src/swift-scroll.js:64-67 | One turn of the constructor's loop appends the next node after the ones before it. |
| Engine.Create | src/swift-scroll.js:28-83 | The constructor appends the container's nodes in order, reads the viewport size and renders the band around it. |

## Left out

- DOM manipulation is not modelled: moving elements between leaf elements, the
  viewport and the scroller, and setting `paddingTop` and the scroller's height.
  Its effect on the document is modelled through the mirror lists and the rendered `View`.
- The host is not modelled: `getComputedStyle`, `getBoundingClientRect`,
  `parseInt`, `clientWidth`/`clientHeight` and `scrollTop`. They become
  parameters (`host`, `scrollTop`, `width`, `height`) with integer values.
- `setTimeout` and `Date.now` are not modelled. The worker's time slice is a
  budget of loop turns, and timers firing are the operations `FlushUpdates`
  and `ResumeWorker`.
- Floating-point `-Infinity` becomes the `NegInf` bound.
- src/dom-abstraction.js is not part of this model. It intercepts the host's
  child lists and is proxy plumbing; the mirrors it reads are modelled as
  `childNodes` and `children`.
- src/util.js is not part of this model. Its resize detection is DOM event
  plumbing; a resize is the operation `Engine.Resize`.
- `_getHeight` and `_getWidth` are field reads, and are used as such. The
  `calculate` flag is never set by their callers.
- The `index` field of `TreeNode` is always 0 and is left out.
- The bottom margin of the last leaf is left out (src/swift-scroll.js:579-581).
  `this.lastLeaf` is never assigned, so that branch never runs.
- `_findLeaf` as written does not run. Its first iteration reads the root's
  parent, which is null (src/swift-scroll.js:301). Its `else` branch assigns
  undeclared names (src/swift-scroll.js:310-313). `Navigation.FindLeaf` models
  the documented behaviour (src/swift-scroll.js:281-289) and reports the sums
  of the skipped nodes.
- Partition.InsertInto: inserting before item `j` is the intended behaviour,
  not the code's. As written, that branch reads `results.node.childNodes[index]`
  (src/swift-scroll.js:145), but a leaf `TreeNode` has only `element` and no
  `childNodes` field (src/swift-scroll.js:693-713), so the branch throws. The
  model inserts before item `j` of the leaf element's own child list.
  `Partition.InsertIntoAsWritten` models the code, and the Findings table
  records the gap.
- Partition.InsertIntoIs: the position it characterises, before item `j`, is
  the one the throwing branch was meant to reach. As written, only an
  insertion at or past the end of the leaf succeeds.
- Engine.InsertInLeaf and Engine.InsertAt inherit the intended insertion. An
  index inside the content throws in the source.
- Engine.FirstLeaf: the new leaf's margins start at 0. In the source,
  `marginTop` and `marginBottom` stay undefined until `_measureLeafNode`
  sets them (src/swift-scroll.js:532-533, 693-709). `_calculateMargin` then
  takes `Math.max` with an unmeasured previous leaf's `marginBottom` and gets
  `NaN` (src/swift-scroll.js:569, 578), which spreads through the heights.
  The model reads 0 there, so `Measure.CalculateMargin` does not describe
  that case.
- Partition.Cut: the leaf a cut creates also starts with margins 0, where the
  source leaves them undefined (src/swift-scroll.js:218-221). The same `NaN`
  follows when it precedes a leaf measured before it.
- `_leafDomUpdated` is modelled only as `_insertNodeInLeaf` calls it, after one
  insertion. A style change that turns a block element inline has no caller in
  this source.
- The source's crash when `updateQueue.shift()` returns `undefined` is not
  modelled. `Scheduler.RunSlice` requires a non-empty queue. Under
  `Scheduler.Live` the worker runs only with ids queued, because every start
  follows a push and the flag is cleared when the queue empties.
- Engine.Clear: queued ids of removed leaves stay in the queue, as in the
  source. The worker skips them rather than measuring a detached leaf, which
  the tree could not observe anyway.
- `nodeMaxChildren` below 2 is excluded (`Tree.Wf` requires `2 <= max`). With
  1, the root wrapped by `_splitNode` has two children again, so the loop
  never ends.

## Findings

| source | as written | input that shows it | evidently intended | confidence | as-written member | corrected member |
|---|---|---|---|---|---|---|
| src/swift-scroll.js:273-275 | The shrunk branch is re-measured with `_measure`, which returns at once when its `lastMeasured` equals the current state (line 485), so it keeps the height and counts of all its former children. | `nodeMaxChildren` 2, and a branch measured in state 1 over three leaves of height 1, split in state 1: the left half holds one leaf of height 1 but keeps height 3. | The halves are re-aggregated from their own children, as `_measureBranchNode` does. | not executed | Split.HalveAsWrittenLosesSums | Split.SplitNodeKeeps |
| src/swift-scroll.js:220 | Each leaf split off during the scan is inserted at `results.childIndex + 1`, the position after the leaf the scan started from, not after the current leaf. | One inline leaf holding text, a block element, text: the second cut lands ahead of the block element's leaf, so the leaves hold text, text, block element. | Each new leaf goes right after the leaf it was cut from, keeping document order. | not executed | Partition.PartitionAsWrittenReorders | Partition.PartitionCorrect |
| src/swift-scroll.js:141-146 | A node inserted before item `index` of a leaf is placed before `results.node.childNodes[index]`, but a leaf `TreeNode` has no `childNodes` field (lines 693-713), so the lookup throws a `TypeError`. | `insertAt(0, x)` on a scroller whose only leaf holds one text node, with `_findLeaf` behaving as documented: `index` 0 is below `domChildNodes` 1, so the `insertBefore` branch runs. | Insert before the leaf element's own child `index`. | not executed | Partition.InsertBeforeThrows | Partition.InsertIntoIs |

=== FILE: aggregate.dfy ===
/**
 Maintenance of the cached aggregates: recomputing a branch from its children
 (`_measureBranchNode`, `_calculateWidth`) and propagating a leaf's new width up
 the tree (`_setWidth`), which stops at the first ancestor it cannot affect.
 */
module Aggregates {
  import opened Tree
  import opened Update

  /** `_measureBranchNode`: the branch's box recomputed from its children. */
  function MeasureBranch(n: Node): (r: Node)
    requires n.Branch?
    ensures r.Branch? && r.children == n.children
    ensures forall m: Metric :: Size(r, m) == Total(n.children, m)
    ensures 0 <= r.box.width
    ensures forall i :: 0 <= i < |n.children| ==> n.children[i].box.width <= r.box.width
    ensures r.box.width == 0 || exists i :: 0 <= i < |n.children| && n.children[i].box.width == r.box.width
    ensures forall i :: 0 <= i < |n.children| ==> r.box.epoch <= n.children[i].box.epoch
    ensures n.children != [] ==> exists i :: 0 <= i < |n.children| && n.children[i].box.epoch == r.box.epoch
    ensures n.children == [] ==> r.box == EmptyBox
  {
    Branch(n.children, Aggregate(n.children))
  }

  /** A re-measured branch over settled children is itself settled. */
  lemma MeasureBranchSums(n: Node)
    requires n.Branch? && forall i :: 0 <= i < |n.children| ==> Sums(n.children[i])
    ensures Sums(MeasureBranch(n))
  {
  }

  lemma MeasureBranchWidths(n: Node)
    requires n.Branch? && forall i :: 0 <= i < |n.children| ==> Widths(n.children[i])
    ensures Widths(MeasureBranch(n))
  {
    MaxWidthIs(n.children, MeasureBranch(n).box.width);
  }

  /** `_calculateWidth`: only the width is recomputed, as the maximum over the children
      starting from 0. */
  function CalculateWidth(n: Node): (r: Node)
    requires n.Branch?
    ensures r.Branch? && r.children == n.children && SameSums(r, n) && r.box.epoch == n.box.epoch
    ensures 0 <= r.box.width
    ensures forall i :: 0 <= i < |n.children| ==> n.children[i].box.width <= r.box.width
    ensures r.box.width == 0 || exists i :: 0 <= i < |n.children| && n.children[i].box.width == r.box.width
    ensures (forall i :: 0 <= i < |n.children| ==> Widths(n.children[i])) ==> Widths(r)
    ensures Widths(n) ==> r == n
  {
    Branch(n.children, n.box.(width := MaxWidth(n.children)))
  }

  /** The result of the upward width walk below a node: the new subtree, and whether
      the walk already stopped at or below it (the `break` of `_setWidth`). */
  datatype Walked = Walked(node: Node, stopped: bool)

  /** `_setWidth` walked from the root down to the leaf at `p`: the leaf takes width
      `w`; each ancestor, nearest first, either grows to `w`, is recomputed when it
      was exactly as wide as the leaf was (`oldW`), or ends the walk. */
  function WidthWalk(n: Node, p: seq<nat>, w: int, oldW: int): (r: Walked)
    requires IsLeafPath(n, p)
    ensures ValidPath(r.node, p) && At(r.node, p) == WithBox(At(n, p), At(n, p).box.(width := w))
    ensures r.node.box.(width := 0) == n.box.(width := 0)
    ensures r.node.Leaf? == n.Leaf? && (n.Branch? ==> |r.node.children| == |n.children|)
    decreases p
  {
    if p == [] then Walked(WithBox(n, n.box.(width := w)), false)
    else
      var i := p[0];
      var sub := WidthWalk(n.children[i], p[1..], w, oldW);
      var cs := n.children[i := sub.node];
      if sub.stopped then Walked(Branch(cs, n.box), true)
      else if w > n.box.width then Walked(Branch(cs, n.box.(width := w)), false)
      else if n.box.width == oldW then Walked(CalculateWidth(Branch(cs, n.box)), false)
      else Walked(Branch(cs, n.box), true)
  }

  /** `_setWidth(leaf, w)`, which does nothing when the width is unchanged. */
  function SetWidth(root: Node, p: seq<nat>, w: int): (r: Node)
    requires IsLeafPath(root, p)
    ensures IsLeafPath(r, p) && At(r, p) == WithBox(At(root, p), At(root, p).box.(width := w))
    ensures r.box.(width := 0) == root.box.(width := 0) && r.Branch? == root.Branch?
  {
    var l := At(root, p);
    if w == l.box.width then
      assert WithBox(l, l.box.(width := w)) == l;
      root
    else WidthWalk(root, p, w, l.box.width).node
  }

  lemma MaxWidthAtMost(ns: seq<Node>, bound: int)
    requires 0 <= bound && forall j :: 0 <= j < |ns| ==> ns[j].box.width <= bound
    ensures MaxWidth(ns) <= bound
  {
  }

  /** One level of the walk, when the walk continues above the child: the parent
      either grows to `w` or is recomputed. */
  lemma WalkGrowStep(n: Node, i: nat, c: Node, w: int)
    requires n.Branch? && i < |n.children| && Widths(n) && Widths(c)
    requires w > n.box.width && c.box.width == w
    ensures Widths(Branch(n.children[i := c], n.box.(width := w)))
  {
    var cs := n.children[i := c];
    assert cs[i].box.width == w;
    assert forall j :: 0 <= j < |cs| ==> Widths(cs[j]);
    MaxWidthIs(cs, w);
  }

  /** One level of the walk, when it stops at the parent: the changed child stays
      within the parent's width and keeps it when it was the widest. */
  lemma WalkStopStep(n: Node, i: nat, c: Node)
    requires n.Branch? && i < |n.children| && Widths(n) && Widths(c)
    requires c.box.width <= n.box.width
    requires n.children[i].box.width == n.box.width ==> c.box.width == n.box.width
    ensures Widths(Branch(n.children[i := c], n.box))
  {
    var cs := n.children[i := c];
    assert forall j :: 0 <= j < |cs| ==> Widths(cs[j]);
    if n.box.width != 0 {
      var j :| 0 <= j < |n.children| && n.children[j].box.width == n.box.width;
      assert cs[j].box.width == n.box.width;
    }
    MaxWidthIs(cs, n.box.width);
  }

  /** The inductive statement behind `_setWidth`: the walk keeps every branch the
      maximum of its children; it only stops where the width is unchanged; it
      continues only through nodes that grew or were exactly as wide as the leaf. */
  lemma {:induction false} WalkWidths(n: Node, p: seq<nat>, w: int, oldW: int)
    requires IsLeafPath(n, p) && Widths(n) && oldW == At(n, p).box.width
    ensures var r := WidthWalk(n, p, w, oldW);
      && Widths(r.node)
      && (r.stopped ==> r.node.box.width == n.box.width)
      && (!r.stopped ==> n.box.width == oldW || w > n.box.width)
      && r.node.box.width <= Max(n.box.width, w)
      && (w > n.box.width ==> !r.stopped && r.node.box.width == w)
    decreases p
  {
    if p != [] {
      var i := p[0];
      var c0 := n.children[i];
      var sub := WidthWalk(c0, p[1..], w, oldW);
      var cs := n.children[i := sub.node];
      WalkWidths(c0, p[1..], w, oldW);
      assert c0.box.width <= n.box.width;
      if sub.stopped {
        WidthsStep(n, i, sub.node, n.box);
      } else if w > n.box.width {
        WalkGrowStep(n, i, sub.node, w);
      } else if n.box.width == oldW {
        assert forall j :: 0 <= j < |cs| ==> Widths(cs[j]);
        assert cs[i].box.width <= Max(n.box.width, w);
        MaxWidthAtMost(cs, Max(n.box.width, w));
      } else {
        WalkStopStep(n, i, sub.node);
      }
    }
  }

  /** `_setWidth` preserves "every branch is as wide as its widest child". */
  lemma SetWidthKeepsWidths(root: Node, p: seq<nat>, w: int)
    requires IsLeafPath(root, p) && Widths(root)
    ensures Widths(SetWidth(root, p, w))
  {
    var l := At(root, p);
    if w != l.box.width {
      WalkWidths(root, p, w, l.box.width);
    }
  }

  /** The walk touches only widths: shape, sums and the leaf sequence apart from
      the one leaf's width are as before. */
  lemma {:induction false} WalkKeeps(n: Node, p: seq<nat>, w: int, oldW: int, max: nat)
    requires IsLeafPath(n, p)
    ensures NonEmpty(n) ==> NonEmpty(WidthWalk(n, p, w, oldW).node)
    ensures Bounded(n, max) ==> Bounded(WidthWalk(n, p, w, oldW).node, max)
    ensures Sums(n) ==> Sums(WidthWalk(n, p, w, oldW).node)
    decreases p
  {
    if p != [] {
      var i := p[0];
      var r := WidthWalk(n, p, w, oldW);
      var c := WidthWalk(n.children[i], p[1..], w, oldW).node;
      WalkKeeps(n.children[i], p[1..], w, oldW, max);
      assert r.node == Branch(n.children[i := c], r.node.box);
      if NonEmpty(n) {
        NonEmptyStep(n, i, c, r.node.box);
      }
      if Bounded(n, max) {
        BoundedStep(n, i, c, r.node.box, max);
      }
      if Sums(n) {
        assert SameSums(c, n.children[i]);
        SumsStep(n, i, c, r.node.box);
      }
    }
  }

  lemma {:induction false} WalkLeaves(n: Node, p: seq<nat>, w: int, oldW: int)
    requires IsLeafPath(n, p)
    ensures IsLeafPath(WidthWalk(n, p, w, oldW).node, p)
    ensures LeafIndex(WidthWalk(n, p, w, oldW).node, p) == LeafIndex(n, p)
    ensures Leaves(WidthWalk(n, p, w, oldW).node) == Leaves(n)[LeafIndex(n, p) := At(WidthWalk(n, p, w, oldW).node, p)]
    decreases p
  {
    if p != [] {
      var i := p[0];
      var r := WidthWalk(n, p, w, oldW).node;
      var c := WidthWalk(n.children[i], p[1..], w, oldW).node;
      WalkLeaves(n.children[i], p[1..], w, oldW);
      assert r.children == n.children[i := c];
      LeavesUpdateChild(n.children, i, c, LeafIndex(n.children[i], p[1..]), At(c, p[1..]));
      assert n.children[i := c][..i] == n.children[..i];
    }
  }

  /** `_setWidth` keeps the other invariants and changes one leaf's width only. */
  lemma SetWidthKeeps(root: Node, p: seq<nat>, w: int, max: nat)
    requires IsLeafPath(root, p)
    ensures NonEmpty(root) ==> NonEmpty(SetWidth(root, p, w))
    ensures Populated(root) ==> Populated(SetWidth(root, p, w))
    ensures Bounded(root, max) ==> Bounded(SetWidth(root, p, w), max)
    ensures Sums(root) ==> Sums(SetWidth(root, p, w))
    ensures LeafIndex(SetWidth(root, p, w), p) == LeafIndex(root, p)
    ensures Leaves(SetWidth(root, p, w)) == Leaves(root)[LeafIndex(root, p) := At(SetWidth(root, p, w), p)]
  {
    var l := At(root, p);
    if w != l.box.width {
      WalkKeeps(root, p, w, l.box.width, max);
      WalkLeaves(root, p, w, l.box.width);
      if Populated(root) && p != [] {
        var i := p[0];
        var c := WidthWalk(root.children[i], p[1..], w, l.box.width).node;
        WalkKeeps(root.children[i], p[1..], w, l.box.width, max);
        PopulatedStep(root, i, c, SetWidth(root, p, w).box);
      }
    } else {
      assert Leaves(root)[LeafIndex(root, p) := l] == Leaves(root);
    }
  }
}

=== FILE: engine.dfy ===
/**
 The scroller as a whole: the tree of leaves, the two mirror lists of the
 container's child nodes and element children, the update queue with its
 worker, and the rendered band. Every public operation of `SwiftScroll` and
 every timer callback is a step from one state to the next, and each step keeps
 `Valid`: the tree is well formed, the mirrors list the tree's items in
 document order, every leaf is uniform, leaf ids are unique and below the next
 fresh id, and no queued leaf is forgotten by the worker.
 */
module Engine {
  import opened Optional
  import opened Tree
  import opened Navigation
  import opened Measure
  import P = Partition
  import opened Scheduler
  import opened Windower

  /** The constructor's defaults for `nodeMaxChildren`, `viewportBufferSize` and
      `backgroundUpdateTime`. */
  const DefaultMaxChildren: nat := 20
  const DefaultBufferSize: int := 2000
  const DefaultUpdateTime: nat := 20

  /** The options: the degree bound, the buffer in pixels, and the worker's time
      slice, counted in loop turns. */
  datatype Settings = Settings(max: nat, buffer: int, budget: nat)

  const Defaults := Settings(DefaultMaxChildren, DefaultBufferSize, DefaultUpdateTime)

  /** The scroller's state. `childNodes` and `children` are the mirrors kept in
      `dom`; `next` is the id the next new leaf takes; `state` is the measuring
      epoch; `dims` is the last seen viewport width and height, unknown before
      the first check. */
  datatype SwiftScroll = SwiftScroll(
    settings: Settings,
    root: Node,
    childNodes: seq<Item>,
    children: seq<Item>,
    worker: Worker,
    next: nat,
    state: nat,
    dims: Option<(int, int)>,
    viewportTop: int,
    view: View)

  predicate IdsBelow(ls: seq<Node>, next: nat) {
    forall t :: 0 <= t < |ls| ==> P.LeafId(ls[t]) < next
  }

  predicate UniqueIds(ls: seq<Node>) {
    forall a, b :: 0 <= a < b < |ls| ==> P.LeafId(ls[a]) != P.LeafId(ls[b])
  }

  /** Everything but the worker's liveness. */
  predicate Core(s: SwiftScroll) {
    && Wf(s.root, s.settings.max)
    && s.childNodes == Items(s.root)
    && s.children == Elements(Items(s.root))
    && P.AllUniform(Leaves(s.root))
    && IdsBelow(Leaves(s.root), s.next)
    && UniqueIds(Leaves(s.root))
  }

  predicate Valid(s: SwiftScroll) {
    Core(s) && Live(s.worker)
  }

  /** The band a pass renders around a viewport at `top` of height `height`. */
  predicate Buffered(v: View, top: int, height: int, buffer: int) {
    && v.renderedTop.Px? && v.renderedTop.v <= top - 2 * buffer
    && v.renderedBottom.Px? && v.renderedBottom.v >= top + height + 2 * buffer
  }

  /** A pass for the viewport at `top` of height `height` took the leaves `ls` to
      those of `s`, in `state`: the band around the viewport is rendered as
      `Windower.Rendered` describes. */
  predicate Passed(ls: seq<Node>, s: SwiftScroll, state: nat, top: int, height: int) {
    && Buffered(s.view, top, height, s.settings.buffer)
    && Rendered(ls, Leaves(s.root), s.view, state, top - 2 * s.settings.buffer, top + height + 2 * s.settings.buffer)
  }

  lemma PassedIntro(ls: seq<Node>, r: Node, v: View, s: SwiftScroll, state: nat, top: int, height: int)
    requires s.root == r && s.view == v
    requires Rendered(ls, Leaves(r), v, state, top - 2 * s.settings.buffer, top + height + 2 * s.settings.buffer)
    requires Buffered(v, top, height, s.settings.buffer)
    ensures Passed(ls, s, state, top, height)
  {
  }

  // Leaf sequences

  /** Leaves that agree in ids, items and block flags agree in every leaf-level
      invariant. */
  lemma SameContentKeeps(ls: seq<Node>, ls': seq<Node>, next: nat)
    requires SameContent(ls', ls) && forall t :: 0 <= t < |ls'| ==> ls'[t].Leaf?
    requires P.AllUniform(ls) && IdsBelow(ls, next) && UniqueIds(ls)
    ensures P.AllUniform(ls') && IdsBelow(ls', next) && UniqueIds(ls')
  {
    assert forall t :: 0 <= t < |ls| ==> P.LeafId(ls'[t]) == P.LeafId(ls[t]) by {
      forall t | 0 <= t < |ls| ensures P.LeafId(ls'[t]) == P.LeafId(ls[t]) {
        assert Content(ls'[t]) == Content(ls[t]);
      }
    }
    forall t | 0 <= t < |ls'| ensures P.Uniform(ls'[t]) {
      assert Content(ls'[t]) == Content(ls[t]) && P.Uniform(ls[t]);
    }
  }

  /** Where each leaf of a partitioned sequence takes its id from. */
  lemma PartedIds(ls: seq<Node>, ls': seq<Node>, k: nat, next: nat, r: P.Parted)
    requires P.Partitioned(ls, ls', k, next, r)
    ensures var n := |r.added|;
      forall t :: 0 <= t < |ls'| ==>
        && (t <= k ==> P.LeafId(ls'[t]) == P.LeafId(ls[t]))
        && (k < t <= k + n ==> P.LeafId(ls'[t]) == next + (t - k - 1))
        && (k + n < t ==> P.LeafId(ls'[t]) == P.LeafId(ls[t - n]))
  {
    var n := |r.added|;
    forall t | 0 <= t < |ls'|
      ensures t <= k ==> P.LeafId(ls'[t]) == P.LeafId(ls[t])
      ensures k < t <= k + n ==> P.LeafId(ls'[t]) == next + (t - k - 1)
      ensures k + n < t ==> P.LeafId(ls'[t]) == P.LeafId(ls[t - n])
    {
      if t < k {
        assert ls'[t] == ls'[..k][t];
      } else if k < t <= k + n {
        assert r.added[t - k - 1] == next + (t - k - 1);
      } else if k + n < t {
        assert ls'[t] == ls'[k + n + 1..][t - (k + n + 1)];
      }
    }
  }

  /** Re-measuring or re-rendering changes no leaf's content, so a state that
      takes such a tree and keeps the rest keeps everything but the liveness. */
  lemma CoreWithRoot(s: SwiftScroll, t: SwiftScroll)
    requires Core(s) && Wf(t.root, s.settings.max) && SameContent(Leaves(t.root), Leaves(s.root))
    requires t.settings.max == s.settings.max && t.next == s.next
    requires t.childNodes == s.childNodes && t.children == s.children
    ensures Core(t)
  {
    SameContentKeeps(Leaves(s.root), Leaves(t.root), s.next);
    SameItemsOf(Leaves(t.root), Leaves(s.root));
  }

  /** Splitting a leaf keeps every leaf uniform and every id unique and below the
      next fresh one. */
  lemma PartedKeeps(ls: seq<Node>, ls': seq<Node>, k: nat, next: nat, r: P.Parted)
    requires P.Partitioned(ls, ls', k, next, r)
    requires forall t :: 0 <= t < |ls| && t != k ==> P.Uniform(ls[t])
    requires IdsBelow(ls, next) && UniqueIds(ls)
    ensures P.AllUniform(ls') && IdsBelow(ls', r.next) && UniqueIds(ls')
  {
    P.PartitionedUniform(ls, ls', k, next, r);
    PartedIds(ls, ls', k, next, r);
    var n := |r.added|;
    forall a, b | 0 <= a < b < |ls'|
      ensures P.LeafId(ls'[a]) != P.LeafId(ls'[b])
    {
      if b <= k {
      } else if b <= k + n {
        assert P.LeafId(ls'[b]) >= next;
      } else if a <= k {
      } else if a <= k + n {
        assert P.LeafId(ls'[a]) >= next;
      }
    }
  }

  // The mirrors

  /** `_leafDomUpdated` brings a mirror list up to date: the `stale` entries at `at`
      become the leaf's current list `current`; the splice is skipped when they
      already agree, which leaves the same list. */
  function SyncMirror(mirror: seq<Item>, at: nat, stale: nat, current: seq<Item>): (r: seq<Item>)
    requires at + stale <= |mirror|
    ensures r == mirror[..at] + current + mirror[at + stale..]
  {
    if |current| != stale || mirror[at..at + stale] != current then mirror[..at] + current + mirror[at + stale..]
    else
      assert mirror == mirror[..at] + mirror[at..at + stale] + mirror[at + stale..];
      mirror
  }

  /** The stretch of `A + X + B` after `A` and as long as `X`, replaced by
      `items`, gives `A + items + B`; the same holds of the element lists. */
  lemma SpliceItems(A: seq<Item>, X: seq<Item>, B: seq<Item>, items: seq<Item>)
    ensures var all := A + X + B; all[..|A|] + items + all[|A| + |X|..] == A + items + B
  {
    var all := A + X + B;
    assert all[..|A|] == A;
    assert all[|A| + |X|..] == B;
  }

  lemma SpliceElements(A: seq<Item>, X: seq<Item>, B: seq<Item>, items: seq<Item>)
    ensures var all := Elements(A + X + B); var a, n := |Elements(A)|, |Elements(X)|;
      && a + n <= |all|
      && all[..a] + Elements(items) + all[a + n..] == Elements(A + items + B)
  {
    ElementsAppend(A + X, B);
    ElementsAppend(A, X);
    ElementsAppend(A + items, B);
    ElementsAppend(A, items);
    SpliceItems(Elements(A), Elements(X), Elements(B), Elements(items));
  }

  /** The mirror half of `_leafDomUpdated` after an insertion into the leaf `l`,
      whose items sit between `A` and `B` in document order: both lists gain the
      node at its position. */
  method SpliceMirrors(childNodes0: seq<Item>, children0: seq<Item>, ghost A: seq<Item>, l: Node, ghost B: seq<Item>,
                       before: Offsets, j: nat, x: Item)
    returns (childNodes: seq<Item>, children: seq<Item>)
    requires l.Leaf? && LeafCounted(l)
    requires childNodes0 == A + l.items + B && children0 == Elements(childNodes0)
    requires before.nodes == |A| && before.elements == |Elements(A)|
    ensures childNodes == P.InsertInto(childNodes0, |A| + Min(j, |l.items|), x)
    ensures children == Elements(childNodes)
  {
    var items := P.InsertInto(l.items, j, x);
    SpliceItems(A, l.items, B, items);
    SpliceElements(A, l.items, B, items);
    childNodes := SyncMirror(childNodes0, before.nodes, l.box.nodes, items);
    children := SyncMirror(children0, before.elements, l.box.elements, Elements(items));
    assert childNodes == A + items + B;
    assert children == Elements(A + items + B);
    P.InsertIntoMiddle(A, l.items, B, j, x);
  }

  /** The position in document order of item `j` of the leaf at `p`, or of the
      end of that leaf when `j` is past it. */
  function Offset(root: Node, p: seq<nat>, j: nat): nat
    requires IsLeafPath(root, p)
  {
    P.OffsetIn(Leaves(root), LeafIndex(root, p), j)
  }

  /** Leaf `k` of counted leaves: its items sit between those of the leaves
      before and after it, and the sums before it count the items and elements
      before it. */
  lemma LeafInContext(ls: seq<Node>, k: nat)
    requires k < |ls| && forall i :: 0 <= i < |ls| ==> ls[i].Leaf? && LeafCounted(ls[i])
    ensures ItemsOf(ls) == ItemsOf(ls[..k]) + ls[k].items + ItemsOf(ls[k + 1..])
    ensures OffsetsOf(ls[..k]).nodes == |ItemsOf(ls[..k])|
    ensures OffsetsOf(ls[..k]).elements == |Elements(ItemsOf(ls[..k]))|
  {
    assert ls == ls[..k] + [ls[k]] + ls[k + 1..];
    P.ItemsAround(ls[..k], ls[k], ls[k + 1..]);
    NodeTotalIsItemCount(ls[..k]);
  }

  /** Inserting into the leaf at `p` and recounting: the leaf has items, every
      other leaf is as before, and the ids keep their invariants. */
  lemma InsertedLeaf(root: Node, p: seq<nat>, j: nat, x: Item, next: nat, max: nat)
    requires Wf(root, max) && IsLeafPath(root, p)
    requires P.AllUniform(Leaves(root)) && IdsBelow(Leaves(root), next) && UniqueIds(Leaves(root))
    ensures var r1 := P.Recount(P.InsertItem(root, p, j, x), p); var ls1 := Leaves(r1); var k := LeafIndex(root, p);
      && Wf(r1, max) && LeafIndex(r1, p) == k && At(r1, p).items != []
      && (forall t :: 0 <= t < |ls1| && t != k ==> P.Uniform(ls1[t]))
      && IdsBelow(ls1, next) && UniqueIds(ls1)
      && Items(r1) == P.InsertInto(Items(root), Offset(root, p, j), x)
  {
    P.InsertRecountKeeps(root, p, j, x, max);
    P.InsertRecountLeaves(root, p, j, x, max);
    P.InsertRecountItems(root, p, j, x, max);
    P.InsertRecountLeaf(root, p, j, x);
    ReplacedLeafIds(Leaves(root), Leaves(P.Recount(P.InsertItem(root, p, j, x), p)), LeafIndex(root, p), next);
  }

  /** Replacing a leaf by one with the same id keeps the ids' invariants and
      the other leaves' uniformity. */
  lemma ReplacedLeafIds(ls: seq<Node>, ls': seq<Node>, k: nat, next: nat)
    requires k < |ls| == |ls'| && ls' == ls[k := ls'[k]] && P.LeafId(ls'[k]) == P.LeafId(ls[k])
    requires P.AllUniform(ls) && IdsBelow(ls, next) && UniqueIds(ls)
    ensures (forall t :: 0 <= t < |ls'| && t != k ==> P.Uniform(ls'[t]))
    ensures IdsBelow(ls', next) && UniqueIds(ls')
  {
    assert forall t :: 0 <= t < |ls'| ==> P.LeafId(ls'[t]) == P.LeafId(ls[t]);
  }

  /** The tree half: the node enters the leaf, the counts follow, and the leaf is
      split into uniform leaves with fresh ids. */
  method InsertTree(root: Node, p: seq<nat>, j: nat, x: Item, next: nat, max: nat)
    returns (r: Node, added: seq<nat>, next': nat)
    requires Wf(root, max) && IsLeafPath(root, p)
    requires P.AllUniform(Leaves(root)) && IdsBelow(Leaves(root), next) && UniqueIds(Leaves(root))
    ensures Wf(r, max) && P.AllUniform(Leaves(r)) && IdsBelow(Leaves(r), next') && UniqueIds(Leaves(r))
    ensures Items(r) == P.InsertInto(Items(root), Offset(root, p, j), x)
  {
    var r1 := P.Recount(P.InsertItem(root, p, j, x), p);
    InsertedLeaf(root, p, j, x, next, max);
    var parted := P.Partition(r1, p, next, max);
    P.PartitionCorrect(r1, p, next, max);
    PartedKeeps(Leaves(r1), Leaves(parted.root), LeafIndex(root, p), next, parted);
    r, added, next' := parted.root, parted.added, parted.next;
  }

  // Insertion

  /** `_insertNodeInLeaf` followed by `_leafDomUpdated`: the node enters the leaf
      found by `f` before its item `j` (at the end when `j` is past it), the
      mirrors are spliced at the offsets `f` reports, the leaf and then every leaf
      split off it are queued for measuring, and a viewport update is scheduled. */
  method InsertInLeaf(s: SwiftScroll, f: Found, j: nat, x: Item) returns (s': SwiftScroll)
    requires Valid(s) && IsLeafPath(s.root, f.path)
    requires f.before == OffsetsOf(Leaves(s.root)[..LeafIndex(s.root, f.path)])
    ensures Valid(s')
    ensures s'.childNodes == P.InsertInto(s.childNodes, Offset(s.root, f.path, j), x)
    ensures var q := s.worker.queue;
      |s'.worker.queue| > |q| && s'.worker.queue[..|q|] == q && s'.worker.queue[|q|] == At(s.root, f.path).id
    ensures s'.worker.pending.Some? && ForceUpdateViewportPosition in s'.worker.pending.value
    ensures s'.settings == s.settings && s'.state == s.state && s'.dims == s.dims && s'.view == s.view
  {
    ghost var ls := Leaves(s.root);
    ghost var k := LeafIndex(s.root, f.path);
    var l := At(s.root, f.path);
    LeafInContext(ls, k);
    var childNodes, children := SpliceMirrors(s.childNodes, s.children, ItemsOf(ls[..k]), l, ItemsOf(ls[k + 1..]), f.before, j, x);
    var root, added, next := InsertTree(s.root, f.path, j, x, s.next, s.settings.max);
    var w := Queued(s.worker, [At(s.root, f.path).id] + added);
    s' := s.(root := root, childNodes := childNodes, children := children, worker := w, next := next);
  }

  /** The worker side of an insertion: the leaves `ids` join the queue in order,
      and a viewport update is scheduled. */
  function Queued(w: Worker, ids: seq<nat>): (r: Worker)
    ensures r.queue == w.queue + ids
    ensures r.pending.Some? && ForceUpdateViewportPosition in r.pending.value
    ensures Live(w) ==> Live(r)
  {
    var a := AddAll(w, ids);
    ScheduleForceKeepsLive(a);
    a.(pending := Schedule(a.pending, ForceUpdateViewportPosition))
  }

  /** The first leaf: empty, unmeasured, not a block. */
  function FirstLeaf(id: nat): (l: Node)
    ensures l.Leaf? && l.items == [] && LeafCounted(l) && Sums(l) && Widths(l) && NonEmpty(l)
  {
    var l := Leaf(id, [], false, 0, 0, EmptyBox);
    assert Elements([]) == [];
    l
  }

  /** A root whose box is all zeros, with one empty leaf under it, keeps its sums. */
  lemma FirstLeafSums(b: Box, id: nat)
    requires b.width == 0 && b.height == 0 && b.nodes == 0 && b.elements == 0
    ensures Sums(Branch([FirstLeaf(id)], b)) && Widths(Branch([FirstLeaf(id)], b))
  {
    var l := FirstLeaf(id);
    TotalSingleton(l, NodeCount);
    TotalSingleton(l, ElementCount);
    TotalSingleton(l, Height);
    assert MaxWidth([l]) == 0 by {
      assert [l][..0] == [];
    }
  }

  /** ... and is well formed, with the leaf as its only leaf. */
  lemma FirstLeafWf(b: Box, id: nat, max: nat)
    requires 2 <= max && b.width == 0 && b.height == 0 && b.nodes == 0 && b.elements == 0
    ensures Wf(Branch([FirstLeaf(id)], b), max) && Leaves(Branch([FirstLeaf(id)], b)) == [FirstLeaf(id)]
  {
    LeavesOfSingleton(FirstLeaf(id));
    FirstLeafSums(b, id);
  }

  /** A fresh empty leaf under an empty root: the state `append` builds before it
      inserts into a scroller that has no leaf. */
  lemma FirstLeafValid(s: SwiftScroll, t: SwiftScroll)
    requires Valid(s) && s.root.children == []
    requires t == s.(root := Branch([FirstLeaf(s.next)], s.root.box), next := s.next + 1)
    ensures Valid(t) && IsLeafPath(t.root, [0]) && LeafIndex(t.root, [0]) == 0
    ensures OffsetsOf(Leaves(t.root)[..0]) == NoOffsets
    ensures s.childNodes == [] && Offset(t.root, [0], 0) == 0
  {
    var l := FirstLeaf(s.next);
    assert Size(s.root, NodeCount) == Total([], NodeCount);
    assert Size(s.root, ElementCount) == Total([], ElementCount);
    assert Size(s.root, Height) == Total([], Height);
    FirstLeafWf(s.root.box, s.next, s.settings.max);
    ItemsOfSingleton(l);
  }

  /** The end of the last leaf is the end of the document. */
  lemma EndOfLastLeaf(s: SwiftScroll, p: seq<nat>)
    requires Core(s) && IsLeafPath(s.root, p) && LeafIndex(s.root, p) == |Leaves(s.root)| - 1
    ensures At(s.root, p).box.nodes == |At(s.root, p).items|
    ensures Offset(s.root, p, |At(s.root, p).items|) == |s.childNodes|
  {
    var ls := Leaves(s.root);
    assert ls[..|ls|] == ls;
  }

  /** `append`: the node goes after the last item of the last leaf, or into a new
      leaf when there is none. */
  method Append(s: SwiftScroll, x: Item) returns (s': SwiftScroll)
    requires Valid(s)
    ensures Valid(s') && s'.childNodes == s.childNodes + [x]
    ensures s'.worker.pending.Some? && ForceUpdateViewportPosition in s'.worker.pending.value
    ensures s'.settings == s.settings && s'.state == s.state && s'.dims == s.dims && s'.view == s.view
  {
    var last := FindLastLeaf(s.root);
    if last.None? {
      var t := s.(root := Branch([FirstLeaf(s.next)], s.root.box), next := s.next + 1);
      FirstLeafValid(s, t);
      s' := InsertInLeaf(t, Found([0], NoOffsets), 0, x);
    } else {
      var p := last.value.path;
      FindLastLeafBefore(s.root);
      EndOfLastLeaf(s, p);
      s' := InsertInLeaf(s, last.value, At(s.root, p).box.nodes, x);
    }
  }

  /** The leaf the descent finds for a non-negative index holds that index, and
      the index inside the leaf that `insertAt` computes puts the node there. */
  lemma IndexInLeaf(s: SwiftScroll, v: nat)
    requires Core(s) && FindLeaf(s.root, NodeCount, v).Some?
    ensures var f := FindLeaf(s.root, NodeCount, v).value;
      && f.before == OffsetsOf(Leaves(s.root)[..LeafIndex(s.root, f.path)])
      && f.before.nodes <= v
      && Offset(s.root, f.path, v - f.before.nodes) == v
  {
    var f := FindLeaf(s.root, NodeCount, v).value;
    var ls := Leaves(s.root);
    var k := LeafIndex(s.root, f.path);
    FindLeafCorrect(s.root, NodeCount, v);
    NodeTotalIsItemCount(ls[..k]);
    NodeTotalIsItemCount(ls[..k + 1]);
    assert ls[..k + 1][..k] == ls[..k];
  }

  /** The descent finds no leaf only past the last item. */
  lemma IndexPastEnd(s: SwiftScroll, v: nat)
    requires Core(s) && FindLeaf(s.root, NodeCount, v).None?
    ensures |s.childNodes| <= v
  {
    FindLeafCorrect(s.root, NodeCount, v);
    NodeTotalIsItemCount(Leaves(s.root));
  }

  /** `insertAt`: the node becomes `childNodes[index]`, a negative index counting
      as 0 and one past the end appending. */
  method InsertAt(s: SwiftScroll, x: Item, index: int) returns (s': SwiftScroll)
    requires Valid(s)
    ensures Valid(s')
    ensures s'.childNodes == P.InsertInto(s.childNodes, if index < 0 then 0 else index, x)
    ensures s'.worker.pending.Some? && ForceUpdateViewportPosition in s'.worker.pending.value
    ensures s'.settings == s.settings && s'.state == s.state && s'.dims == s.dims && s'.view == s.view
  {
    var v: nat := if index < 0 then 0 else index;
    var found := FindLeaf(s.root, NodeCount, v);
    if found.Some? {
      IndexInLeaf(s, v);
      s' := InsertInLeaf(s, found.value, v - found.value.before.nodes, x);
    } else {
      IndexPastEnd(s, v);
      s' := Append(s, x);
    }
  }

  /** `clear`: an empty tree and empty mirrors, and a viewport update. The queue
      is left alone; the ids in it belong to no leaf any more. */
  function Clear(s: SwiftScroll): (r: SwiftScroll)
    requires Valid(s)
    ensures Valid(r) && Items(r.root) == [] && r.worker.queue == s.worker.queue
    ensures r.worker.pending.Some? && ForceUpdateViewportPosition in r.worker.pending.value
  {
    ScheduleForceKeepsLive(s.worker);
    s.(root := Branch([], EmptyBox), childNodes := [], children := [],
       worker := s.worker.(pending := Schedule(s.worker.pending, ForceUpdateViewportPosition)))
  }

  // Measuring

  /** The position of the leaf with id `id`. */
  function IndexOfId(ls: seq<Node>, id: nat): (r: Option<nat>)
    ensures r.Some? ==> r.value < |ls| && P.LeafId(ls[r.value]) == id
    ensures r.None? ==> forall t :: 0 <= t < |ls| ==> P.LeafId(ls[t]) != id
  {
    if ls == [] then None
    else if P.LeafId(ls[0]) == id then Some(0)
    else
      var r := IndexOfId(ls[1..], id);
      if r.Some? then Some(r.value + 1) else None
  }

  /** `cur` differs from `ls` only in leaves whose ids are in `ids`, and those are
      measured in `state`. */
  predicate MeasuredIds(ls: seq<Node>, cur: seq<Node>, ids: seq<nat>, state: nat) {
    && |cur| == |ls|
    && (forall t :: 0 <= t < |cur| && P.LeafId(cur[t]) in ids ==> cur[t].box.epoch >= state)
    && (forall t :: 0 <= t < |cur| && P.LeafId(cur[t]) !in ids ==> cur[t] == ls[t])
  }

  /** Measuring leaf `k`, whose id is `id`, extends the record by `id`. */
  lemma MeasuredStep(ls: seq<Node>, cur: seq<Node>, cur': seq<Node>, ids: seq<nat>, id: nat, k: nat, state: nat)
    requires MeasuredIds(ls, cur, ids, state) && UniqueIds(cur) && SameContent(cur, ls)
    requires k < |cur| == |cur'| && P.LeafId(cur[k]) == id && cur' == cur[k := cur'[k]]
    requires Content(cur'[k]) == Content(cur[k]) && cur'[k].box.epoch >= state
    ensures MeasuredIds(ls, cur', ids + [id], state) && UniqueIds(cur') && SameContent(cur', ls)
  {
    assert forall t :: 0 <= t < |cur| ==> P.LeafId(cur'[t]) == P.LeafId(cur[t]);
  }

  /** An id that no leaf has changes nothing. */
  lemma MeasuredSkip(ls: seq<Node>, cur: seq<Node>, ids: seq<nat>, id: nat, state: nat)
    requires MeasuredIds(ls, cur, ids, state)
    requires forall t :: 0 <= t < |cur| ==> P.LeafId(cur[t]) != id
    ensures MeasuredIds(ls, cur, ids + [id], state)
  {
  }

  /** One turn of the worker's loop: `_measure` on the leaf with id `id`, if it is
      still in the tree. Unlike a render pass, the worker does not check the epoch
      itself: `_measure` skips only a leaf measured in exactly the current state. */
  method MeasureId(ghost ls: seq<Node>, root: Node, max: nat, state: nat, host: nat -> LeafMetrics,
                   ghost ids: seq<nat>, id: nat)
    returns (r: Node)
    requires Wf(root, max) && UniqueIds(Leaves(root)) && SameContent(Leaves(root), ls)
    requires MeasuredIds(ls, Leaves(root), ids, state)
    ensures Wf(r, max) && UniqueIds(Leaves(r)) && SameContent(Leaves(r), ls)
    ensures MeasuredIds(ls, Leaves(r), ids + [id], state)
  {
    r := root;
    var at := IndexOfId(Leaves(root), id);
    if at.Some? {
      var k := at.value;
      var p := LeafPath(root, k);
      var mm := host(At(root, p).id);
      if At(root, p).box.epoch != state {
        MeasureLeafLeaves(root, p, state, mm);
        MeasureLeafKeeps(root, p, state, mm, max);
      }
      r := MeasureAt(root, p, state, mm);
      MeasuredStep(ls, Leaves(root), Leaves(r), ids, id, k, state);
    } else {
      MeasuredSkip(ls, Leaves(root), ids, id, state);
    }
  }

  /** The worker's measuring of a slice's ids, in order. */
  method MeasureIds(root: Node, max: nat, state: nat, host: nat -> LeafMetrics, ids: seq<nat>) returns (r: Node)
    requires Wf(root, max) && UniqueIds(Leaves(root))
    ensures Wf(r, max) && UniqueIds(Leaves(r)) && SameContent(Leaves(r), Leaves(root))
    ensures MeasuredIds(Leaves(root), Leaves(r), ids, state)
  {
    r := root;
    var i := 0;
    while i < |ids|
      invariant 0 <= i <= |ids|
      invariant Wf(r, max) && UniqueIds(Leaves(r)) && SameContent(Leaves(r), Leaves(root))
      invariant MeasuredIds(Leaves(root), Leaves(r), ids[..i], state)
    {
      r := MeasureId(Leaves(root), r, max, state, host, ids[..i], ids[i]);
      assert ids[..i] + [ids[i]] == ids[..i + 1];
      i := i + 1;
    }
    assert ids[..i] == ids;
  }

  /** `doSomeUpdates`, from a waiting start or a continuation timer: one time slice
      measures the ids at the head of the queue, in order, and the worker stays
      live. */
  method RunWorker(s: SwiftScroll, host: nat -> LeafMetrics) returns (s': SwiftScroll, measured: seq<nat>)
    requires Core(s) && LiveWith(s.worker, true) && !Armed(s.worker) && Coalesced(s.worker.pending)
    ensures Core(s') && Live(s'.worker) && s'.worker.pending == s.worker.pending
    ensures measured + s'.worker.queue == s.worker.queue
    ensures s.settings.budget > 0 ==> measured != []
    ensures MeasuredIds(Leaves(s.root), Leaves(s'.root), measured, s.state)
    ensures s'.childNodes == s.childNodes && s'.settings == s.settings && s'.state == s.state
    ensures s'.view == s.view && s'.dims == s.dims
  {
    var slice := StartWorker(s.worker, s.settings.budget);
    measured := slice.measured;
    var r := MeasureIds(s.root, s.settings.max, s.state, host, measured);
    s' := s.(root := r, worker := slice.after);
    CoreWithRoot(s, s');
    assert measured + slice.after.queue == s.worker.queue;
  }

  /** The continuation timer of the worker fires. */
  method ResumeWorker(s: SwiftScroll, host: nat -> LeafMetrics) returns (s': SwiftScroll, measured: seq<nat>)
    requires Valid(s) && s.worker.resume
    ensures Valid(s') && measured + s'.worker.queue == s.worker.queue
    ensures s.settings.budget > 0 ==> measured != []
    ensures MeasuredIds(Leaves(s.root), Leaves(s'.root), measured, s.state)
    ensures s'.childNodes == s.childNodes && s'.view == s.view
  {
    var slice := Scheduler.Resume(s.worker, s.settings.budget);
    measured := slice.measured;
    var r := MeasureIds(s.root, s.settings.max, s.state, host, measured);
    s' := s.(root := r, worker := slice.after);
    CoreWithRoot(s, s');
  }

  // The viewport

  /** `_forceUpdateViewportPosition`: a pass always runs, for the scroll position
      `scrollTop` and the last seen viewport height. */
  method Refresh(s: SwiftScroll, host: nat -> LeafMetrics, scrollTop: int) returns (s': SwiftScroll)
    requires Core(s) && s.dims.Some?
    ensures Core(s') && s'.worker == s.worker && s'.childNodes == s.childNodes
    ensures Passed(Leaves(s.root), s', s.state, scrollTop, s.dims.value.1)
    ensures s'.settings == s.settings && s'.state == s.state && s'.dims == s.dims
  {
    var r, v := Windower.ForceUpdateViewportPosition(s.root, s.settings.max, s.state, host,
                                                     scrollTop, s.dims.value.1, s.settings.buffer);
    s' := s.(root := r, view := v, viewportTop := scrollTop);
    CoreWithRoot(s, s');
    PassedIntro(Leaves(s.root), r, v, s', s.state, scrollTop, s.dims.value.1);
  }

  /** A scroll event: `_updateViewportPosition` renders again only when the
      viewport came within the buffer of an edge of the rendered band. */
  method Scroll(s: SwiftScroll, host: nat -> LeafMetrics, scrollTop: int) returns (s': SwiftScroll)
    requires Valid(s) && s.dims.Some?
    ensures Valid(s') && s'.worker == s.worker && s'.childNodes == s.childNodes
    ensures var t := Triggers(s.view.renderedTop, s.view.renderedBottom, scrollTop, s.dims.value.1, s.settings.buffer);
      && (!t ==> s'.root == s.root && s'.view == s.view)
      && (t ==> Passed(Leaves(s.root), s', s.state, scrollTop, s.dims.value.1))
  {
    var r, v := UpdateViewportPosition(s.root, s.view, s.settings.max, s.state, host,
                                       scrollTop, s.dims.value.1, s.settings.buffer);
    s' := s.(root := r, view := v, viewportTop := scrollTop);
    ScrollOutcome(s, s', scrollTop);
  }

  /** The scroller after `_updateViewportPosition` returned the root `s'.root` and
      the view `s'.view`. */
  lemma ScrollOutcome(s: SwiftScroll, s': SwiftScroll, scrollTop: int)
    requires Valid(s) && s.dims.Some? && s' == s.(root := s'.root, view := s'.view, viewportTop := scrollTop)
    requires Wf(s'.root, s.settings.max) && SameContent(Leaves(s'.root), Leaves(s.root))
    requires var t := Triggers(s.view.renderedTop, s.view.renderedBottom, scrollTop, s.dims.value.1, s.settings.buffer);
      && (!t ==> s'.root == s.root && s'.view == s.view)
      && (t ==> Rendered(Leaves(s.root), Leaves(s'.root), s'.view, s.state, scrollTop - 2 * s.settings.buffer, scrollTop + s.dims.value.1 + 2 * s.settings.buffer)
                && Buffered(s'.view, scrollTop, s.dims.value.1, s.settings.buffer))
    ensures Valid(s')
    ensures var t := Triggers(s.view.renderedTop, s.view.renderedBottom, scrollTop, s.dims.value.1, s.settings.buffer);
      && (!t ==> s'.root == s.root && s'.view == s.view)
      && (t ==> Passed(Leaves(s.root), s', s.state, scrollTop, s.dims.value.1))
  {
    CoreWithRoot(s, s');
  }

  /** `_updateViewportDimensions`: a pass runs only when the size changed. */
  method CheckDimensions(s: SwiftScroll, host: nat -> LeafMetrics, scrollTop: int, width: int, height: int)
    returns (s': SwiftScroll)
    requires Valid(s)
    ensures Valid(s') && s'.dims == Some((width, height))
    ensures s.dims != Some((width, height)) ==> Passed(Leaves(s.root), s', s.state, scrollTop, height)
    ensures s.dims == Some((width, height)) ==> s' == s
    ensures s'.worker == s.worker && s'.childNodes == s.childNodes
    ensures s'.settings == s.settings && s'.state == s.state
  {
    s' := s;
    if s.dims != Some((width, height)) {
      s' := Refresh(s.(dims := Some((width, height))), host, scrollTop);
    }
  }

  /** The resize listener: every leaf is due for measuring again (`state++`), and
      the viewport is rendered again if its size changed. */
  method Resize(s: SwiftScroll, host: nat -> LeafMetrics, scrollTop: int, width: int, height: int)
    returns (s': SwiftScroll)
    requires Valid(s)
    ensures Valid(s') && s'.state == s.state + 1 && s'.dims == Some((width, height))
    ensures s.dims != Some((width, height)) ==> Passed(Leaves(s.root), s', s'.state, scrollTop, height)
    ensures s.dims == Some((width, height)) ==> s'.root == s.root && s'.view == s.view
    ensures s'.worker == s.worker && s'.childNodes == s.childNodes
  {
    var s1 := s.(state := s.state + 1);
    assert Valid(s1) && s1.root == s.root && s1.view == s.view;
    s' := CheckDimensions(s1, host, scrollTop, width, height);
  }

  // Deferred updates

  /** One update of a flush. `armed` tells whether a start of the worker is still
      to come later in the same flush. */
  method RunUpdate(s: SwiftScroll, u: Scheduler.Update, armed: bool, host: nat -> LeafMetrics, scrollTop: int)
    returns (s': SwiftScroll)
    requires Core(s) && s.dims.Some? && s.worker.pending.None?
    requires LiveWith(s.worker, u == StartUpdateWorker || armed) && (u == StartUpdateWorker ==> !armed)
    ensures Core(s') && s'.worker.pending.None? && LiveWith(s'.worker, armed)
    ensures s'.childNodes == s.childNodes && s'.settings == s.settings && s'.state == s.state && s'.dims == s.dims
    ensures u == ForceUpdateViewportPosition ==> Buffered(s'.view, scrollTop, s.dims.value.1, s.settings.buffer)
    ensures u == StartUpdateWorker ==> s'.view == s.view
  {
    if u == StartUpdateWorker {
      var measured;
      s', measured := RunWorker(s, host);
    } else {
      s' := Refresh(s, host, scrollTop);
    }
  }

  /** Stepping through a list without repeats: a start still to come is this
      update or a later one, and never both. */
  lemma FlushStep(us: seq<Scheduler.Update>, i: nat)
    requires i < |us| && Distinct(us)
    ensures (StartUpdateWorker in us[i..]) == (us[i] == StartUpdateWorker || StartUpdateWorker in us[i + 1..])
    ensures us[i] == StartUpdateWorker ==> StartUpdateWorker !in us[i + 1..]
    ensures (ForceUpdateViewportPosition in us[..i + 1]) == (ForceUpdateViewportPosition in us[..i] || us[i] == ForceUpdateViewportPosition)
  {
    assert us[i..] == [us[i]] + us[i + 1..];
    assert us[..i + 1] == us[..i] + [us[i]];
    assert forall t :: i < t < |us| ==> us[t] != us[i];
  }

  /** The state of a flush of `us` from `s0` after its first `i` updates ran. */
  predicate Flushing(s0: SwiftScroll, s: SwiftScroll, us: seq<Scheduler.Update>, i: nat, scrollTop: int) {
    && i <= |us| && s0.dims.Some?
    && Core(s) && s.worker.pending.None? && LiveWith(s.worker, StartUpdateWorker in us[i..])
    && s.childNodes == s0.childNodes && s.settings == s0.settings && s.state == s0.state && s.dims == s0.dims
    && (ForceUpdateViewportPosition in us[..i] ==> Buffered(s.view, scrollTop, s0.dims.value.1, s0.settings.buffer))
  }

  /** One turn of a flush. */
  method FlushOne(ghost s0: SwiftScroll, s: SwiftScroll, us: seq<Scheduler.Update>, i: nat,
                  host: nat -> LeafMetrics, scrollTop: int)
    returns (s': SwiftScroll)
    requires i < |us| && Distinct(us) && Flushing(s0, s, us, i, scrollTop)
    ensures Flushing(s0, s', us, i + 1, scrollTop)
  {
    FlushStep(us, i);
    s' := RunUpdate(s, us[i], StartUpdateWorker in us[i + 1..], host, scrollTop);
  }

  /** The zero-delay timer of `_scheduleUpdate` fires: each waiting update runs
      once, in the order requested, and the list is dropped. A waiting start
      runs a slice of the worker; a waiting viewport update renders the band. The
      document does not change. */
  method FlushUpdates(s: SwiftScroll, host: nat -> LeafMetrics, scrollTop: int) returns (s': SwiftScroll)
    requires Valid(s) && s.dims.Some?
    ensures Valid(s') && s'.worker.pending.None? && s'.childNodes == s.childNodes
    ensures s.worker.pending.Some? && ForceUpdateViewportPosition in s.worker.pending.value ==>
      Buffered(s'.view, scrollTop, s.dims.value.1, s.settings.buffer)
    ensures s'.settings == s.settings && s'.state == s.state && s'.dims == s.dims
  {
    var (us, armed) := Scheduler.Flush(s.worker.pending);
    s' := s.(worker := s.worker.(pending := armed));
    var i := 0;
    while i < |us|
      invariant Flushing(s, s', us, i, scrollTop)
    {
      s' := FlushOne(s, s', us, i, host, scrollTop);
      i := i + 1;
    }
    assert us[..i] == us;
  }

  // Construction

  /** The empty scroller the constructor starts from. */
  function Empty(settings: Settings): (s: SwiftScroll)
    requires 2 <= settings.max
    ensures Valid(s) && s.childNodes == [] && s.worker.queue == []
  {
    SwiftScroll(settings, Branch([], EmptyBox), [], [], Worker([], false, None, false), 0, 1, None, 0, Unrendered)
  }

  /** The constructor's state after appending the first `i` of its nodes. */
  predicate Appended(settings: Settings, nodes: seq<Item>, i: nat, s: SwiftScroll) {
    && i <= |nodes|
    && Valid(s) && s.childNodes == nodes[..i]
    && s.settings == settings && s.state == 1 && s.dims.None?
    && (i > 0 ==> s.worker.pending.Some? && ForceUpdateViewportPosition in s.worker.pending.value)
  }

  /** One turn of the constructor's loop. */
  method AppendNext(settings: Settings, nodes: seq<Item>, i: nat, s: SwiftScroll) returns (s': SwiftScroll)
    requires i < |nodes| && Appended(settings, nodes, i, s)
    ensures Appended(settings, nodes, i + 1, s')
  {
    s' := Append(s, nodes[i]);
    assert nodes[..i + 1] == nodes[..i] + [nodes[i]];
  }

  /** The constructor: the container's nodes are appended in order, then the
      viewport size is read, which renders the band since no size was known. */
  method Create(settings: Settings, nodes: seq<Item>, host: nat -> LeafMetrics, scrollTop: int, width: int, height: int)
    returns (s: SwiftScroll)
    requires 2 <= settings.max
    ensures Valid(s) && s.childNodes == nodes && s.children == Elements(nodes)
    ensures s.settings == settings && s.state == 1 && s.dims == Some((width, height))
    ensures Buffered(s.view, scrollTop, height, settings.buffer)
    ensures nodes != [] ==> s.worker.pending.Some? && ForceUpdateViewportPosition in s.worker.pending.value
  {
    s := Empty(settings);
    var i := 0;
    while i < |nodes|
      invariant Appended(settings, nodes, i, s)
    {
      s := AppendNext(settings, nodes, i, s);
      i := i + 1;
    }
    assert nodes[..i] == nodes;
    s := CheckDimensions(s, host, scrollTop, width, height);
  }
}

=== FILE: measure.dfy ===
/**
 Measurement of a node (`_measure`): a branch is re-aggregated from its children;
 a leaf takes the metrics the host reports for its element, its height including
 the collapsed margin above it (`_calculateMargin`), its new width propagated
 by `_setWidth` and its height change added to every ancestor.
 */
module Measure {
  import opened Optional
  import opened Tree
  import opened Update
  import opened Aggregates
  import opened Navigation

  /** What the host reports for a leaf's element: the width including the horizontal
      margins, the border-box height and the two vertical margins. */
  datatype LeafMetrics = LeafMetrics(width: int, height: int, marginTop: int, marginBottom: int)

  lemma PopulatedNonEmpty(root: Node, p: seq<nat>)
    requires Populated(root) && IsLeafPath(root, p)
    ensures NonEmpty(root)
  {
  }

  /** The bottom margin of the leaf before leaf `k` in document order, 0 for the
      first leaf. */
  function MarginBefore(ls: seq<Node>, k: nat): int
    requires k < |ls| && (k > 0 ==> ls[k - 1].Leaf?)
  {
    if k == 0 then 0 else ls[k - 1].marginBottom
  }

  /** Replacing leaf `k` does not change the margin before it. */
  lemma MarginBeforeReplace(ls: seq<Node>, k: nat, x: Node)
    requires k < |ls| && (k > 0 ==> ls[k - 1].Leaf?)
    ensures MarginBefore(ls[k := x], k) == MarginBefore(ls, k)
  {
  }

  /** `_calculateMargin`: vertical margins collapse, so the space above a leaf is the
      larger of its top margin and the bottom margin of the leaf before it in
      document order (0 for the first leaf), not their sum. */
  function CalculateMargin(root: Node, p: seq<nat>): (r: int)
    requires Populated(root) && IsLeafPath(root, p)
    ensures var ls := Leaves(root); var k := LeafIndex(root, p);
      r == Max(ls[k].marginTop, MarginBefore(ls, k))
  {
    PopulatedNonEmpty(root, p);
    var prev := match SiblingLeaf(root, p, true)
      case None => 0
      case Some(q) => At(root, q).marginBottom;
    Max(At(root, p).marginTop, prev)
  }

  /** An element with a bottom margin of 15 followed by one with a top margin of 20
      leaves 20 between them, not 35. */
  lemma MarginsCollapse()
    ensures var a := Leaf(1, [Element(1, true)], true, 0, 15, EmptyBox);
      var b := Leaf(2, [Element(2, true)], true, 20, 0, EmptyBox);
      var root := Branch([a, b], EmptyBox);
      CalculateMargin(root, [1]) == 20
  {
    var a := Leaf(1, [Element(1, true)], true, 0, 15, EmptyBox);
    var b := Leaf(2, [Element(2, true)], true, 20, 0, EmptyBox);
    var root := Branch([a, b], EmptyBox);
    assert [1][1..] == [];
    assert [a, b][..1] == [a];
    assert [a][..0] == [];
    assert LeavesOf([a]) == [a];
    assert LeavesOf([a, b]) == [a, b];
    assert Leaves(root) == [a, b];
    assert LeafIndex(root, [1]) == 1;
  }

  function SetMargins(l: Node, mm: LeafMetrics): (r: Node)
    requires l.Leaf?
    ensures r.Leaf? && r.box == l.box && r.marginTop == mm.marginTop && r.marginBottom == mm.marginBottom
  {
    Leaf(l.id, l.items, l.isBlock, mm.marginTop, mm.marginBottom, l.box)
  }

  /** The leaf as `_measureLeafNode` leaves it, given the collapsed margin above it. */
  function MeasuredLeaf(l: Node, mm: LeafMetrics, margin: int, state: nat): (r: Node)
    requires l.Leaf?
  {
    Leaf(l.id, l.items, l.isBlock, mm.marginTop, mm.marginBottom,
      l.box.(width := mm.width, height := mm.height + margin, epoch := state))
  }

  /** The first half of `_measureLeafNode`: the leaf takes its new margins, its new
      width (propagated by `_setWidth`) and the current state as its epoch. */
  function Restyle(root: Node, p: seq<nat>, state: nat, mm: LeafMetrics): (r: Node)
    requires IsLeafPath(root, p)
    ensures IsLeafPath(r, p)
  {
    var l := At(root, p);
    var r1 := ReplaceAt(root, p, SetMargins(l, mm));
    var r2 := if mm.width != l.box.width then SetWidth(r1, p, mm.width) else r1;
    var l2 := At(r2, p);
    ReplaceAt(r2, p, WithBox(l2, l2.box.(width := mm.width, epoch := state)))
  }

  lemma RestylePopulated(root: Node, p: seq<nat>, state: nat, mm: LeafMetrics)
    requires Populated(root) && IsLeafPath(root, p)
    ensures Populated(Restyle(root, p, state, mm))
  {
    var l := At(root, p);
    var r1 := ReplaceAt(root, p, SetMargins(l, mm));
    ReplaceKeepsPopulated(root, p, SetMargins(l, mm));
    var r2 := if mm.width != l.box.width then SetWidth(r1, p, mm.width) else r1;
    SetWidthKeeps(r1, p, mm.width, 0);
    var l2 := At(r2, p);
    ReplaceKeepsPopulated(r2, p, WithBox(l2, l2.box.(width := mm.width, epoch := state)));
  }

  /** `_measureLeafNode`, the host's report `mm` standing for the computed style and
      bounding box of the leaf's element: after restyling, the height including the
      collapsed margin replaces the old one in the leaf and every ancestor. */
  function MeasureLeaf(root: Node, p: seq<nat>, state: nat, mm: LeafMetrics): (r: Node)
    requires Populated(root) && IsLeafPath(root, p)
    ensures IsLeafPath(r, p) && Populated(r)
  {
    var l := At(root, p);
    var r1 := ReplaceAt(root, p, SetMargins(l, mm));
    ReplaceKeepsPopulated(root, p, SetMargins(l, mm));
    var margin := CalculateMargin(r1, p);
    var r3 := Restyle(root, p, state, mm);
    RestylePopulated(root, p, state, mm);
    var delta := mm.height + margin - l.box.height;
    if delta != 0 then
      AddAlongPopulated(r3, p, Offsets(0, 0, delta));
      AddAlong(r3, p, Offsets(0, 0, delta))
    else r3
  }

  /** Restyling replaces the one leaf, in document order. */
  lemma RestyleLeaves(root: Node, p: seq<nat>, state: nat, mm: LeafMetrics)
    requires IsLeafPath(root, p)
    ensures var k := LeafIndex(root, p); var l := Leaves(root)[k];
      && LeafIndex(Restyle(root, p, state, mm), p) == k
      && Leaves(Restyle(root, p, state, mm))
         == Leaves(root)[k := WithBox(SetMargins(l, mm), l.box.(width := mm.width, epoch := state))]
  {
    var l := At(root, p);
    var ls := Leaves(root);
    var k := LeafIndex(root, p);
    var x1 := SetMargins(l, mm);
    var r1 := ReplaceAt(root, p, x1);
    ReplaceLeaf(root, p, x1);
    var r2 := if mm.width != l.box.width then SetWidth(r1, p, mm.width) else r1;
    RestyleWidth(r1, p, mm.width);
    var l2 := At(r2, p);
    var x3 := WithBox(l2, l2.box.(width := mm.width, epoch := state));
    ReplaceLeaf(r2, p, x3);
    assert x3 == WithBox(SetMargins(l, mm), l.box.(width := mm.width, epoch := state));
    UpdateTwice(ls, k, x1, l2);
    UpdateTwice(ls, k, l2, x3);
  }

  /** The width step of restyling replaces the one leaf by one of the new width. */
  lemma RestyleWidth(r1: Node, p: seq<nat>, w: int)
    requires IsLeafPath(r1, p)
    ensures var l := At(r1, p); var r2 := if w != l.box.width then SetWidth(r1, p, w) else r1;
      && IsLeafPath(r2, p) && LeafIndex(r2, p) == LeafIndex(r1, p)
      && At(r2, p) == WithBox(l, l.box.(width := w))
      && Leaves(r2) == Leaves(r1)[LeafIndex(r1, p) := At(r2, p)]
  {
    var l := At(r1, p);
    if w != l.box.width {
      SetWidthKeeps(r1, p, w, 0);
    } else {
      assert WithBox(l, l.box.(width := w)) == l;
      assert Leaves(r1)[LeafIndex(r1, p)] == l;
      assert Leaves(r1)[LeafIndex(r1, p) := l] == Leaves(r1);
    }
  }

  /** The margin above a leaf depends on that leaf's top margin and the leaf before it. */
  lemma MarginAfterReplace(root: Node, r1: Node, p: seq<nat>, x: Node)
    requires IsLeafPath(root, p) && Populated(r1) && IsLeafPath(r1, p)
    requires LeafIndex(r1, p) == LeafIndex(root, p)
    requires Leaves(r1) == Leaves(root)[LeafIndex(root, p) := x]
    ensures var k := LeafIndex(root, p); var ls := Leaves(root);
      CalculateMargin(r1, p) == Max(x.marginTop, MarginBefore(ls, k))
  {
    MarginBeforeReplace(Leaves(root), LeafIndex(root, p), x);
  }

  /** The margin `_measureLeafNode` computes, in document order. */
  lemma MeasureMargin(root: Node, p: seq<nat>, mm: LeafMetrics)
    requires Populated(root) && IsLeafPath(root, p)
    ensures var k := LeafIndex(root, p); var ls := Leaves(root);
      && Populated(ReplaceAt(root, p, SetMargins(At(root, p), mm)))
      && CalculateMargin(ReplaceAt(root, p, SetMargins(At(root, p), mm)), p)
         == Max(mm.marginTop, MarginBefore(ls, k))
  {
    var x1 := SetMargins(At(root, p), mm);
    var r1 := ReplaceAt(root, p, x1);
    ReplaceLeaf(root, p, x1);
    ReplaceKeepsPopulated(root, p, x1);
    MarginAfterReplace(root, r1, p, x1);
  }

  /** Measuring a leaf replaces that leaf, in document order, by the measured leaf:
      new margins, the reported width, the reported height plus the collapsed
      margin, and the current state as its epoch. No other leaf changes. */
  lemma MeasureLeafLeaves(root: Node, p: seq<nat>, state: nat, mm: LeafMetrics)
    requires Populated(root) && IsLeafPath(root, p)
    ensures var k := LeafIndex(root, p); var ls := Leaves(root);
      var margin := Max(mm.marginTop, MarginBefore(ls, k));
      && LeafIndex(MeasureLeaf(root, p, state, mm), p) == k
      && Leaves(MeasureLeaf(root, p, state, mm)) == ls[k := MeasuredLeaf(ls[k], mm, margin, state)]
  {
    var l := At(root, p);
    var k := LeafIndex(root, p);
    var ls := Leaves(root);
    MeasureMargin(root, p, mm);
    var margin := Max(mm.marginTop, MarginBefore(ls, k));
    var r3 := Restyle(root, p, state, mm);
    RestyleLeaves(root, p, state, mm);
    var delta := mm.height + margin - l.box.height;
    var x := At(r3, p);
    assert x == WithBox(SetMargins(l, mm), l.box.(width := mm.width, epoch := state));
    var r := MeasureLeaf(root, p, state, mm);
    assert r == if delta != 0 then AddAlong(r3, p, Offsets(0, 0, delta)) else r3;
    if delta != 0 {
      AddAlongLeaf(r3, p, Offsets(0, 0, delta));
      ShiftedIsMeasured(l, x, mm, margin, state);
      UpdateTwice(ls, k, x, At(r, p));
    } else {
      assert x == MeasuredLeaf(l, mm, margin, state);
    }
  }

  lemma ShiftedIsMeasured(l: Node, x: Node, mm: LeafMetrics, margin: int, state: nat)
    requires l.Leaf? && x == WithBox(SetMargins(l, mm), l.box.(width := mm.width, epoch := state))
    ensures WithBox(x, Shift(x.box, Offsets(0, 0, mm.height + margin - l.box.height)))
      == MeasuredLeaf(l, mm, margin, state)
  {
  }

  /** Measuring a leaf keeps every invariant of the tree. */
  lemma MeasureLeafKeeps(root: Node, p: seq<nat>, state: nat, mm: LeafMetrics, max: nat)
    requires Wf(root, max) && IsLeafPath(root, p)
    ensures Wf(MeasureLeaf(root, p, state, mm), max)
  {
    var l := At(root, p);
    var r3 := Restyle(root, p, state, mm);
    RestyleKeeps(root, p, state, mm, max);
    MeasureMargin(root, p, mm);
    var margin := CalculateMargin(ReplaceAt(root, p, SetMargins(l, mm)), p);
    var delta := mm.height + margin - l.box.height;
    var r := MeasureLeaf(root, p, state, mm);
    assert r == if delta != 0 then AddAlong(r3, p, Offsets(0, 0, delta)) else r3;
    AddAlongKeeps(r3, p, Offsets(0, 0, delta), max);
    assert Bounded(r, max) && Sums(r) && Widths(r);
    CountedAfterMeasure(root, p, state, mm);
  }

  lemma RestyleKeeps(root: Node, p: seq<nat>, state: nat, mm: LeafMetrics, max: nat)
    requires Wf(root, max) && IsLeafPath(root, p)
    ensures Sums(Restyle(root, p, state, mm)) && Widths(Restyle(root, p, state, mm))
    ensures Bounded(Restyle(root, p, state, mm), max)
  {
    var l := At(root, p);
    var x1 := SetMargins(l, mm);
    var r1 := ReplaceAt(root, p, x1);
    ReplaceKeepsBounded(root, p, x1, max);
    ReplaceKeepsSums(root, p, x1);
    ReplaceKeepsWidths(root, p, x1);
    ReplaceKeepsPopulated(root, p, x1);
    var r2 := if mm.width != l.box.width then SetWidth(r1, p, mm.width) else r1;
    SetWidthKeeps(r1, p, mm.width, max);
    SetWidthKeepsWidths(r1, p, mm.width);
    var l2 := At(r2, p);
    var x3 := WithBox(l2, l2.box.(width := mm.width, epoch := state));
    ReplaceKeepsBounded(r2, p, x3, max);
    ReplaceKeepsSums(r2, p, x3);
    ReplaceKeepsWidths(r2, p, x3);
  }

  lemma CountedAfterMeasure(root: Node, p: seq<nat>, state: nat, mm: LeafMetrics)
    requires Populated(root) && IsLeafPath(root, p) && Counted(root)
    ensures Counted(MeasureLeaf(root, p, state, mm))
  {
    MeasureLeafLeaves(root, p, state, mm);
    var ls := Leaves(root);
    var k := LeafIndex(root, p);
    assert LeafCounted(ls[k]);
  }

  /** `_measure`: nothing when the node was measured in the current state; otherwise
      a branch is re-aggregated and a leaf measured. */
  function MeasureAt(root: Node, p: seq<nat>, state: nat, mm: LeafMetrics): (r: Node)
    requires Populated(root) && ValidPath(root, p)
    ensures At(root, p).box.epoch == state ==> r == root
    ensures ValidPath(r, p) && Populated(r)
    ensures At(root, p).Leaf? ==> At(r, p).Leaf? && At(r, p).box.epoch == state
  {
    var n := At(root, p);
    if n.box.epoch == state then root
    else if n.Branch? then
      if p == [] then MeasureBranch(n)
      else
        NonEmptyAt(root.children[p[0]], p[1..]);
        ReplaceKeepsPopulated(root, p, MeasureBranch(n));
        ReplaceAt(root, p, MeasureBranch(n))
    else
      MeasureLeafLeaves(root, p, state, mm);
      MeasureLeaf(root, p, state, mm)
  }

  /** A leaf measured in a state is not measured again in that state. */
  lemma MeasureLeafOnce(root: Node, p: seq<nat>, state: nat, mm: LeafMetrics, mm': LeafMetrics)
    requires Populated(root) && IsLeafPath(root, p)
    ensures MeasureAt(MeasureAt(root, p, state, mm), p, state, mm') == MeasureAt(root, p, state, mm)
  {
  }
}

=== FILE: navigation.dfy ===
/**
 Lookup and navigation over the leaf order: the order-statistics search of
 `_findLeaf`, the rightmost descent of `_findLastLeaf`, and the in-order
 neighbour of `_siblingLeaf`. Every result is stated against `Leaves(root)`.
 */
module Navigation {
  import opened Optional
  import opened Tree

  /** A lookup result: the path of a leaf and the sums (`domChildNodes`,
      `domChildren`, `height`) of all the nodes before it. */
  datatype Found = Found(path: seq<nat>, before: Offsets)

  /** The cached sums of the nodes left of a path, level by level. */
  function Before(n: Node, p: seq<nat>): Offsets
    requires ValidPath(n, p)
    decreases p
  {
    if p == [] then NoOffsets
    else OffsetsOf(n.children[..p[0]]).Plus(Before(n.children[p[0]], p[1..]))
  }

  /** A path that always takes the first child. */
  predicate AllZero(p: seq<nat>) {
    forall j :: 0 <= j < |p| ==> p[j] == 0
  }

  lemma OffsetsOfCons(c: Node, ns: seq<Node>)
    ensures OffsetsOf([c] + ns) == SizesOf(c).Plus(OffsetsOf(ns))
  {
    forall m: Metric
      ensures Total([c] + ns, m) == Size(c, m) + Total(ns, m)
    {
      TotalAppend([c], ns, m);
      TotalSingleton(c, m);
    }
  }

  lemma SliceCons<T>(s: seq<T>, i: nat, j: nat)
    requires i < j <= |s|
    ensures s[i..j] == [s[i]] + s[i + 1..j]
  {
  }

  lemma OffsetsOfAppend(a: seq<Node>, b: seq<Node>)
    ensures OffsetsOf(a + b) == OffsetsOf(a).Plus(OffsetsOf(b))
  {
    TotalAppend(a, b, NodeCount);
    TotalAppend(a, b, ElementCount);
    TotalAppend(a, b, Height);
  }

  /** The scan of `_findLeaf` over the children of `n` from index `i`, `acc` holding
      the sums of everything skipped so far: a child whose size would take the
      running sum past `v` is entered (or returned, if a leaf), any other child is
      skipped and added to the sums. */
  function FindIn(n: Node, i: nat, m: Metric, v: int, acc: Offsets): (r: Option<Found>)
    requires n.Branch? && i <= |n.children|
    ensures r.Some? ==>
      && IsLeafPath(n, r.value.path) && r.value.path != [] && i <= r.value.path[0]
      && v < r.value.before.Get(m) + Size(At(n, r.value.path), m)
      && (r.value.before.Get(m) <= v || (r.value.path[0] == i && AllZero(r.value.path[1..]) && r.value.before == acc))
    decreases n, |n.children| - i
  {
    if i == |n.children| then None
    else
      var c := n.children[i];
      if acc.Get(m) + Size(c, m) > v then
        if c.Leaf? then
          assert [i][1..] == [];
          assert ValidPath(n, [i]) && At(n, [i]) == c;
          Some(Found([i], acc))
        else
          match FindIn(c, 0, m, v, acc)
          case None => None
          case Some(f) =>
            assert ([i] + f.path)[1..] == f.path;
            Some(Found([i] + f.path, f.before))
      else
        FindIn(n, i + 1, m, v, acc.Plus(SizesOf(c)))
  }

  /** The sums the scan reports are those of the skipped children at each level. */
  predicate ReportsBefore(n: Node, i: nat, acc: Offsets, r: Option<Found>)
    requires n.Branch? && i <= |n.children|
  {
    r.Some? && IsLeafPath(n, r.value.path) && r.value.path != [] && i <= r.value.path[0] ==>
      r.value.before == acc.Plus(OffsetsOf(n.children[i..r.value.path[0]])).Plus(Before(n.children[r.value.path[0]], r.value.path[1..]))
  }

  lemma {:induction false} FindInBefore(n: Node, i: nat, m: Metric, v: int, acc: Offsets)
    requires n.Branch? && i <= |n.children|
    ensures ReportsBefore(n, i, acc, FindIn(n, i, m, v, acc))
    decreases n, |n.children| - i
  {
    if i < |n.children| {
      var c := n.children[i];
      if acc.Get(m) + Size(c, m) > v {
        if c.Branch? {
          FindInBefore(c, 0, m, v, acc);
          DescendReportsBefore(n, i, acc, FindIn(c, 0, m, v, acc));
        } else {
          assert n.children[i..i] == [];
        }
      } else {
        FindInBefore(n, i + 1, m, v, acc.Plus(SizesOf(c)));
        SkipReportsBefore(n, i, acc, FindIn(n, i + 1, m, v, acc.Plus(SizesOf(c))));
      }
    }
  }

  lemma DescendReportsBefore(n: Node, i: nat, acc: Offsets, f: Option<Found>)
    requires n.Branch? && i < |n.children| && n.children[i].Branch?
    requires ReportsBefore(n.children[i], 0, acc, f)
    requires f.Some? ==> IsLeafPath(n.children[i], f.value.path) && f.value.path != []
    ensures f.Some? ==> ReportsBefore(n, i, acc, Some(Found([i] + f.value.path, f.value.before)))
  {
    if f.Some? {
      var c := n.children[i];
      var p := f.value.path;
      assert ([i] + p)[0] == i && ([i] + p)[1..] == p;
      assert n.children[i..i] == [];
      assert c.children[0..p[0]] == c.children[..p[0]];
    }
  }

  lemma SkipReportsBefore(n: Node, i: nat, acc: Offsets, r: Option<Found>)
    requires n.Branch? && i < |n.children|
    requires ReportsBefore(n, i + 1, acc.Plus(SizesOf(n.children[i])), r)
    requires r.Some? ==> IsLeafPath(n, r.value.path) && r.value.path != [] && i + 1 <= r.value.path[0]
    ensures ReportsBefore(n, i, acc, r)
  {
    if r.Some? {
      var j := r.value.path[0];
      SliceCons(n.children, i, j);
      OffsetsOfCons(n.children[i], n.children[i + 1..j]);
    }
  }

  lemma AllZeroCons(p: seq<nat>)
    requires p != [] && p[0] == 0 && AllZero(p[1..])
    ensures AllZero(p)
  {
    forall j | 0 < j < |p|
      ensures p[j] == 0
    {
      assert p[j] == p[1..][j - 1];
    }
  }

  /** `_findLeaf(property, value)`: the leaf where the running sum of `property`
      first exceeds `value`; `None` (`null`) when there is none. */
  function FindLeaf(root: Node, m: Metric, v: int): (r: Option<Found>)
    requires root.Branch?
    ensures r.Some? ==>
      && IsLeafPath(root, r.value.path)
      && v < r.value.before.Get(m) + Size(At(root, r.value.path), m)
      && (r.value.before.Get(m) <= v || AllZero(r.value.path))
  {
    var r := FindIn(root, 0, m, v, NoOffsets);
    assert r.Some? && r.value.path[0] == 0 && AllZero(r.value.path[1..]) ==> AllZero(r.value.path) by {
      if r.Some? && r.value.path[0] == 0 && AllZero(r.value.path[1..]) {
        AllZeroCons(r.value.path);
      }
    }
    r
  }

  /** The sums reported with the found leaf are those of the nodes left of its path. */
  lemma FindLeafBefore(root: Node, m: Metric, v: int)
    requires root.Branch?
    ensures var r := FindLeaf(root, m, v); r.Some? ==> r.value.before == Before(root, r.value.path)
  {
    var r := FindIn(root, 0, m, v, NoOffsets);
    FindInBefore(root, 0, m, v, NoOffsets);
    if r.Some? {
      var p := r.value.path;
      assert root.children[0..p[0]] == root.children[..p[0]];
    }
  }

  /** Leaf `k` is where the running sum of `m` over the leaves passes `v`. */
  predicate Covers(ls: seq<Node>, m: Metric, v: int, k: nat) {
    k < |ls| && Total(ls[..k], m) <= v < Total(ls[..k + 1], m)
  }

  /** Under non-negative sizes at most one leaf covers a value. */
  lemma CoversUnique(ls: seq<Node>, m: Metric, v: int, k: nat, k': nat)
    requires forall j :: 0 <= j < |ls| ==> Size(ls[j], m) >= 0
    requires Covers(ls, m, v, k) && Covers(ls, m, v, k')
    ensures k == k'
  {
    if k < k' {
      TotalMonotone(ls, m, k + 1, k');
    } else if k' < k {
      TotalMonotone(ls, m, k' + 1, k);
    }
  }

  lemma TotalMonotone(ls: seq<Node>, m: Metric, a: nat, b: nat)
    requires a <= b <= |ls| && forall j :: 0 <= j < |ls| ==> Size(ls[j], m) >= 0
    ensures Total(ls[..a], m) <= Total(ls[..b], m)
    decreases b - a
  {
    if a < b {
      TotalMonotone(ls, m, a, b - 1);
      assert ls[..b][..b - 1] == ls[..b - 1];
    }
  }

  lemma LeafIndexCons(n: Node, i: nat, q: seq<nat>)
    requires n.Branch? && i < |n.children| && IsLeafPath(n.children[i], q)
    ensures IsLeafPath(n, [i] + q) && LeafIndex(n, [i] + q) == |LeavesOf(n.children[..i])| + LeafIndex(n.children[i], q)
  {
    assert ([i] + q)[0] == i && ([i] + q)[1..] == q;
  }

  lemma {:induction false} AllZeroFirst(n: Node, p: seq<nat>)
    requires IsLeafPath(n, p) && AllZero(p)
    ensures LeafIndex(n, p) == 0
    decreases p
  {
    if p != [] {
      assert n.children[..0] == [];
      AllZeroFirst(n.children[0], p[1..]);
    }
  }

  /** The level-by-level sums before a leaf are the sums of the leaves before it. */
  lemma {:induction false} BeforeIsLeafPrefix(n: Node, p: seq<nat>)
    requires IsLeafPath(n, p) && Sums(n)
    ensures Before(n, p) == OffsetsOf(Leaves(n)[..LeafIndex(n, p)])
    decreases p
  {
    if p == [] {
      assert Leaves(n)[..0] == [];
    } else {
      var i := p[0];
      var cs := n.children;
      var a, l, b := LeavesOf(cs[..i]), Leaves(cs[i]), LeavesOf(cs[i + 1..]);
      var k' := LeafIndex(cs[i], p[1..]);
      BeforeIsLeafPrefix(cs[i], p[1..]);
      LeavesOfSplit(cs, i);
      ChildrenTotalIsLeafTotal(cs[..i], NodeCount);
      ChildrenTotalIsLeafTotal(cs[..i], ElementCount);
      ChildrenTotalIsLeafTotal(cs[..i], Height);
      assert OffsetsOf(cs[..i]) == OffsetsOf(a);
      SliceAround(a, l, b, k');
      OffsetsOfAppend(a, l[..k']);
    }
  }

  /** What `_findLeaf` promises, in terms of the leaf order: on a found leaf the sums
      are those of the leaves before it and the leaf covers a non-negative value;
      `None` only when the tree is empty or the total does not exceed the value. */
  lemma FindLeafCorrect(root: Node, m: Metric, v: int)
    requires Populated(root) && Sums(root)
    ensures var r := FindLeaf(root, m, v); var ls := Leaves(root);
      && (r.Some? ==> r.value.before == OffsetsOf(ls[..LeafIndex(root, r.value.path)]))
      && (r.Some? ==> v < Total(ls[..LeafIndex(root, r.value.path) + 1], m))
      && (r.Some? && 0 <= v ==> Covers(ls, m, v, LeafIndex(root, r.value.path)))
      && (r.Some? ==> LeafIndex(root, r.value.path) == 0 || Total(ls[..LeafIndex(root, r.value.path)], m) <= v)
      && (r.None? ==> ls == [] || Total(ls, m) <= v)
  {
    if FindLeaf(root, m, v).Some? {
      FindLeafFound(root, m, v);
    } else {
      FindLeafMissing(root, m, v);
    }
  }

  lemma FindLeafFound(root: Node, m: Metric, v: int)
    requires Populated(root) && Sums(root) && FindLeaf(root, m, v).Some?
    ensures var p := FindLeaf(root, m, v).value.path; var ls := Leaves(root); var k := LeafIndex(root, p);
      && FindLeaf(root, m, v).value.before == OffsetsOf(ls[..k])
      && v < Total(ls[..k + 1], m)
      && (0 <= v ==> Covers(ls, m, v, k))
      && (k == 0 || Total(ls[..k], m) <= v)
  {
    var p := FindLeaf(root, m, v).value.path;
    var ls := Leaves(root);
    var k := LeafIndex(root, p);
    FindLeafBefore(root, m, v);
    BeforeIsLeafPrefix(root, p);
    assert ls[..k + 1] == ls[..k] + [ls[k]];
    TotalAppend(ls[..k], [ls[k]], m);
    TotalSingleton(ls[k], m);
    if AllZero(p) {
      AllZeroFirst(root, p);
      assert ls[..k] == [];
    }
  }

  lemma FindLeafMissing(root: Node, m: Metric, v: int)
    requires Populated(root) && Sums(root) && FindLeaf(root, m, v).None?
    ensures Leaves(root) == [] || Total(Leaves(root), m) <= v
  {
    FindInNone(root, 0, m, v, NoOffsets);
    assert root.children[0..] == root.children;
    ChildrenTotalIsLeafTotal(root.children, m);
  }

  /** Under the invariants the scan fails only by skipping every remaining child. */
  lemma {:induction false} FindInNone(n: Node, i: nat, m: Metric, v: int, acc: Offsets)
    requires n.Branch? && i <= |n.children| && Sums(n)
    requires forall j :: 0 <= j < |n.children| ==> NonEmpty(n.children[j])
    ensures FindIn(n, i, m, v, acc).None? ==> i == |n.children| || acc.Get(m) + Total(n.children[i..], m) <= v
    decreases n, |n.children| - i
  {
    if i < |n.children| {
      var c := n.children[i];
      var rest := n.children[i + 1..];
      assert n.children[i..] == [c] + rest;
      OffsetsOfCons(c, rest);
      if acc.Get(m) + Size(c, m) > v {
        if c.Branch? {
          FindInNone(c, 0, m, v, acc);
          assert c.children[0..] == c.children;
        }
      } else {
        FindInNone(n, i + 1, m, v, acc.Plus(SizesOf(c)));
        if i + 1 == |n.children| {
          assert rest == [];
        }
      }
    }
  }

  /** Conversely, when sizes are not negative, a value at or past the total finds nothing. */
  lemma {:induction false} FindInPastEnd(n: Node, i: nat, m: Metric, v: int, acc: Offsets)
    requires n.Branch? && i <= |n.children|
    requires forall j :: 0 <= j < |n.children| ==> Size(n.children[j], m) >= 0
    requires acc.Get(m) + Total(n.children[i..], m) <= v
    ensures FindIn(n, i, m, v, acc).None?
    decreases |n.children| - i
  {
    if i < |n.children| {
      var c := n.children[i];
      var rest := n.children[i + 1..];
      assert n.children[i..] == [c] + rest;
      OffsetsOfCons(c, rest);
      TotalNonNegative(rest, m);
      assert forall j :: 0 <= j < |rest| ==> rest[j] == n.children[i + 1 + j];
      FindInPastEnd(n, i + 1, m, v, acc.Plus(SizesOf(c)));
    }
  }

  lemma {:induction false} TotalNonNegative(ns: seq<Node>, m: Metric)
    ensures (forall j :: 0 <= j < |ns| ==> Size(ns[j], m) >= 0) ==> Total(ns, m) >= 0
  {
    if ns != [] {
      var init := ns[..|ns| - 1];
      assert forall j :: 0 <= j < |init| ==> init[j] == ns[j];
      TotalNonNegative(init, m);
    }
  }

  /** A node over non-negative leaves has a non-negative size. */
  lemma SizeNonNegative(n: Node, m: Metric)
    requires Sums(n) && forall j :: 0 <= j < |Leaves(n)| ==> Size(Leaves(n)[j], m) >= 0
    ensures Size(n, m) >= 0
  {
    SizeIsLeafTotal(n, m);
    TotalNonNegative(Leaves(n), m);
  }

  lemma FindLeafPastEnd(root: Node, m: Metric, v: int)
    requires root.Branch? && Sums(root)
    requires forall j :: 0 <= j < |Leaves(root)| ==> Size(Leaves(root)[j], m) >= 0
    requires Total(Leaves(root), m) <= v
    ensures FindLeaf(root, m, v).None?
  {
    var cs := root.children;
    forall j | 0 <= j < |cs|
      ensures Size(cs[j], m) >= 0
    {
      LeavesOfSplit(cs, j);
      var pre := LeavesOf(cs[..j]);
      forall t | 0 <= t < |Leaves(cs[j])|
        ensures Size(Leaves(cs[j])[t], m) >= 0
      {
        assert Leaves(cs[j])[t] == Leaves(root)[|pre| + t];
      }
      SizeNonNegative(cs[j], m);
    }
    ChildrenTotalIsLeafTotal(cs, m);
    assert cs[0..] == cs;
    FindInPastEnd(root, 0, m, v, NoOffsets);
  }

  /** The path of the first leaf below a non-empty node. */
  function LeftmostPath(n: Node): (p: seq<nat>)
    requires NonEmpty(n)
    ensures IsLeafPath(n, p) && LeafIndex(n, p) == 0
    decreases n
  {
    if n.Leaf? then []
    else
      var q := LeftmostPath(n.children[0]);
      LeafIndexCons(n, 0, q);
      assert n.children[..0] == [];
      [0] + q
  }

  /** The path of the last leaf below a non-empty node (the descent of `_findLastLeaf`). */
  function RightmostPath(n: Node): (p: seq<nat>)
    requires NonEmpty(n)
    ensures IsLeafPath(n, p) && LeafIndex(n, p) == |Leaves(n)| - 1
    decreases n
  {
    if n.Leaf? then []
    else
      var j := |n.children| - 1;
      var q := RightmostPath(n.children[j]);
      LeafIndexCons(n, j, q);
      [j] + q
  }

  /** `_findLastLeaf`: `None` on an empty root, otherwise the last leaf with the root's
      sums minus the leaf's own as the sums before it. */
  function FindLastLeaf(root: Node): (r: Option<Found>)
    requires Populated(root)
    ensures r.None? <==> Leaves(root) == []
    ensures r.Some? ==> IsLeafPath(root, r.value.path) && LeafIndex(root, r.value.path) == |Leaves(root)| - 1
  {
    if |root.children| == 0 then None
    else
      NonEmptyHasLeaf(root);
      var p := RightmostPath(root);
      Some(Found(p, SizesOf(root).Minus(SizesOf(At(root, p)))))
  }

  /** The sums `_findLastLeaf` reports are those of all leaves but the last. */
  lemma FindLastLeafBefore(root: Node)
    requires Populated(root) && Sums(root) && FindLastLeaf(root).Some?
    ensures var ls := Leaves(root);
      FindLastLeaf(root).value.before == OffsetsOf(ls[..|ls| - 1])
  {
    var f := FindLastLeaf(root).value;
    assert LeafIndex(root, f.path) == |Leaves(root)| - 1;
    LastLeafOffsets(root);
  }

  /** The offsets before the last leaf are the tree's sums less that leaf's. */
  lemma LastLeafOffsets(root: Node)
    requires Sums(root) && Leaves(root) != []
    ensures var ls := Leaves(root);
      OffsetsOf(ls[..|ls| - 1]) == SizesOf(root).Minus(SizesOf(ls[|ls| - 1]))
  {
    LastLeafSize(root, NodeCount);
    LastLeafSize(root, ElementCount);
    LastLeafSize(root, Height);
  }

  /** A summed tree's metric splits into the leaves but the last and the last one. */
  lemma LastLeafSize(root: Node, m: Metric)
    requires Sums(root) && Leaves(root) != []
    ensures var ls := Leaves(root);
      Size(root, m) == Total(ls[..|ls| - 1], m) + Size(ls[|ls| - 1], m)
  {
    var ls := Leaves(root);
    var k := |ls| - 1;
    assert ls == ls[..k] + [ls[k]];
    SizeIsLeafTotal(root, m);
    TotalAppend(ls[..k], [ls[k]], m);
    TotalSingleton(ls[k], m);
  }

  lemma LeavesOfNext(cs: seq<Node>, i: nat)
    requires i < |cs|
    ensures |LeavesOf(cs[..i + 1])| == |LeavesOf(cs[..i])| + |Leaves(cs[i])|
    ensures |LeavesOf(cs[..i + 1])| <= |LeavesOf(cs)|
  {
    assert cs[..i + 1][..i] == cs[..i];
    LeavesOfSplit(cs, i);
  }

  /** `_siblingLeaf(leaf, before)`: the path of the neighbouring leaf in document order,
      found by climbing while the node is the first (last) of its siblings and then
      descending along the last (first) children of the neighbouring sibling. */
  function SiblingLeaf(n: Node, p: seq<nat>, before: bool): (r: Option<seq<nat>>)
    requires IsLeafPath(n, p) && NonEmpty(n)
    ensures r.Some? ==> IsLeafPath(n, r.value)
    ensures r.Some? && before ==> LeafIndex(n, r.value) + 1 == LeafIndex(n, p)
    ensures r.Some? && !before ==> LeafIndex(n, r.value) == LeafIndex(n, p) + 1
    ensures r.None? <==> if before then LeafIndex(n, p) == 0 else LeafIndex(n, p) == |Leaves(n)| - 1
    decreases p
  {
    if p == [] then None
    else
      var i := p[0];
      var cs := n.children;
      LeafIndexCons(n, i, p[1..]);
      assert [i] + p[1..] == p;
      LeavesOfNext(cs, i);
      NonEmptyHasLeaf(cs[i]);
      match SiblingLeaf(cs[i], p[1..], before)
      case Some(q) =>
        LeafIndexCons(n, i, q);
        Some([i] + q)
      case None =>
        if before then LastLeafBefore(n, i) else FirstLeafAfter(n, i)
  }

  /** The last leaf of the child before child `i`, if there is one. */
  function LastLeafBefore(n: Node, i: nat): (r: Option<seq<nat>>)
    requires n.Branch? && i < |n.children| && NonEmpty(n)
    ensures r.None? <==> i == 0
    ensures r.None? ==> LeavesOf(n.children[..i]) == []
    ensures r.Some? ==> IsLeafPath(n, r.value) && LeafIndex(n, r.value) + 1 == |LeavesOf(n.children[..i])|
  {
    if i == 0 then
      assert n.children[..0] == [];
      None
    else
      var q := RightmostPath(n.children[i - 1]);
      LeafIndexCons(n, i - 1, q);
      LeavesOfNext(n.children, i - 1);
      Some([i - 1] + q)
  }

  /** The first leaf of the child after child `i`, if there is one. */
  function FirstLeafAfter(n: Node, i: nat): (r: Option<seq<nat>>)
    requires n.Branch? && i < |n.children| && NonEmpty(n)
    ensures r.None? <==> i + 1 == |n.children|
    ensures r.None? ==> LeavesOf(n.children[..i + 1]) == Leaves(n)
    ensures r.Some? ==> IsLeafPath(n, r.value) && LeafIndex(n, r.value) == |LeavesOf(n.children[..i + 1])|
  {
    if i + 1 == |n.children| then
      assert n.children[..i + 1] == n.children;
      None
    else
      var q := LeftmostPath(n.children[i + 1]);
      LeafIndexCons(n, i + 1, q);
      Some([i + 1] + q)
  }
}

=== FILE: partition.dfy ===
/**
 Keeping leaves uniform (`_leafDomUpdated`): after a leaf's items changed, its
 counts are propagated to the ancestors, and the leaf is cut so that every block
 element sits alone in a leaf of its own while consecutive inline items share
 one. Each cut inserts a fresh leaf right after the current one and re-balances
 its parent (`_splitNode`).
 */
module Partition {
  import Optional
  import opened Tree
  import opened Update
  import opened Split

  /** A leaf holds either exactly one block element and is marked block, or only
      inline items and is marked inline. */
  predicate Uniform(l: Node) {
    && l.Leaf?
    && if l.isBlock then |l.items| == 1 && IsBlock(l.items[0])
       else forall j :: 0 <= j < |l.items| ==> !IsBlock(l.items[j])
  }

  predicate AllUniform(ls: seq<Node>) {
    forall j :: 0 <= j < |ls| ==> Uniform(ls[j])
  }

  /** The loop invariant of `_leafDomUpdated` on the current leaf: the items before
      `i` are compatible with the leaf's block flag. */
  predicate Settled(l: Node, i: nat) {
    && l.Leaf?
    && 0 < i <= |l.items|
    && if l.isBlock then i == 1 && IsBlock(l.items[0])
       else forall j :: 0 <= j < i ==> !IsBlock(l.items[j])
  }

  lemma SettledAll(l: Node)
    requires l.Leaf? && Settled(l, |l.items|)
    ensures Uniform(l)
  {
  }

  predicate AllCounted(ls: seq<Node>) {
    forall j :: 0 <= j < |ls| ==> LeafCounted(ls[j])
  }

  /** The two leaves a cut before item `i` leaves in place of `l`: `l` keeps the items
      before `i` and gives up their counts; a new leaf `id` holds the rest, is
      marked by the kind of item `i`, and is unmeasured. */
  function Cut(l: Node, i: nat, id: nat): (r: seq<Node>)
    requires l.Leaf? && 0 < i < |l.items|
    ensures |r| == 2 && r[0].Leaf? && r[1].Leaf?
    ensures r[0].items + r[1].items == l.items
    ensures r[0].id == l.id && r[0].isBlock == l.isBlock && r[1].id == id && r[1].isBlock == IsBlock(l.items[i])
    ensures r[1].box.epoch == 0 && r[1].box.height == 0 && r[1].box.width == 0
    ensures LeafCounted(l) ==> LeafCounted(r[0]) && LeafCounted(r[1])
  {
    var a, b := l.items[..i], l.items[i..];
    assert a + b == l.items;
    ElementsAppend(a, b);
    var rest := Box(0, 0, |b|, |Elements(b)|, 0);
    var kept := Box(l.box.width, l.box.height, l.box.nodes - |b|, l.box.elements - |Elements(b)|, l.box.epoch);
    [Leaf(l.id, a, l.isBlock, l.marginTop, l.marginBottom, kept), Leaf(id, b, IsBlock(l.items[i]), 0, 0, rest)]
  }

  /** The cut pieces add up to the leaf they replace and are as wide as it. */
  lemma CutTotals(l: Node, i: nat, id: nat)
    requires l.Leaf? && 0 < i < |l.items|
    ensures var cs := Cut(l, i, id);
      && (forall m: Metric :: Total(cs, m) == Size(l, m))
      && MaxWidth(cs) == Max(0, l.box.width)
      && LeavesOf(cs) == cs
      && AllSums(cs) && AllWidths(cs) && AllNonEmpty(cs)
  {
    var cs := Cut(l, i, id);
    assert cs == [cs[0]] + [cs[1]];
    forall m: Metric
      ensures Total(cs, m) == Size(l, m)
    {
      TotalAppend([cs[0]], [cs[1]], m);
      TotalSingleton(cs[0], m);
      TotalSingleton(cs[1], m);
    }
    MaxWidthAppend([cs[0]], [cs[1]]);
    MaxWidthSingleton(cs[0]);
    MaxWidthSingleton(cs[1]);
    LeavesOfAppend([cs[0]], [cs[1]]);
    LeavesOfSingleton(cs[0]);
    LeavesOfSingleton(cs[1]);
  }

  /** The piece a cut leaves behind is uniform, and the scan may continue in the new leaf. */
  lemma CutUniform(l: Node, i: nat, id: nat)
    requires Settled(l, i) && i < |l.items|
    ensures Uniform(Cut(l, i, id)[0]) && Settled(Cut(l, i, id)[1], 1)
  {
    var c := Cut(l, i, id)[0];
    assert c.items == l.items[..i];
    if !l.isBlock {
      assert forall j :: 0 <= j < |c.items| ==> c.items[j] == l.items[j];
    }
    assert Cut(l, i, id)[1].items[0] == l.items[i];
  }

  lemma LeafPathNonEmpty(root: Node, p: seq<nat>)
    requires root.Branch? && IsLeafPath(root, p)
    ensures p != []
  {
  }

  /** One cut of `_leafDomUpdated`: leaf `k` is cut before item `i`, the new leaf `id`
      is inserted right after it in the same parent, and the parent is split as
      far up as needed. */
  function SplitLeaf(root: Node, k: nat, i: nat, id: nat, max: nat): (r: Node)
    requires Wf(root, max) && k < |Leaves(root)| && 0 < i < |Leaves(root)[k].items|
  {
    var p := LeafPath(root, k);
    LeafPathNonEmpty(root, p);
    var cs := Cut(Leaves(root)[k], i, id);
    var r1 := SpliceAt(root, p, cs);
    SpliceBounded(root, p, cs, max);
    SplitNodeKeeps(r1, Parent(p), max);
    SplitNode(r1, Parent(p), max)
  }

  lemma SplitLeafKeeps(root: Node, k: nat, i: nat, id: nat, max: nat)
    requires Wf(root, max) && k < |Leaves(root)| && 0 < i < |Leaves(root)[k].items|
    ensures var ls := Leaves(root);
      && Wf(SplitLeaf(root, k, i, id, max), max)
      && Leaves(SplitLeaf(root, k, i, id, max)) == ls[..k] + Cut(ls[k], i, id) + ls[k + 1..]
  {
    var ls := Leaves(root);
    var p := LeafPath(root, k);
    LeafPathNonEmpty(root, p);
    var l := ls[k];
    var cs := Cut(l, i, id);
    var r1 := SpliceAt(root, p, cs);
    CutTotals(l, i, id);
    SpliceLeaves(root, p, cs);
    SpliceBounded(root, p, cs, max);
    SpliceSums(root, p, cs);
    SpliceWidths(root, p, cs);
    SplicePopulated(root, p, cs);
    SplitNodeKeeps(r1, Parent(p), max);
    var r := SplitLeaf(root, k, i, id, max);
    assert r == SplitNode(r1, Parent(p), max);
    assert Leaves(r) == ls[..k] + cs + ls[k + 1..];
    assert LeafCounted(l);
    assert AllCounted(cs);
    CountedSplice(ls, k, cs);
  }

  lemma CountedSplice(ls: seq<Node>, k: nat, cs: seq<Node>)
    requires k < |ls| && AllCounted(ls) && AllCounted(cs)
    ensures AllCounted(ls[..k] + cs + ls[k + 1..])
  {
    var r := ls[..k] + cs + ls[k + 1..];
    forall j | 0 <= j < |r|
      ensures LeafCounted(r[j])
    {
      if j < k {
        assert r[j] == ls[j];
      } else if j < k + |cs| {
        assert r[j] == cs[j - k];
      } else {
        assert r[j] == ls[j - |cs| + 1];
      }
    }
  }

  /** The outcome of partitioning one leaf: the new tree, the ids of the leaves cut
      off it in document order (each queued for measurement), and the next free id. */
  datatype Parted = Parted(root: Node, added: seq<nat>, next: nat)

  /** `ls'` is `ls` with element `k` replaced by `n + 1` elements. */
  predicate Replaces(ls: seq<Node>, ls': seq<Node>, k: nat, n: nat) {
    && k < |ls|
    && |ls'| == |ls| + n
    && ls'[..k] == ls[..k]
    && ls'[k + n + 1..] == ls[k + 1..]
  }

  /** The scan of `_leafDomUpdated` from item `i` of leaf `k`: an inline item after
      inline ones stays; any other item starts a new leaf, after which the scan
      continues in the new leaf from its second item. */
  function PartitionFrom(root: Node, k: nat, i: nat, next: nat, max: nat): (r: Parted)
    requires Wf(root, max) && k < |Leaves(root)| && Settled(Leaves(root)[k], i)
    ensures Wf(r.root, max)
    decreases |Leaves(root)[k].items| - i
  {
    var l := Leaves(root)[k];
    if i == |l.items| then Parted(root, [], next)
    else if IsBlock(l.items[i]) || l.isBlock then
      var r2 := SplitLeaf(root, k, i, next, max);
      SplitLeafKeeps(root, k, i, next, max);
      var rest := PartitionFrom(r2, k + 1, 1, next + 1, max);
      Parted(rest.root, [next] + rest.added, rest.next)
    else PartitionFrom(root, k, i + 1, next, max)
  }

  function LeafId(l: Node): nat {
    if l.Leaf? then l.id else 0
  }

  /** The leaves `ls[k..k + n + 1]` are uniform. */
  predicate UniformIn(ls: seq<Node>, k: nat, n: nat)
    requires k + n < |ls|
  {
    forall j :: k <= j <= k + n ==> Uniform(ls[j])
  }

  /** The ids handed out and the leaves after `ls[k]` that carry them: consecutive from `next`. */
  predicate FreshIds(ls: seq<Node>, k: nat, next: nat, added: seq<nat>)
    requires k + |added| < |ls|
  {
    forall j :: 0 <= j < |added| ==> added[j] == next + j && LeafId(ls[k + 1 + j]) == next + j
  }

  /** What the scan leaves: leaf `k` replaced, in document order, by uniform leaves
      that hold its items in their order, the first keeping its id and the others
      taking consecutive fresh ids. */
  predicate Partitioned(ls: seq<Node>, ls': seq<Node>, k: nat, next: nat, r: Parted) {
    var n := |r.added|;
    && Replaces(ls, ls', k, n)
    && ItemsOf(ls'[k..k + n + 1]) == LeafItems(ls[k])
    && UniformIn(ls', k, n)
    && LeafId(ls'[k]) == LeafId(ls[k])
    && r.next == next + n
    && FreshIds(ls', k, next, r.added)
  }

  lemma {:induction false} PartitionFromCorrect(root: Node, k: nat, i: nat, next: nat, max: nat)
    requires Wf(root, max) && k < |Leaves(root)| && Settled(Leaves(root)[k], i)
    ensures var r := PartitionFrom(root, k, i, next, max);
      Partitioned(Leaves(root), Leaves(r.root), k, next, r)
    decreases |Leaves(root)[k].items| - i, 1
  {
    var ls := Leaves(root);
    var l := ls[k];
    if i == |l.items| {
      PartitionedNone(ls, k, next, PartitionFrom(root, k, i, next, max));
    } else if IsBlock(l.items[i]) || l.isBlock {
      PartitionFromCutCorrect(root, k, i, next, max);
    } else {
      PartitionFromSkipCorrect(root, k, i, next, max);
    }
  }

  lemma {:induction false} PartitionFromSkipCorrect(root: Node, k: nat, i: nat, next: nat, max: nat)
    requires Wf(root, max) && k < |Leaves(root)| && Settled(Leaves(root)[k], i)
    requires i < |Leaves(root)[k].items| && !IsBlock(Leaves(root)[k].items[i]) && !Leaves(root)[k].isBlock
    ensures var r := PartitionFrom(root, k, i, next, max);
      Partitioned(Leaves(root), Leaves(r.root), k, next, r)
    decreases |Leaves(root)[k].items| - i, 0
  {
    assert PartitionFrom(root, k, i, next, max) == PartitionFrom(root, k, i + 1, next, max);
    PartitionFromCorrect(root, k, i + 1, next, max);
  }

  lemma {:induction false} PartitionFromCutCorrect(root: Node, k: nat, i: nat, next: nat, max: nat)
    requires Wf(root, max) && k < |Leaves(root)| && Settled(Leaves(root)[k], i)
    requires i < |Leaves(root)[k].items| && (IsBlock(Leaves(root)[k].items[i]) || Leaves(root)[k].isBlock)
    ensures var r := PartitionFrom(root, k, i, next, max);
      Partitioned(Leaves(root), Leaves(r.root), k, next, r)
    decreases |Leaves(root)[k].items| - i, 0
  {
    var r2 := SplitLeaf(root, k, i, next, max);
    CutStep(root, k, i, next, max);
    var rest := PartitionFrom(r2, k + 1, 1, next + 1, max);
    PartitionFromCorrect(r2, k + 1, 1, next + 1, max);
    CutLifts(root, k, i, next, max, rest);
  }

  /** What the rest of the scan establishes for the new leaf carries over to the
      leaf that was cut. */
  lemma CutLifts(root: Node, k: nat, i: nat, next: nat, max: nat, rest: Parted)
    requires Wf(root, max) && k < |Leaves(root)| && Settled(Leaves(root)[k], i)
    requires i < |Leaves(root)[k].items| && (IsBlock(Leaves(root)[k].items[i]) || Leaves(root)[k].isBlock)
    requires Partitioned(Leaves(SplitLeaf(root, k, i, next, max)), Leaves(rest.root), k + 1, next + 1, rest)
    ensures Partitioned(Leaves(root), Leaves(rest.root), k, next, Parted(rest.root, [next] + rest.added, rest.next))
  {
    var ls := Leaves(root);
    CutStep(root, k, i, next, max);
    PartitionedCut(ls, Leaves(SplitLeaf(root, k, i, next, max)), Leaves(rest.root), k, ls[k], Cut(ls[k], i, next), next, rest);
  }

  /** The facts about one cut that the scan's proof continues from. */
  lemma CutStep(root: Node, k: nat, i: nat, next: nat, max: nat)
    requires Wf(root, max) && k < |Leaves(root)| && Settled(Leaves(root)[k], i)
    requires i < |Leaves(root)[k].items| && (IsBlock(Leaves(root)[k].items[i]) || Leaves(root)[k].isBlock)
    ensures var ls := Leaves(root); var r2 := SplitLeaf(root, k, i, next, max); var cs := Cut(ls[k], i, next);
      && Wf(r2, max)
      && Leaves(r2) == ls[..k] + cs + ls[k + 1..]
      && k + 1 < |Leaves(r2)| && Settled(Leaves(r2)[k + 1], 1)
      && Uniform(cs[0])
      && PartitionFrom(root, k, i, next, max)
         == var rest := PartitionFrom(r2, k + 1, 1, next + 1, max);
            Parted(rest.root, [next] + rest.added, rest.next)
  {
    var ls := Leaves(root);
    var l := ls[k];
    SplitLeafKeeps(root, k, i, next, max);
    CutUniform(l, i, next);
    var ls2 := Leaves(SplitLeaf(root, k, i, next, max));
    assert ls2[k + 1] == Cut(l, i, next)[1];
  }

  /** The scan reached the end of the leaf: nothing is cut. */
  lemma PartitionedNone(ls: seq<Node>, k: nat, next: nat, r: Parted)
    requires k < |ls| && ls[k].Leaf? && Settled(ls[k], |ls[k].items|) && r.added == [] && r.next == next
    ensures Partitioned(ls, ls, k, next, r)
  {
    assert ls[k..k + 1] == [ls[k]];
    ItemsOfSingleton(ls[k]);
  }

  /** One cut followed by the rest of the scan in the new leaf. */
  lemma PartitionedCut(ls: seq<Node>, ls2: seq<Node>, ls3: seq<Node>, k: nat, l: Node, cs: seq<Node>,
                       next: nat, rest: Parted)
    requires k < |ls| && l == ls[k] && |cs| == 2 && cs[0].Leaf? && cs[1].Leaf? && l.Leaf?
    requires cs[0].items + cs[1].items == l.items && Uniform(cs[0])
    requires cs[0].id == l.id && cs[1].id == next
    requires ls2 == ls[..k] + cs + ls[k + 1..]
    requires Partitioned(ls2, ls3, k + 1, next + 1, rest)
    ensures Partitioned(ls, ls3, k, next, Parted(rest.root, [next] + rest.added, rest.next))
  {
    var n' := |rest.added|;
    var r := Parted(rest.root, [next] + rest.added, rest.next);
    assert |r.added| == n' + 1;
    ReplacesCut(ls, ls2, ls3, k, cs, n');
    CutItems(ls, ls2, ls3, k, cs, n');
    UniformCut(ls3, k, n');
    IdsCut(ls3, k, next, rest);
    PartitionedIntro(ls, ls3, k, next, r);
  }

  /** The items of the cut leaf are those of its first piece followed by those of
      the leaves the second piece was partitioned into. */
  lemma CutItems(ls: seq<Node>, ls2: seq<Node>, ls3: seq<Node>, k: nat, cs: seq<Node>, n': nat)
    requires k < |ls| && |cs| == 2 && cs[0].Leaf? && cs[1].Leaf? && ls[k].Leaf?
    requires cs[0].items + cs[1].items == ls[k].items
    requires ls2 == ls[..k] + cs + ls[k + 1..]
    requires k + n' + 2 <= |ls3| && ls3[k] == cs[0]
    requires ItemsOf(ls3[k + 1..k + 1 + n' + 1]) == LeafItems(ls2[k + 1])
    ensures ItemsOf(ls3[k..k + n' + 2]) == LeafItems(ls[k])
  {
    assert ls2[k + 1] == cs[1];
    ItemsCut(ls3, k, n', k + n' + 2, cs[0], cs[1].items);
  }

  lemma PartitionedIntro(ls: seq<Node>, ls': seq<Node>, k: nat, next: nat, r: Parted)
    requires Replaces(ls, ls', k, |r.added|)
    requires ItemsOf(ls'[k..k + |r.added| + 1]) == LeafItems(ls[k])
    requires UniformIn(ls', k, |r.added|) && LeafId(ls'[k]) == LeafId(ls[k])
    requires r.next == next + |r.added| && FreshIds(ls', k, next, r.added)
    ensures Partitioned(ls, ls', k, next, r)
  {
  }

  lemma ItemsCut(ls3: seq<Node>, k: nat, n': nat, hi: nat, a: Node, b: seq<Item>)
    requires hi == k + n' + 2 && hi <= |ls3| && ls3[k] == a && a.Leaf?
    requires ItemsOf(ls3[k + 1..k + 1 + n' + 1]) == b
    ensures ItemsOf(ls3[k..hi]) == a.items + b
  {
    var w' := ls3[k + 1..k + 1 + n' + 1];
    assert ls3[k..hi] == [a] + w';
    ItemsOfAppend([a], w');
    ItemsOfSingleton(a);
  }

  lemma UniformCut(ls3: seq<Node>, k: nat, n': nat)
    requires k + n' + 1 < |ls3| && Uniform(ls3[k]) && UniformIn(ls3, k + 1, n')
    ensures UniformIn(ls3, k, n' + 1)
  {
  }

  lemma ReplacesCut(ls: seq<Node>, ls2: seq<Node>, ls3: seq<Node>, k: nat, cs: seq<Node>, n': nat)
    requires k < |ls| && |cs| == 2 && ls2 == ls[..k] + cs + ls[k + 1..]
    requires Replaces(ls2, ls3, k + 1, n')
    ensures Replaces(ls, ls3, k, n' + 1) && ls3[k] == cs[0]
  {
    assert ls2[..k + 1] == ls[..k] + [cs[0]];
    assert ls3[..k + 1] == ls2[..k + 1];
    assert ls3[..k] == ls3[..k + 1][..k];
    assert ls3[k] == ls3[..k + 1][k];
    assert ls2[k + 2..] == ls[k + 1..];
  }

  lemma IdsCut(ls3: seq<Node>, k: nat, next: nat, rest: Parted)
    requires k + 1 + |rest.added| < |ls3|
    requires LeafId(ls3[k + 1]) == next
    requires FreshIds(ls3, k + 1, next + 1, rest.added)
    ensures FreshIds(ls3, k, next, [next] + rest.added)
  {
    var added := [next] + rest.added;
    forall j | 0 <= j < |added|
      ensures added[j] == next + j && LeafId(ls3[k + 1 + j]) == next + j
    {
      if j > 0 {
        assert added[j] == rest.added[j - 1];
        assert k + 1 + j == k + 1 + 1 + (j - 1);
      }
    }
  }

  /** The flag step of `_leafDomUpdated` (`i == 0`): the first item decides the
      leaf's block flag, which is written only when it differs. */
  function SetBlock(l: Node): (r: Node)
    requires l.Leaf?
    ensures r.Leaf? && r.items == l.items && r.id == l.id && r.box == l.box
    ensures r.marginTop == l.marginTop && r.marginBottom == l.marginBottom
    ensures l.items != [] ==> Settled(r, 1)
    ensures l.items == [] || l.isBlock == IsBlock(l.items[0]) ==> r == l
  {
    if l.items == [] || l.isBlock == IsBlock(l.items[0]) then l
    else Leaf(l.id, l.items, IsBlock(l.items[0]), l.marginTop, l.marginBottom, l.box)
  }

  /** The block-flag step and the scan of `_leafDomUpdated` over the leaf at `p`,
      handing out ids from `next` to the leaves it cuts off. */
  function Partition(root: Node, p: seq<nat>, next: nat, max: nat): (r: Parted)
    requires Wf(root, max) && IsLeafPath(root, p)
    ensures Wf(r.root, max)
  {
    var l := At(root, p);
    if l.items == [] then Parted(root, [], next)
    else
      var r0 := ReplaceAt(root, p, SetBlock(l));
      FlagStep(root, p, max);
      PartitionFrom(r0, LeafIndex(root, p), 1, next, max)
  }

  lemma FlagStep(root: Node, p: seq<nat>, max: nat)
    requires Wf(root, max) && IsLeafPath(root, p) && At(root, p).items != []
    ensures var l := At(root, p); var x := SetBlock(l);
      var r0 := ReplaceAt(root, p, x); var k := LeafIndex(root, p);
      && Wf(r0, max)
      && Leaves(r0) == Leaves(root)[k := x]
      && Settled(x, 1)
  {
    var l := At(root, p);
    var x := SetBlock(l);
    var k := LeafIndex(root, p);
    LeafPathNonEmpty(root, p);
    ReplaceKeepsBounded(root, p, x, max);
    ReplaceKeepsSums(root, p, x);
    ReplaceKeepsWidths(root, p, x);
    ReplaceKeepsPopulated(root, p, x);
    ReplaceLeaf(root, p, x);
    var ls0 := Leaves(ReplaceAt(root, p, x));
    assert forall j :: 0 <= j < |ls0| ==> ls0[j] == Leaves(root)[j] || ls0[j] == x;
  }

  /** Partitioning replaces the leaf at `p`, in document order, by uniform leaves
      holding its items in their order; an empty leaf is left alone. */
  lemma PartitionCorrect(root: Node, p: seq<nat>, next: nat, max: nat)
    requires Wf(root, max) && IsLeafPath(root, p)
    ensures var r := Partition(root, p, next, max); var k := LeafIndex(root, p);
      && (At(root, p).items == [] ==> r.root == root && r.added == [] && r.next == next)
      && (At(root, p).items != [] ==> Partitioned(Leaves(root), Leaves(r.root), k, next, r))
      && Items(r.root) == Items(root)
  {
    var l := At(root, p);
    var ls := Leaves(root);
    var k := LeafIndex(root, p);
    var r := Partition(root, p, next, max);
    if l.items != [] {
      var x := SetBlock(l);
      var r0 := ReplaceAt(root, p, x);
      FlagStep(root, p, max);
      PartitionFromCorrect(r0, k, 1, next, max);
      PartitionedRebase(ls, Leaves(r0), Leaves(r.root), k, next, r);
      PartitionedItems(ls, Leaves(r.root), k, next, r);
    }
  }

  /** The scan may start from a leaf that differs from the original only in its flag. */
  lemma PartitionedRebase(ls: seq<Node>, ls0: seq<Node>, ls': seq<Node>, k: nat, next: nat, r: Parted)
    requires k < |ls| && |ls0| == |ls| && ls[k].Leaf? && ls0 == ls[k := ls0[k]] && ls0[k].Leaf?
    requires ls0[k].items == ls[k].items && ls0[k].id == ls[k].id
    requires Partitioned(ls0, ls', k, next, r)
    ensures Partitioned(ls, ls', k, next, r)
  {
    assert ls0[..k] == ls[..k];
    assert ls0[k + 1..] == ls[k + 1..];
  }

  /** Partitioning keeps the items of the whole tree in their order. */
  lemma PartitionedItems(ls: seq<Node>, ls': seq<Node>, k: nat, next: nat, r: Parted)
    requires Partitioned(ls, ls', k, next, r)
    ensures ItemsOf(ls') == ItemsOf(ls)
  {
    var n := |r.added|;
    assert ls == ls[..k] + [ls[k]] + ls[k + 1..];
    assert ls' == ls'[..k] + ls'[k..k + n + 1] + ls'[k + n + 1..];
    ItemsOfAppend(ls[..k] + [ls[k]], ls[k + 1..]);
    ItemsOfAppend(ls[..k], [ls[k]]);
    ItemsOfSingleton(ls[k]);
    ItemsOfAppend(ls'[..k] + ls'[k..k + n + 1], ls'[k + n + 1..]);
    ItemsOfAppend(ls'[..k], ls'[k..k + n + 1]);
  }

  /** Leaves that were uniform stay uniform, and the partitioned leaf's pieces are. */
  lemma PartitionedUniform(ls: seq<Node>, ls': seq<Node>, k: nat, next: nat, r: Parted)
    requires Partitioned(ls, ls', k, next, r)
    requires forall j :: 0 <= j < |ls| && j != k ==> Uniform(ls[j])
    ensures AllUniform(ls')
  {
    var n := |r.added|;
    forall j | 0 <= j < |ls'|
      ensures Uniform(ls'[j])
    {
      if j < k {
        assert ls'[j] == ls'[..k][j] == ls[..k][j];
      } else if j > k + n {
        var t := j - (k + n + 1);
        assert ls'[j] == ls'[k + n + 1..][t];
        assert ls[k + 1..][t] == ls[k + 1 + t];
      }
    }
  }

  /** The leaf's items as the DOM holds them after a node was inserted before item `j`,
      or appended when `j` is past the end (`_insertNodeInLeaf`). */
  function InsertInto(items: seq<Item>, j: nat, x: Item): (r: seq<Item>)
    ensures |r| == |items| + 1
  {
    if j >= |items| then items + [x] else items[..j] + [x] + items[j..]
  }

  /** The inserted node sits at position `min(j, |items|)`, with the items before it
      and after it unchanged. */
  lemma InsertIntoIs(items: seq<Item>, j: nat, x: Item)
    ensures var r := InsertInto(items, j, x); var q := Min(j, |items|);
      r[..q] == items[..q] && r[q] == x && r[q + 1..] == items[q..]
  {
  }

  /** `_insertNodeInLeaf` as written. The append branch (`index >= domChildNodes`)
      inserts; the other reads `results.node.childNodes[index]`, a field a leaf
      `TreeNode` never has, and throws (`None`). */
  function InsertIntoAsWritten(l: Node, j: nat, x: Item): (r: Optional.Option<seq<Item>>)
    requires l.Leaf?
    ensures r.Some? <==> l.box.nodes <= j
    ensures r.Some? && LeafCounted(l) ==> r.value == InsertInto(l.items, j, x)
  {
    if l.box.nodes <= j then Optional.Some(l.items + [x]) else Optional.None
  }

  /** A node inserted before the only item of a counted leaf: as written the
      insertion throws, while the intended one puts the node first. */
  lemma InsertBeforeThrows()
    ensures var l := Leaf(0, [Text(0)], false, 0, 0, Box(0, 0, 1, 0, 0));
      && LeafCounted(l)
      && InsertIntoAsWritten(l, 0, Text(1)).None?
      && InsertInto(l.items, 0, Text(1)) == [Text(1), Text(0)]
  {
    var l := Leaf(0, [Text(0)], false, 0, 0, Box(0, 0, 1, 0, 0));
    assert Elements(l.items) == [];
  }

  function WithItems(l: Node, items: seq<Item>): (r: Node)
    requires l.Leaf?
    ensures r.Leaf? && r.items == items && r.id == l.id && r.isBlock == l.isBlock && r.box == l.box
  {
    Leaf(l.id, items, l.isBlock, l.marginTop, l.marginBottom, l.box)
  }

  /** The DOM insertion into the leaf at `p`; its counts are not yet updated. */
  function InsertItem(root: Node, p: seq<nat>, j: nat, x: Item): (r: Node)
    requires Populated(root) && IsLeafPath(root, p)
    ensures IsLeafPath(r, p) && Populated(r)
  {
    var l := At(root, p);
    LeafPathNonEmpty(root, p);
    ReplaceKeepsPopulated(root, p, WithItems(l, InsertInto(l.items, j, x)));
    ReplaceAt(root, p, WithItems(l, InsertInto(l.items, j, x)))
  }

  /** The count step of `_leafDomUpdated`: the leaf's cached counts are compared
      with its items, and the difference is added to the leaf and every ancestor. */
  function Recount(root: Node, p: seq<nat>): (r: Node)
    requires Populated(root) && IsLeafPath(root, p)
    ensures IsLeafPath(r, p) && Populated(r) && LeafCounted(At(r, p))
  {
    var l := At(root, p);
    var d := Offsets(|l.items| - l.box.nodes, |Elements(l.items)| - l.box.elements, 0);
    LeafPathNonEmpty(root, p);
    AddAlongPopulated(root, p, d);
    AddAlong(root, p, d)
  }

  /** The insertion changes the one leaf's items and nothing the invariants other
      than the counts depend on. */
  lemma InsertItemKeeps(root: Node, p: seq<nat>, j: nat, x: Item, max: nat)
    requires Wf(root, max) && IsLeafPath(root, p)
    ensures var r1 := InsertItem(root, p, j, x); var l := At(root, p);
      && Bounded(r1, max) && Sums(r1) && Widths(r1)
      && LeafIndex(r1, p) == LeafIndex(root, p)
      && Leaves(r1) == Leaves(root)[LeafIndex(root, p) := WithItems(l, InsertInto(l.items, j, x))]
  {
    var l := At(root, p);
    var y := WithItems(l, InsertInto(l.items, j, x));
    ReplaceLeaf(root, p, y);
    ReplaceKeepsBounded(root, p, y, max);
    ReplaceKeepsSums(root, p, y);
    ReplaceKeepsWidths(root, p, y);
  }

  /** Recounting the one leaf whose items changed restores every invariant. */
  lemma RecountKeeps(r1: Node, p: seq<nat>, max: nat)
    requires Populated(r1) && IsLeafPath(r1, p) && 2 <= max
    requires Bounded(r1, max) && Sums(r1) && Widths(r1)
    requires forall t :: 0 <= t < |Leaves(r1)| && t != LeafIndex(r1, p) ==> LeafCounted(Leaves(r1)[t])
    ensures var r := Recount(r1, p); var k := LeafIndex(r1, p);
      && Wf(r, max)
      && LeafIndex(r, p) == k
      && Leaves(r) == Leaves(r1)[k := At(r, p)]
      && At(r, p).items == At(r1, p).items
  {
    var l := At(r1, p);
    var d := Offsets(|l.items| - l.box.nodes, |Elements(l.items)| - l.box.elements, 0);
    var r := Recount(r1, p);
    assert r == AddAlong(r1, p, d);
    AddAlongKeeps(r1, p, d, max);
    AddAlongLeaf(r1, p, d);
    CountedUpdate(Leaves(r1), Leaves(r), LeafIndex(r1, p));
  }

  /** Counting one more leaf completes a sequence counted everywhere else. */
  lemma CountedUpdate(ls: seq<Node>, ls': seq<Node>, k: nat)
    requires k < |ls| == |ls'| && ls' == ls[k := ls'[k]] && LeafCounted(ls'[k])
    requires forall t :: 0 <= t < |ls| && t != k ==> LeafCounted(ls[t])
    ensures forall t :: 0 <= t < |ls'| ==> LeafCounted(ls'[t])
  {
    assert forall t :: 0 <= t < |ls'| && t != k ==> ls'[t] == ls[t];
  }

  /** Inserting a node and recounting keeps every invariant ... */
  lemma InsertRecountKeeps(root: Node, p: seq<nat>, j: nat, x: Item, max: nat)
    requires Wf(root, max) && IsLeafPath(root, p)
    ensures Wf(Recount(InsertItem(root, p, j, x), p), max)
  {
    InsertItemKeeps(root, p, j, x, max);
    RecountKeeps(InsertItem(root, p, j, x), p, max);
  }

  /** ... and changes the one leaf, whose items gain the node before item `j`. */
  lemma InsertRecountLeaves(root: Node, p: seq<nat>, j: nat, x: Item, max: nat)
    requires Wf(root, max) && IsLeafPath(root, p)
    ensures var r := Recount(InsertItem(root, p, j, x), p);
      var ls := Leaves(root); var k := LeafIndex(root, p);
      && LeafIndex(r, p) == k
      && Leaves(r) == ls[k := At(r, p)]
      && At(r, p).items == InsertInto(ls[k].items, j, x)
  {
    var ls := Leaves(root);
    var k := LeafIndex(root, p);
    var r1 := InsertItem(root, p, j, x);
    InsertItemKeeps(root, p, j, x, max);
    RecountKeeps(r1, p, max);
    var r := Recount(r1, p);
    var l := At(root, p);
    var y := WithItems(l, InsertInto(l.items, j, x));
    assert Leaves(r) == ls[k := y][k := At(r, p)];
    UpdateTwice(ls, k, y, At(r, p));
  }

  /** The leaf that received the node keeps its id and its block flag. */
  lemma InsertRecountLeaf(root: Node, p: seq<nat>, j: nat, x: Item)
    requires Populated(root) && IsLeafPath(root, p)
    ensures var r := Recount(InsertItem(root, p, j, x), p);
      At(r, p).id == At(root, p).id && At(r, p).isBlock == At(root, p).isBlock
  {
  }

  /** The position in document order of item `j` of leaf `k`, or of the end of
      that leaf when `j` is past it. */
  function OffsetIn(ls: seq<Node>, k: nat, j: nat): nat
    requires k < |ls| && ls[k].Leaf?
  {
    |ItemsOf(ls[..k])| + Min(j, |ls[k].items|)
  }

  /** ... and inserts the node into the document order of the whole tree. */
  lemma InsertRecountItems(root: Node, p: seq<nat>, j: nat, x: Item, max: nat)
    requires Wf(root, max) && IsLeafPath(root, p)
    ensures Items(Recount(InsertItem(root, p, j, x), p)) == InsertInto(Items(root), OffsetIn(Leaves(root), LeafIndex(root, p), j), x)
  {
    InsertRecountLeaves(root, p, j, x, max);
    InsertItems(Leaves(root), Leaves(Recount(InsertItem(root, p, j, x), p)), LeafIndex(root, p), j, x);
  }

  /** Replacing leaf `k` by one with `x` inserted before its item `j` inserts `x`
      into the concatenated items. */
  lemma InsertItems(ls: seq<Node>, ls': seq<Node>, k: nat, j: nat, x: Item)
    requires k < |ls| && ls[k].Leaf? && |ls'| == |ls| && ls'[k].Leaf?
    requires ls' == ls[k := ls'[k]] && ls'[k].items == InsertInto(ls[k].items, j, x)
    ensures ItemsOf(ls') == InsertInto(ItemsOf(ls), OffsetIn(ls, k, j), x)
  {
    ItemsUpdate(ls, k, ls'[k]);
    InsertChain(ItemsOf(ls), ItemsOf(ls'), ItemsOf(ls[..k]), ls[k].items, ItemsOf(ls[k + 1..]),
                j, OffsetIn(ls, k, j), x);
  }

  /** Inserting into the middle part of `a + its + b` is inserting into the whole. */
  lemma InsertChain(all: seq<Item>, all': seq<Item>, a: seq<Item>, its: seq<Item>, b: seq<Item>,
                    j: nat, off: nat, x: Item)
    requires all == a + its + b && all' == a + InsertInto(its, j, x) + b
    requires off == |a| + Min(j, |its|)
    ensures all' == InsertInto(all, off, x)
  {
    InsertIntoMiddle(a, its, b, j, x);
  }

  /** The items of a leaf sequence split around leaf `k`, before and after it is
      replaced by `y`. */
  lemma ItemsUpdate(ls: seq<Node>, k: nat, y: Node)
    requires k < |ls| && ls[k].Leaf? && y.Leaf?
    ensures ItemsOf(ls) == ItemsOf(ls[..k]) + ls[k].items + ItemsOf(ls[k + 1..])
    ensures ItemsOf(ls[k := y]) == ItemsOf(ls[..k]) + y.items + ItemsOf(ls[k + 1..])
  {
    Around(ls, k, y);
    ItemsAround(ls[..k], ls[k], ls[k + 1..]);
    ItemsAround(ls[..k], y, ls[k + 1..]);
  }

  lemma Around<T>(s: seq<T>, k: nat, y: T)
    requires k < |s|
    ensures s == s[..k] + [s[k]] + s[k + 1..]
    ensures s[k := y] == s[..k] + [y] + s[k + 1..]
  {
  }

  lemma ItemsAround(a: seq<Node>, y: Node, b: seq<Node>)
    requires y.Leaf?
    ensures ItemsOf(a + [y] + b) == ItemsOf(a) + y.items + ItemsOf(b)
  {
    ItemsOfAppend(a + [y], b);
    ItemsOfAppend(a, [y]);
    ItemsOfSingleton(y);
  }

  lemma InsertIntoMiddle(a: seq<Item>, its: seq<Item>, b: seq<Item>, j: nat, x: Item)
    ensures a + InsertInto(its, j, x) + b == InsertInto(a + its + b, |a| + Min(j, |its|), x)
  {
    var m := Min(j, |its|);
    var all := a + its + b;
    InsertIntoSplit(its, m, j, x);
    InsertIntoSplit(all, |a| + m, |a| + m, x);
    SplitAt(a, its, b, m);
    Regroup(a, its[..m], [x], its[m..], b);
  }

  lemma SplitAt<T>(a: seq<T>, l: seq<T>, b: seq<T>, m: nat)
    requires m <= |l|
    ensures (a + l + b)[..|a| + m] == a + l[..m]
    ensures (a + l + b)[|a| + m..] == l[m..] + b
  {
    assert (a + l + b)[..|a| + m] == a + l[..m];
    assert (a + l + b)[|a| + m..] == l[m..] + b;
  }

  lemma Regroup<T>(a: seq<T>, u: seq<T>, x: seq<T>, v: seq<T>, b: seq<T>)
    ensures a + (u + x + v) + b == (a + u) + x + (v + b)
  {
  }

  /** Inserting at a position within the sequence puts `x` between the two
      halves. */
  lemma InsertIntoSplit(s: seq<Item>, q: nat, j: nat, x: Item)
    requires q == Min(j, |s|)
    ensures InsertInto(s, j, x) == s[..q] + [x] + s[q..]
  {
    if j >= |s| {
      assert s[..q] == s && s[q..] == [];
    }
  }

  /** The scan as the source writes it, within one parent with room for the new
      leaves: every new leaf is inserted at `c + 1`, the position right after the
      leaf the scan started from, rather than right after the current leaf. */
  function ScanAsWritten(cs: seq<Node>, c: nat, cur: nat, i: nat, next: nat): (r: seq<Node>)
    requires c < |cs| && cur < |cs| && cs[cur].Leaf? && 0 < i <= |cs[cur].items|
    ensures |r| >= |cs|
    decreases |cs[cur].items| - i
  {
    var l := cs[cur];
    if i == |l.items| then cs
    else if IsBlock(l.items[i]) || l.isBlock then
      var pieces := Cut(l, i, next);
      var cs1 := cs[cur := pieces[0]];
      var cs2 := cs1[..c + 1] + [pieces[1]] + cs1[c + 1..];
      assert cs2[c + 1] == pieces[1];
      ScanAsWritten(cs2, c, c + 1, 1, next + 1)
    else ScanAsWritten(cs, c, cur, i + 1, next)
  }

  /** `_leafDomUpdated`'s flag step and scan over child `c`, as written. */
  function PartitionAsWritten(cs: seq<Node>, c: nat, next: nat): (r: seq<Node>)
    requires c < |cs| && cs[c].Leaf?
    ensures |r| >= |cs|
  {
    var l := cs[c];
    if l.items == [] then cs
    else ScanAsWritten(cs[c := SetBlock(l)], c, c, 1, next)
  }

  /** A block element inserted between two text nodes of one leaf: the stale
      insertion index puts the second text node before the block element, so the
      leaves no longer hold the items in document order. The tree-level
      `Partition` keeps them (`PartitionCorrect`). */
  lemma PartitionAsWrittenReorders()
    ensures var l := Leaf(0, [Text(0), Element(1, true), Text(2)], false, 0, 0, Box(0, 0, 3, 1, 0));
      && ItemsOf(PartitionAsWritten([l], 0, 5)) == [Text(0), Text(2), Element(1, true)]
      && ItemsOf(PartitionAsWritten([l], 0, 5)) != l.items
  {
    var l := Leaf(0, [Text(0), Element(1, true), Text(2)], false, 0, 0, Box(0, 0, 3, 1, 0));
    ReorderFirstCut(l);
    var p1 := Cut(l, 1, 5);
    ReorderSecondCut(p1[0], p1[1]);
    var p2 := Cut(p1[1], 1, 6);
    ItemsOfThree(p1[0], p2[1], p2[0]);
  }

  /** The first cut, before the block element. */
  lemma ReorderFirstCut(l: Node)
    requires l == Leaf(0, [Text(0), Element(1, true), Text(2)], false, 0, 0, Box(0, 0, 3, 1, 0))
    ensures var p1 := Cut(l, 1, 5);
      && p1[0].items == [Text(0)] && p1[1].items == [Element(1, true), Text(2)] && p1[1].isBlock
      && PartitionAsWritten([l], 0, 5) == ScanAsWritten([p1[0], p1[1]], 0, 1, 1, 6)
  {
    assert SetBlock(l) == l;
    assert [l][0 := l] == [l];
    var p1 := Cut(l, 1, 5);
    assert p1[0].items == [Text(0)] && p1[1].items == [Element(1, true), Text(2)];
    assert [l][0 := p1[0]][..1] + [p1[1]] + [l][0 := p1[0]][1..] == [p1[0], p1[1]];
  }

  /** The second cut, before the text after the block element: the new leaf
      lands at index 1 again, ahead of the block element's leaf. */
  lemma ReorderSecondCut(a: Node, b: Node)
    requires a.Leaf? && b.Leaf? && b.items == [Element(1, true), Text(2)] && b.isBlock
    ensures var p2 := Cut(b, 1, 6);
      && p2[0].items == [Element(1, true)] && p2[1].items == [Text(2)]
      && ScanAsWritten([a, b], 0, 1, 1, 6) == [a, p2[1], p2[0]]
  {
    var p2 := Cut(b, 1, 6);
    assert p2[0].items == [Element(1, true)] && p2[1].items == [Text(2)];
    var cs1 := [a, b][1 := p2[0]];
    assert cs1[..1] + [p2[1]] + cs1[1..] == [a, p2[1], p2[0]];
  }

  lemma ItemsOfThree(a: Node, b: Node, c: Node)
    requires a.Leaf? && b.Leaf? && c.Leaf?
    ensures ItemsOf([a, b, c]) == a.items + b.items + c.items
  {
    assert [a, b, c] == [a] + [b] + [c];
    ItemsOfAppend([a] + [b], [c]);
    ItemsOfAppend([a], [b]);
    ItemsOfSingleton(a);
    ItemsOfSingleton(b);
    ItemsOfSingleton(c);
  }
}

=== FILE: scheduler.dfy ===
/**
 Deferred work: `_scheduleUpdate` coalesces named updates into one list that a
 zero-delay timer flushes, and `_addToUpdateQueue` feeds the background worker
 (`_startUpdateWorker`) that measures queued leaves a time slice at a time. The
 timers and the clock are abstracted: a flush is an explicit step, and a time
 slice is a budget of loop turns.
 */
module Scheduler {
  import opened Optional

  /** The updates `_scheduleUpdate` is called with. */
  datatype Update = StartUpdateWorker | ForceUpdateViewportPosition

  /** No element appears twice. */
  predicate Distinct<T(==)>(s: seq<T>) {
    forall i, j :: 0 <= i < j < |s| ==> s[i] != s[j]
  }

  /** `_scheduleUpdate(u)`: `pending` is `scheduledUpdates`, `None` while no flush
      is armed. The first request arms the flush with `[u]`; later ones append `u`
      unless it is already waiting. */
  function Schedule(pending: Option<seq<Update>>, u: Update): (r: Option<seq<Update>>)
    ensures r.Some? && u in r.value
    ensures forall x :: x in r.value <==> x == u || (pending.Some? && x in pending.value)
    ensures pending.Some? ==> |pending.value| <= |r.value| && r.value[..|pending.value|] == pending.value
    ensures pending.None? || Distinct(pending.value) ==> Distinct(r.value)
  {
    match pending
    case None => Some([u])
    case Some(us) => if u in us then pending else Some(us + [u])
  }

  /** Requesting an update that is already waiting changes nothing. */
  lemma ScheduleIdempotent(pending: Option<seq<Update>>, u: Update)
    ensures Schedule(Schedule(pending, u), u) == Schedule(pending, u)
  {
  }

  /** The requests `us`, in order, starting from `pending`. */
  function ScheduleAll(pending: Option<seq<Update>>, us: seq<Update>): Option<seq<Update>>
  {
    if us == [] then pending else Schedule(ScheduleAll(pending, us[..|us| - 1]), us[|us| - 1])
  }

  /** The position of the first occurrence of `x` in `s`. */
  function FirstIndex<T(==)>(s: seq<T>, x: T): (i: nat)
    requires x in s
    ensures i < |s| && s[i] == x && x !in s[..i]
  {
    if s[0] == x then 0 else 1 + FirstIndex(s[1..], x)
  }

  lemma {:induction false} FirstIndexAppend<T>(s: seq<T>, t: seq<T>, x: T)
    requires x in s
    ensures FirstIndex(s + t, x) == FirstIndex(s, x)
  {
    if s[0] != x {
      assert (s + t)[1..] == s[1..] + t;
      FirstIndexAppend(s[1..], t, x);
    }
  }

  lemma FirstIndexLast<T>(s: seq<T>, x: T)
    requires x !in s
    ensures FirstIndex(s + [x], x) == |s|
  {
  }

  /** `r` lists each element of `us` once, in the order of its first occurrence. */
  predicate InFirstOrder(us: seq<Update>, r: seq<Update>) {
    && Distinct(r)
    && (forall x :: x in r <==> x in us)
    && (forall i, j :: 0 <= i < j < |r| ==> FirstIndex(us, r[i]) < FirstIndex(us, r[j]))
  }

  /** A repeated request leaves the order as it was. */
  lemma RepeatKeepsOrder(init: seq<Update>, x: Update, p: seq<Update>)
    requires InFirstOrder(init, p) && x in p
    ensures InFirstOrder(init + [x], p)
  {
    forall y | y in init
      ensures FirstIndex(init + [x], y) == FirstIndex(init, y)
    {
      FirstIndexAppend(init, [x], y);
    }
  }

  /** A new request goes last, and it is the last to have been first requested. */
  lemma NewGoesLast(init: seq<Update>, x: Update, p: seq<Update>)
    requires InFirstOrder(init, p) && x !in p
    ensures InFirstOrder(init + [x], p + [x])
  {
    var us, r := init + [x], p + [x];
    forall y | y in init
      ensures FirstIndex(us, y) == FirstIndex(init, y)
    {
      FirstIndexAppend(init, [x], y);
    }
    FirstIndexLast(init, x);
    forall i, j | 0 <= i < j < |r|
      ensures FirstIndex(us, r[i]) < FirstIndex(us, r[j])
    {
      assert r[i] == p[i] && r[i] in init;
      if j < |p| {
        assert r[j] == p[j];
      } else {
        assert FirstIndex(us, r[j]) == |init|;
      }
    }
  }

  /** Flushing after a burst of requests runs each distinct update once, in the
      order of its first request. */
  lemma {:induction false} ScheduleAllFirstRequests(us: seq<Update>)
    requires us != []
    ensures var r := ScheduleAll(None, us);
      r.Some? && InFirstOrder(us, r.value)
    decreases |us|
  {
    var init, x := us[..|us| - 1], us[|us| - 1];
    assert us == init + [x];
    if init == [] {
      assert ScheduleAll(None, us) == Some([x]);
    } else {
      ScheduleAllFirstRequests(init);
      var p := ScheduleAll(None, init).value;
      if x in p {
        RepeatKeepsOrder(init, x, p);
      } else {
        NewGoesLast(init, x, p);
      }
    }
  }

  /** The flush timer fires: `r.0` lists the updates to run, in order, and `r.1` is
      what stays armed. Exactly the waiting updates run, none twice, and nothing
      stays armed, so the next request arms a new flush holding only itself. */
  function Flush(pending: Option<seq<Update>>): (r: (seq<Update>, Option<seq<Update>>))
    ensures forall u :: u in r.0 <==> pending.Some? && u in pending.value
    ensures pending.None? || Distinct(pending.value) ==> Distinct(r.0)
    ensures forall u :: Schedule(r.1, u) == Some([u])
  {
    (if pending.Some? then pending.value else [], None)
  }

  /** A flush after a burst of requests runs each requested update once, in the
      order of its first request, and leaves the next request to arm a new flush. */
  lemma FlushRunsFirstRequests(us: seq<Update>)
    requires us != []
    ensures var r := Flush(ScheduleAll(None, us));
      && InFirstOrder(us, r.0)
      && forall u :: Schedule(r.1, u) == Some([u])
  {
    ScheduleAllFirstRequests(us);
  }

  /** The update queue and its worker. `queue` holds the ids of leaves waiting to
      be measured (duplicates allowed); `updating` is set while a worker is
      scheduled or running; `pending` is the coalesced update list; `resume` is
      set while the worker's continuation timer is armed. */
  datatype Worker = Worker(queue: seq<nat>, updating: bool, pending: Option<seq<Update>>, resume: bool)

  /** The flag tells whether there is work left: a worker is scheduled or running
      exactly while the queue is non-empty. */
  predicate Tracked(w: Worker) {
    w.updating <==> w.queue != []
  }

  /** A start of the worker waits in the update list. */
  predicate Armed(w: Worker) {
    w.pending.Some? && StartUpdateWorker in w.pending.value
  }

  /** Nothing queued is forgotten: while ids are queued, exactly one of a waiting
      start (`armed`) or a continuation timer will run the worker again, and
      neither is armed once the queue is empty. */
  predicate LiveWith(w: Worker, armed: bool) {
    && Tracked(w)
    && (w.updating <==> w.resume || armed)
    && !(w.resume && armed)
  }

  /** The update list never holds an update twice. */
  predicate Coalesced(pending: Option<seq<Update>>) {
    pending.None? || Distinct(pending.value)
  }

  predicate Live(w: Worker) {
    LiveWith(w, Armed(w)) && Coalesced(w.pending)
  }

  /** `_addToUpdateQueue`: the id always joins the back of the queue; the worker is
      scheduled only when none is scheduled or running. */
  function AddToUpdateQueue(w: Worker, id: nat): (r: Worker)
    ensures r.queue == w.queue + [id] && r.updating
    ensures w.updating ==> r.pending == w.pending
    ensures !w.updating ==> r.pending.Some? && StartUpdateWorker in r.pending.value
    ensures r.resume == w.resume
    ensures Tracked(w) ==> Tracked(r)
    ensures Live(w) ==> Live(r)
  {
    if w.updating then w.(queue := w.queue + [id])
    else Worker(w.queue + [id], true, Schedule(w.pending, StartUpdateWorker), w.resume)
  }

  /** Adding to a queue while a worker is pending schedules nothing more: a burst of
      additions arms the worker at most once. */
  lemma {:induction false} AddAllSchedulesOnce(w: Worker, ids: seq<nat>)
    requires ids != []
    ensures var r := AddAll(w, ids);
      && r.queue == w.queue + ids && r.updating
      && r.pending == (if w.updating then w.pending else Schedule(w.pending, StartUpdateWorker))
    decreases |ids|
  {
    var init := ids[..|ids| - 1];
    if init != [] {
      AddAllSchedulesOnce(w, init);
      assert w.queue + init + [ids[|ids| - 1]] == w.queue + ids;
    } else {
      assert ids == [ids[0]];
    }
  }

  /** `_addToUpdateQueue` for each id in turn. */
  function AddAll(w: Worker, ids: seq<nat>): (r: Worker)
    ensures r.queue == w.queue + ids && r.resume == w.resume
    ensures Live(w) ==> Live(r)
  {
    if ids == [] then w else AddToUpdateQueue(AddAll(w, ids[..|ids| - 1]), ids[|ids| - 1])
  }

  /** What one call of `doSomeUpdates` did: the ids it measured, in order, the
      worker afterwards, and whether it set a timer to continue. */
  datatype Slice = Slice(measured: seq<nat>, after: Worker, resumes: bool)

  /** One time slice of the worker, with room for `budget` turns of its loop: each
      turn takes the head of the queue and measures it; when the queue runs dry
      the flag is cleared and the worker stops, and when the budget runs out first
      it continues on a later timer. The source only starts it with work queued. */
  function RunSlice(w: Worker, budget: nat): (r: Slice)
    requires w.queue != []
    ensures r.after.pending == w.pending
    ensures r.resumes == (r.after.queue != [])
    ensures r.after.updating == (if r.after.queue == [] then false else w.updating)
    ensures r.after.resume == w.resume
    decreases budget
  {
    if budget == 0 then Slice([], w, true)
    else
      var rest := w.queue[1..];
      if rest == [] then Slice([w.queue[0]], Worker([], false, w.pending, w.resume), false)
      else
        var s := RunSlice(w.(queue := rest), budget - 1);
        Slice([w.queue[0]] + s.measured, s.after, s.resumes)
  }

  /** A slice is first-in first-out: it measures the first `budget` ids (all of
      them if fewer) and leaves the rest queued in order. */
  lemma {:induction false} RunSliceFifo(w: Worker, budget: nat)
    requires w.queue != []
    ensures var m := if budget < |w.queue| then budget else |w.queue|; var r := RunSlice(w, budget);
      && r.measured == w.queue[..m]
      && r.after.queue == w.queue[m..]
    decreases budget
  {
    if budget > 0 && |w.queue| > 1 {
      var rest := w.queue[1..];
      RunSliceFifo(w.(queue := rest), budget - 1);
      var m := if budget < |w.queue| then budget else |w.queue|;
      assert w.queue[..m] == [w.queue[0]] + rest[..m - 1];
      assert w.queue[m..] == rest[m - 1..];
    }
  }

  /** A slice keeps the flag honest: the worker goes on exactly while ids remain. */
  lemma SliceKeepsTracked(w: Worker, budget: nat)
    requires Tracked(w) && w.queue != []
    ensures Tracked(RunSlice(w, budget).after)
    ensures RunSlice(w, budget).resumes ==> RunSlice(w, budget).after.updating
  {
  }

  /** Two slices in a row measure what one slice with their combined budget would:
      splitting the work across timers does not reorder or drop anything. */
  lemma {:induction false} SlicesCompose(w: Worker, a: nat, b: nat)
    requires w.queue != [] && RunSlice(w, a).resumes
    ensures var s := RunSlice(w, a); var t := RunSlice(s.after, b);
      && s.measured + t.measured == RunSlice(w, a + b).measured
      && t.after == RunSlice(w, a + b).after
    decreases a
  {
    if a > 0 {
      var rest := w.queue[1..];
      SlicesCompose(w.(queue := rest), a - 1, b);
    }
  }

  /** Every slice with a positive budget makes progress, so the queue drains. */
  lemma SliceProgress(w: Worker, budget: nat)
    requires w.queue != [] && budget > 0
    ensures |RunSlice(w, budget).after.queue| < |w.queue|
  {
    RunSliceFifo(w, budget);
  }

  /** `_startUpdateWorker`, or its continuation timer firing: one slice runs, and
      the continuation timer is armed exactly when ids are left. Run from a waiting
      start, it leaves the worker live once that start is consumed. */
  function StartWorker(w: Worker, budget: nat): (r: Slice)
    requires w.queue != []
    ensures var m := if budget < |w.queue| then budget else |w.queue|;
      && r.measured == w.queue[..m]
      && r.after.queue == w.queue[m..]
    ensures r.after.pending == w.pending
    ensures r.after.resume == r.resumes
    ensures LiveWith(w, true) && !Armed(w) && Coalesced(w.pending) ==> Live(r.after)
  {
    RunSliceFifo(w, budget);
    var s := RunSlice(w, budget);
    s.(after := s.after.(resume := s.resumes))
  }

  /** The continuation timer fires: it is disarmed and the next slice runs. A live
      worker with the timer armed has ids queued, and stays live. */
  function Resume(w: Worker, budget: nat): (r: Slice)
    requires Live(w) && w.resume
    ensures Live(r.after)
    ensures var m := if budget < |w.queue| then budget else |w.queue|;
      && r.measured == w.queue[..m]
      && r.after.queue == w.queue[m..]
    ensures r.measured + r.after.queue == w.queue
    ensures r.after.pending == w.pending
  {
    StartWorker(w.(resume := false), budget)
  }

  /** Scheduling a viewport update leaves the worker's liveness alone. */
  lemma ScheduleForceKeepsLive(w: Worker)
    ensures Live(w) ==> Live(w.(pending := Schedule(w.pending, ForceUpdateViewportPosition)))
  {
  }
}

=== FILE: split.dfy ===
/**
 The degree-restoring split of `_splitNode`: a branch with more than
 `nodeMaxChildren` children is cut in two at half its length, the second half
 becoming a new sibling right after it; the walk then moves to the parent, and an
 overfull root is first wrapped in a new root.
 */
module Split {
  import opened Tree
  import opened Update
  import opened Aggregates

  /** The two branches an overfull branch is cut into, each measured from its own children. */
  function Halves(n: Node): (r: seq<Node>)
    requires n.Branch? && |n.children| >= 2
    ensures |r| == 2 && r[0].Branch? && r[1].Branch?
    ensures r[0].children + r[1].children == n.children
    ensures 0 < |r[0].children| <= |r[1].children| <= |r[0].children| + 1
  {
    var h := |n.children| / 2;
    assert n.children[..h] + n.children[h..] == n.children;
    [MeasureBranch(Branch(n.children[..h], n.box)), MeasureBranch(Branch(n.children[h..], EmptyBox))]
  }

  /** The halves as slices of the children. */
  lemma HalvesAre(n: Node)
    requires n.Branch? && |n.children| >= 2
    ensures var h := |n.children| / 2;
      Halves(n)[0].children == n.children[..h] && Halves(n)[1].children == n.children[h..]
  {
  }

  /** One step of `_splitNode` on the branch at `p` (not the root): it is replaced in
      its parent by its two halves. */
  function Halve(root: Node, p: seq<nat>): (r: Node)
    requires ValidPath(root, p) && p != [] && At(root, p).Branch? && |At(root, p).children| >= 2
    ensures r.Branch? && r.box == root.box
    ensures ValidPath(root, Parent(p)) && At(root, Parent(p)).Branch?
    ensures ValidPath(r, Parent(p)) && At(r, Parent(p)).Branch?
    ensures |At(r, Parent(p)).children| == |At(root, Parent(p)).children| + 1
  {
    var r := SpliceAt(root, p, Halves(At(root, p)));
    SpliceParent(root, p, Halves(At(root, p)));
    r
  }

  /** The new root `_splitNode` puts above an overfull root, measured at once. */
  function Wrap(root: Node): (r: Node)
    ensures r.Branch? && r.children == [root]
    ensures SameSums(r, root) && r.box.width == Max(0, root.box.width)
  {
    TotalSingleton(root, NodeCount);
    TotalSingleton(root, ElementCount);
    TotalSingleton(root, Height);
    MaxWidthSingleton(root);
    MeasureBranch(Branch([root], EmptyBox))
  }

  /** `_splitNode(node)` for the branch at `p`: halve while over the bound, moving up. */
  function SplitNode(root: Node, p: seq<nat>, max: nat): (r: Node)
    requires 2 <= max && ValidPath(root, p) && At(root, p).Branch?
    ensures r.Branch?
    decreases |p|
  {
    var n := At(root, p);
    if |n.children| <= max then root
    else if p == [] then
      // the wrapped root ends up with exactly two children, within the bound
      Halve(Wrap(root), [0])
    else
      ParentIsBranch(root, p);
      SplitNode(Halve(root, p), Parent(p), max)
  }

  /** Two branches side by side hold the leaves of their children, in order. */
  lemma PairLeaves(a: Node, b: Node)
    requires a.Branch? && b.Branch?
    ensures LeavesOf([a, b]) == LeavesOf(a.children + b.children)
  {
    assert [a, b] == [a] + [b];
    LeavesOfAppend([a], [b]);
    LeavesOfSingleton(a);
    LeavesOfSingleton(b);
    LeavesOfAppend(a.children, b.children);
  }

  /** The halves hold the same leaves, the same sums and the same width as the node. */
  lemma HalvesLeaves(n: Node)
    requires n.Branch? && |n.children| >= 2
    ensures LeavesOf(Halves(n)) == Leaves(n)
  {
    var hs := Halves(n);
    assert hs == [hs[0], hs[1]];
    PairLeaves(hs[0], hs[1]);
  }

  lemma PairTotal(a: Node, b: Node, m: Metric)
    requires a.Branch? && b.Branch?
    requires Size(a, m) == Total(a.children, m) && Size(b, m) == Total(b.children, m)
    ensures Total([a, b], m) == Total(a.children + b.children, m)
  {
    assert [a, b] == [a] + [b];
    TotalAppend([a], [b], m);
    TotalSingleton(a, m);
    TotalSingleton(b, m);
    TotalAppend(a.children, b.children, m);
  }

  lemma PairWidth(a: Node, b: Node)
    requires a.Branch? && b.Branch?
    requires a.box.width == MaxWidth(a.children) && b.box.width == MaxWidth(b.children)
    ensures MaxWidth([a, b]) == MaxWidth(a.children + b.children)
  {
    assert [a, b] == [a] + [b];
    MaxWidthAppend([a], [b]);
    MaxWidthSingleton(a);
    MaxWidthSingleton(b);
    MaxWidthAppend(a.children, b.children);
  }

  lemma HalvesSums(n: Node)
    requires n.Branch? && |n.children| >= 2 && Sums(n)
    ensures AllSums(Halves(n)) && forall m: Metric :: Total(Halves(n), m) == Size(n, m)
  {
    var hs := Halves(n);
    HalvesEachSums(n);
    assert hs == [hs[0], hs[1]];
    forall m: Metric
      ensures Total(hs, m) == Size(n, m)
    {
      PairTotal(hs[0], hs[1], m);
    }
  }

  lemma HalvesEachSums(n: Node)
    requires n.Branch? && |n.children| >= 2 && AllSums(n.children)
    ensures Sums(Halves(n)[0]) && Sums(Halves(n)[1]) && AllSums(Halves(n))
  {
    var hs := Halves(n);
    var h := |n.children| / 2;
    HalvesAre(n);
    SliceSums(n.children, 0, h);
    SliceSums(n.children, h, |n.children|);
    assert n.children[0..h] == n.children[..h];
    assert n.children[h..|n.children|] == n.children[h..];
    HalfSums(hs[0]);
    HalfSums(hs[1]);
    assert forall j :: 0 <= j < 2 ==> hs[j] == hs[0] || hs[j] == hs[1];
  }

  lemma HalfSums(x: Node)
    requires x.Branch? && AllSums(x.children) && forall m: Metric :: Size(x, m) == Total(x.children, m)
    ensures Sums(x)
  {
  }

  lemma SliceSums(ns: seq<Node>, lo: nat, hi: nat)
    requires lo <= hi <= |ns| && AllSums(ns)
    ensures AllSums(ns[lo..hi])
  {
  }

  lemma HalvesWidths(n: Node)
    requires n.Branch? && |n.children| >= 2 && Widths(n)
    ensures AllWidths(Halves(n)) && MaxWidth(Halves(n)) == Max(0, n.box.width)
  {
    var hs := Halves(n);
    assert AllWidths(n.children);
    HalvesEachWidths(n);
    assert hs == [hs[0], hs[1]];
    PairWidth(hs[0], hs[1]);
  }

  lemma HalvesEachWidths(n: Node)
    requires n.Branch? && |n.children| >= 2 && AllWidths(n.children)
    ensures Widths(Halves(n)[0]) && Widths(Halves(n)[1]) && AllWidths(Halves(n))
  {
    var hs := Halves(n);
    var h := |n.children| / 2;
    var a, b := n.children[..h], n.children[h..];
    SliceWidths(n.children, 0, h);
    SliceWidths(n.children, h, |n.children|);
    assert n.children[h..|n.children|] == b;
    MeasureBranchWidths(Branch(a, n.box));
    MeasureBranchWidths(Branch(b, EmptyBox));
    var w0, w1 := hs[0], hs[1];
    assert w0 == MeasureBranch(Branch(a, n.box)) && w1 == MeasureBranch(Branch(b, EmptyBox));
    forall j | 0 <= j < 2
      ensures Widths(hs[j])
    {
      assert hs[j] == if j == 0 then w0 else w1;
    }
  }

  lemma SliceWidths(ns: seq<Node>, lo: nat, hi: nat)
    requires lo <= hi <= |ns| && AllWidths(ns)
    ensures AllWidths(ns[lo..hi])
  {
  }

  lemma HalvesNonEmpty(n: Node)
    requires n.Branch? && |n.children| >= 2 && NonEmpty(n)
    ensures AllNonEmpty(Halves(n))
  {
    assert AllNonEmpty(n.children);
    HalvesEachNonEmpty(n);
  }

  lemma HalvesEachNonEmpty(n: Node)
    requires n.Branch? && |n.children| >= 2 && AllNonEmpty(n.children)
    ensures AllNonEmpty(Halves(n))
  {
    var hs := Halves(n);
    var h := |n.children| / 2;
    HalvesAre(n);
    SliceNonEmpty(n.children, 0, h);
    SliceNonEmpty(n.children, h, |n.children|);
    assert n.children[0..h] == n.children[..h];
    assert n.children[h..|n.children|] == n.children[h..];
    HalfNonEmpty(hs[0]);
    HalfNonEmpty(hs[1]);
    assert forall j :: 0 <= j < 2 ==> hs[j] == hs[0] || hs[j] == hs[1];
  }

  lemma HalfNonEmpty(x: Node)
    requires x.Branch? && |x.children| > 0 && AllNonEmpty(x.children)
    ensures NonEmpty(x)
  {
  }

  lemma SliceNonEmpty(ns: seq<Node>, lo: nat, hi: nat)
    requires lo <= hi <= |ns| && AllNonEmpty(ns)
    ensures AllNonEmpty(ns[lo..hi])
  {
  }

  /** Each half of a branch with at most `max + 1` children is within the bound. */
  lemma HalvesBounded(n: Node, max: nat)
    requires n.Branch? && 2 <= |n.children| <= max + 1
    requires forall i :: 0 <= i < |n.children| ==> Bounded(n.children[i], max)
    ensures forall j :: 0 <= j < 2 ==> Bounded(Halves(n)[j], max)
  {
    var hs := Halves(n);
    var h := |n.children| / 2;
    HalvesAre(n);
    forall j, i | 0 <= j < 2 && 0 <= i < |hs[j].children|
      ensures Bounded(hs[j].children[i], max)
    {
      assert hs[j].children[i] == n.children[if j == 0 then i else h + i];
    }
  }

  lemma {:induction false} BoundedButAt(n: Node, p: seq<nat>, max: nat)
    requires BoundedBut(n, p, max)
    ensures ValidPath(n, p) && At(n, p).Branch? && |At(n, p).children| <= max + 1
    ensures forall i :: 0 <= i < |At(n, p).children| ==> Bounded(At(n, p).children[i], max)
    decreases p
  {
    if p != [] {
      BoundedButAt(n.children[p[0]], p[1..], max);
    }
  }

  /** One split step keeps the leaf order and the invariants, and moves the excess up. */
  lemma HalveKeeps(root: Node, p: seq<nat>, max: nat)
    requires ValidPath(root, p) && p != [] && At(root, p).Branch? && |At(root, p).children| >= 2
    ensures Leaves(Halve(root, p)) == Leaves(root)
    ensures Sums(root) ==> Sums(Halve(root, p))
    ensures Widths(root) ==> Widths(Halve(root, p))
    ensures Populated(root) ==> Populated(Halve(root, p))
    ensures BoundedBut(root, p, max) ==> BoundedBut(Halve(root, p), Parent(p), max)
  {
    var n := At(root, p);
    var hs := Halves(n);
    HalvesLeaves(n);
    SpliceSameLeaves(root, p, hs);
    if Sums(root) {
      SumsAt(root, p);
      HalvesSums(n);
      SpliceSums(root, p, hs);
    }
    if Widths(root) {
      WidthsAt(root, p);
      HalvesWidths(n);
      SpliceWidths(root, p, hs);
    }
    if Populated(root) {
      PopulatedAt(root, p);
      HalvesNonEmpty(n);
      SplicePopulated(root, p, hs);
    }
    if BoundedBut(root, p, max) {
      BoundedButAt(root, p, max);
      HalvesBounded(n, max);
      SpliceBoundedBut(root, p, hs, max);
    }
  }

  /** Wrapping the root keeps the leaf order and the invariants, the old root becoming
      the one branch over the bound. */
  lemma WrapKeeps(root: Node, max: nat)
    requires root.Branch?
    ensures Leaves(Wrap(root)) == Leaves(root)
    ensures Sums(root) ==> Sums(Wrap(root))
    ensures Widths(root) ==> Widths(Wrap(root))
    ensures Populated(root) && |root.children| > 0 ==> Populated(Wrap(root))
    ensures 1 <= max && BoundedBut(root, [], max) ==> BoundedBut(Wrap(root), [0], max)
  {
    LeavesOfSingleton(root);
    if Sums(root) {
      MeasureBranchSums(Branch([root], EmptyBox));
    }
    if Widths(root) {
      MeasureBranchWidths(Branch([root], EmptyBox));
    }
    assert [0][1..] == [];
  }

  /** `_splitNode` keeps the leaf order and every invariant, and restores the degree
      bound when only the branch it starts from was over it by one. */
  lemma {:induction false} SplitNodeKeeps(root: Node, p: seq<nat>, max: nat)
    requires 2 <= max && BoundedBut(root, p, max)
    ensures ValidPath(root, p) && At(root, p).Branch?
    ensures Leaves(SplitNode(root, p, max)) == Leaves(root)
    ensures Bounded(SplitNode(root, p, max), max)
    ensures Sums(root) ==> Sums(SplitNode(root, p, max))
    ensures Widths(root) ==> Widths(SplitNode(root, p, max))
    ensures Populated(root) ==> Populated(SplitNode(root, p, max))
    decreases |p|
  {
    BoundedButAt(root, p, max);
    var n := At(root, p);
    if |n.children| <= max {
      BoundedButSettled(root, p, max);
    } else if p == [] {
      var w := Wrap(root);
      WrapKeeps(root, max);
      assert At(w, [0]) == root;
      HalveKeeps(w, [0], max);
      var r := Halve(w, [0]);
      assert Parent([0]) == [];
      BoundedButSettled(r, [], max);
    } else {
      ParentIsBranch(root, p);
      HalveKeeps(root, p, max);
      SplitNodeKeeps(Halve(root, p), Parent(p), max);
    }
  }

  /** `_splitNode` as written re-measures the shrunk branch through `_measure`, which
      returns early when the branch's `lastMeasured` equals the current state: its
      box then still describes all of its former children. */
  function HalveAsWritten(root: Node, p: seq<nat>, state: nat): (r: Node)
    requires ValidPath(root, p) && p != [] && At(root, p).Branch? && |At(root, p).children| >= 2
    ensures r.Branch? && r.box == root.box
  {
    var n := At(root, p);
    var hs := Halves(n);
    var left := if n.box.epoch == state then Branch(hs[0].children, n.box) else hs[0];
    SpliceAt(root, p, [left, hs[1]])
  }

  /** A branch of three measured leaves of height 1, itself measured in state 1,
      under a root. */
  function ThreeLeafTree(): Node {
    var b := Box(0, 1, 1, 0, 1);
    var inner := Branch([Leaf(1, [Text(1)], false, 0, 0, b), Leaf(2, [Text(2)], false, 0, 0, b),
                         Leaf(3, [Text(3)], false, 0, 0, b)], Box(0, 3, 3, 0, 1));
    Branch([inner], Box(0, 3, 3, 0, 1))
  }

  lemma ThreeLeafTreeSums()
    ensures Sums(ThreeLeafTree())
  {
    var root := ThreeLeafTree();
    var inner := root.children[0];
    var cs := inner.children;
    assert cs[..2] == [cs[0], cs[1]];
    assert [cs[0], cs[1]][..1] == [cs[0]];
    forall m: Metric
      ensures Size(inner, m) == Total(cs, m) && Size(root, m) == Total(root.children, m)
    {
      TotalSingleton(cs[0], m);
      TotalSingleton(inner, m);
    }
    assert Sums(inner);
  }

  /** As written, the left half keeps the box of the whole branch. */
  lemma ThreeLeafLeftHalf()
    ensures var inner := ThreeLeafTree().children[0];
      HalveAsWritten(ThreeLeafTree(), [0], 1).children[0] == Branch([inner.children[0]], inner.box)
  {
    var inner := ThreeLeafTree().children[0];
    assert inner.children[..1] == [inner.children[0]];
  }

  /** With `nodeMaxChildren` 2 the branch of `ThreeLeafTree` is split, and as
      written the left half keeps the height 3 of all three leaves while holding
      one of height 1. */
  lemma HalveAsWrittenLosesSums()
    ensures Sums(ThreeLeafTree()) && !Sums(HalveAsWritten(ThreeLeafTree(), [0], 1))
    ensures Sums(Halve(ThreeLeafTree(), [0]))
  {
    ThreeLeafTreeSums();
    ThreeLeafAsWritten();
    HalveKeeps(ThreeLeafTree(), [0], 2);
  }

  lemma ThreeLeafAsWritten()
    ensures !Sums(HalveAsWritten(ThreeLeafTree(), [0], 1))
  {
    var root := ThreeLeafTree();
    ThreeLeafLeftHalf();
    var left := HalveAsWritten(root, [0], 1).children[0];
    TotalSingleton(root.children[0].children[0], Height);
    assert Size(left, Height) != Total(left.children, Height);
  }
}

=== FILE: tree.dfy ===
/** Optional values stand for the `null` results of the engine's lookups. */
module Optional {
  datatype Option<+T> = None | Some(value: T)
}

/**
 The augmented B-tree of the virtualization engine: leaves hold runs of items,
 branches hold child nodes and cache aggregates of them. Nodes are immutable
 values; a node is addressed by the path of child indices leading to it from the
 root, and the in-order sequence of leaves, `Leaves(root)`, is the reference
 every operation is specified against.
 */
module Tree {

  /** An item of the container: a text node or an element. Only elements can be
      block-level; `displayBlock` is the computed `display == "block"`. */
  datatype Item = Text(id: nat) | Element(id: nat, displayBlock: bool)

  /** The block/inline classifier of the content surface. */
  predicate IsBlock(x: Item) {
    x.Element? && x.displayBlock
  }

  /** The element items of a run, in order (the `children` list beside `childNodes`). */
  function Elements(xs: seq<Item>): (es: seq<Item>)
    ensures |es| <= |xs|
    ensures forall i :: 0 <= i < |es| ==> es[i].Element?
  {
    if xs == [] then [] else (if xs[0].Element? then [xs[0]] else []) + Elements(xs[1..])
  }

  lemma {:induction false} ElementsAppend(a: seq<Item>, b: seq<Item>)
    ensures Elements(a + b) == Elements(a) + Elements(b)
  {
    if a == [] {
      assert a + b == b;
    } else {
      assert (a + b)[1..] == a[1..] + b;
      ElementsAppend(a[1..], b);
    }
  }

  /** Cached geometry and counts of a node; `epoch` is `lastMeasured`. */
  datatype Box = Box(width: int, height: int, nodes: int, elements: int, epoch: nat)

  const EmptyBox := Box(0, 0, 0, 0, 0)

  datatype Node =
    | Leaf(id: nat, items: seq<Item>, isBlock: bool, marginTop: int, marginBottom: int, box: Box)
    | Branch(children: seq<Node>, box: Box)

  /** The node with its cached box replaced. */
  function WithBox(n: Node, b: Box): (r: Node)
    ensures r.box == b && r.Leaf? == n.Leaf?
  {
    match n
    case Leaf(id, items, isBlock, marginTop, marginBottom, _) => Leaf(id, items, isBlock, marginTop, marginBottom, b)
    case Branch(cs, _) => Branch(cs, b)
  }

  /** The summed properties a lookup can run on: `domChildNodes`, `domChildren`, `height`. */
  datatype Metric = NodeCount | ElementCount | Height

  function Size(n: Node, m: Metric): int {
    match m
    case NodeCount => n.box.nodes
    case ElementCount => n.box.elements
    case Height => n.box.height
  }

  predicate SameSums(a: Node, b: Node) {
    forall m: Metric :: Size(a, m) == Size(b, m)
  }

  /** Sum of a metric over a sequence of nodes (children or leaves). */
  function Total(ns: seq<Node>, m: Metric): int {
    if ns == [] then 0 else Total(ns[..|ns| - 1], m) + Size(ns[|ns| - 1], m)
  }

  lemma {:induction false} TotalAppend(a: seq<Node>, b: seq<Node>, m: Metric)
    ensures Total(a + b, m) == Total(a, m) + Total(b, m)
    decreases |b|
  {
    if b == [] {
      assert a + b == a;
    } else {
      assert (a + b)[..|a + b| - 1] == a + b[..|b| - 1];
      TotalAppend(a, b[..|b| - 1], m);
    }
  }

  lemma TotalSingleton(x: Node, m: Metric)
    ensures Total([x], m) == Size(x, m)
  {
    assert [x][..0] == [];
  }

  /** Replacing one element changes the total by the difference of its size. */
  lemma TotalReplace(ns: seq<Node>, i: nat, x: Node, m: Metric)
    requires i < |ns|
    ensures Total(ns[i := x], m) == Total(ns, m) - Size(ns[i], m) + Size(x, m)
  {
    assert ns == ns[..i] + [ns[i]] + ns[i + 1..];
    assert ns[i := x] == ns[..i] + [x] + ns[i + 1..];
    TotalAppend(ns[..i] + [ns[i]], ns[i + 1..], m);
    TotalAppend(ns[..i], [ns[i]], m);
    TotalAppend(ns[..i] + [x], ns[i + 1..], m);
    TotalAppend(ns[..i], [x], m);
    TotalSingleton(ns[i], m);
    TotalSingleton(x, m);
  }

  function Max(a: int, b: int): int {
    if a < b then b else a
  }

  function Min(a: int, b: int): int {
    if a < b then a else b
  }

  /** The widest of the nodes, measured from 0 as `_calculateWidth` does. */
  function MaxWidth(ns: seq<Node>): (w: int)
    ensures 0 <= w
    ensures forall i :: 0 <= i < |ns| ==> ns[i].box.width <= w
    ensures w == 0 || exists i :: 0 <= i < |ns| && ns[i].box.width == w
  {
    if ns == [] then 0 else Max(MaxWidth(ns[..|ns| - 1]), ns[|ns| - 1].box.width)
  }

  /** A non-negative bound that every width stays under and that is 0 or attained is the maximum. */
  lemma MaxWidthIs(ns: seq<Node>, w: int)
    requires 0 <= w
    requires forall i :: 0 <= i < |ns| ==> ns[i].box.width <= w
    requires w == 0 || exists i :: 0 <= i < |ns| && ns[i].box.width == w
    ensures MaxWidth(ns) == w
  {
    var m := MaxWidth(ns);
    if m != 0 {
      var j :| 0 <= j < |ns| && ns[j].box.width == m;
    }
    if w != 0 {
      var j :| 0 <= j < |ns| && ns[j].box.width == w;
    }
  }

  lemma MaxWidthAppend(a: seq<Node>, b: seq<Node>)
    ensures MaxWidth(a + b) == Max(MaxWidth(a), MaxWidth(b))
  {
    var w := Max(MaxWidth(a), MaxWidth(b));
    forall i | 0 <= i < |a + b|
      ensures (a + b)[i].box.width <= w
    {
      if i >= |a| {
        assert (a + b)[i] == b[i - |a|];
      }
    }
    if w != 0 {
      if w == MaxWidth(a) {
        var j :| 0 <= j < |a| && a[j].box.width == w;
        assert (a + b)[j] == a[j];
      } else {
        var j :| 0 <= j < |b| && b[j].box.width == w;
        assert (a + b)[|a| + j] == b[j];
      }
    }
    MaxWidthIs(a + b, w);
  }

  /** The oldest epoch among the nodes, 0 when there are none (`_measureBranchNode`). */
  function MinEpoch(ns: seq<Node>): (e: nat)
    ensures ns == [] ==> e == 0
    ensures forall i :: 0 <= i < |ns| ==> e <= ns[i].box.epoch
    ensures ns != [] ==> exists i :: 0 <= i < |ns| && ns[i].box.epoch == e
  {
    if ns == [] then 0
    else if |ns| == 1 then ns[0].box.epoch
    else Min(MinEpoch(ns[..|ns| - 1]), ns[|ns| - 1].box.epoch)
  }

  /** Replacing a node by one of the same width leaves the maximum width unchanged. */
  lemma MaxWidthReplace(ns: seq<Node>, i: nat, x: Node)
    requires i < |ns| && x.box.width == ns[i].box.width
    ensures MaxWidth(ns[i := x]) == MaxWidth(ns)
  {
    var w := MaxWidth(ns);
    if w != 0 {
      var j :| 0 <= j < |ns| && ns[j].box.width == w;
      assert ns[i := x][j].box.width == w;
    }
    MaxWidthIs(ns[i := x], w);
  }

  /** Replacing a node by one with the same sums leaves every total unchanged. */
  lemma TotalsReplaceSame(ns: seq<Node>, i: nat, x: Node)
    requires i < |ns|
    ensures SameSums(x, ns[i]) ==> forall m: Metric :: Total(ns[i := x], m) == Total(ns, m)
  {
    forall m: Metric {
      TotalReplace(ns, i, x, m);
    }
  }

  lemma MaxWidthReplaceSame(ns: seq<Node>, i: nat, x: Node)
    requires i < |ns|
    ensures x.box.width == ns[i].box.width ==> MaxWidth(ns[i := x]) == MaxWidth(ns)
  {
    if x.box.width == ns[i].box.width {
      MaxWidthReplace(ns, i, x);
    }
  }

  /** Replacing element `i` by a run `xs` changes the total by their difference. */
  lemma TotalSplice(ns: seq<Node>, i: nat, xs: seq<Node>, m: Metric)
    requires i < |ns|
    ensures Total(ns[..i] + xs + ns[i + 1..], m) == Total(ns, m) - Size(ns[i], m) + Total(xs, m)
  {
    var a, b := ns[..i], ns[i + 1..];
    assert ns == a + [ns[i]] + b;
    TotalAppend(a + [ns[i]], b, m);
    TotalAppend(a, [ns[i]], m);
    TotalAppend(a + xs, b, m);
    TotalAppend(a, xs, m);
    TotalSingleton(ns[i], m);
  }

  /** Replacing element `i` by a run `xs` that is exactly as wide keeps the maximum. */
  lemma MaxWidthSplice(ns: seq<Node>, i: nat, xs: seq<Node>)
    requires i < |ns| && MaxWidth(xs) == Max(0, ns[i].box.width)
    ensures MaxWidth(ns[..i] + xs + ns[i + 1..]) == MaxWidth(ns)
  {
    var a, b := ns[..i], ns[i + 1..];
    assert ns == a + [ns[i]] + b;
    MaxWidthAppend(a + [ns[i]], b);
    MaxWidthAppend(a, [ns[i]]);
    MaxWidthAppend(a + xs, b);
    MaxWidthAppend(a, xs);
    MaxWidthSingleton(ns[i]);
  }

  lemma MaxWidthSingleton(x: Node)
    ensures MaxWidth([x]) == Max(0, x.box.width)
  {
    assert [x][..0] == [];
  }

  /** The box `_measureBranchNode` computes from a branch's children. */
  function Aggregate(ns: seq<Node>): Box {
    Box(MaxWidth(ns), Total(ns, Height), Total(ns, NodeCount), Total(ns, ElementCount), MinEpoch(ns))
  }

  /** Running sums of the three summed metrics, as `_findLeaf` reports them. */
  datatype Offsets = Offsets(nodes: int, elements: int, height: int) {
    function Get(m: Metric): int {
      match m
      case NodeCount => nodes
      case ElementCount => elements
      case Height => height
    }

    function Plus(d: Offsets): Offsets {
      Offsets(nodes + d.nodes, elements + d.elements, height + d.height)
    }

    function Minus(d: Offsets): Offsets {
      Offsets(nodes - d.nodes, elements - d.elements, height - d.height)
    }
  }

  const NoOffsets := Offsets(0, 0, 0)

  /** The summed metrics cached in a node's box. */
  function SizesOf(n: Node): Offsets {
    Offsets(n.box.nodes, n.box.elements, n.box.height)
  }

  function OffsetsOf(ns: seq<Node>): Offsets {
    Offsets(Total(ns, NodeCount), Total(ns, ElementCount), Total(ns, Height))
  }

  /** A box with the summed metrics shifted by `d`. */
  function Shift(b: Box, d: Offsets): Box {
    b.(height := b.height + d.height, nodes := b.nodes + d.nodes, elements := b.elements + d.elements)
  }

  /** The leaves below a node, in order. */
  function Leaves(n: Node): (ls: seq<Node>)
    ensures forall i :: 0 <= i < |ls| ==> ls[i].Leaf?
  {
    match n
    case Leaf(_, _, _, _, _, _) => [n]
    case Branch(cs, _) => LeavesOf(cs)
  }

  function LeavesOf(ns: seq<Node>): (ls: seq<Node>)
    ensures forall i :: 0 <= i < |ls| ==> ls[i].Leaf?
  {
    if ns == [] then [] else LeavesOf(ns[..|ns| - 1]) + Leaves(ns[|ns| - 1])
  }

  lemma {:induction false} LeavesOfAppend(a: seq<Node>, b: seq<Node>)
    ensures LeavesOf(a + b) == LeavesOf(a) + LeavesOf(b)
    decreases |b|
  {
    if b == [] {
      assert a + b == a;
    } else {
      assert (a + b)[..|a + b| - 1] == a + b[..|b| - 1];
      LeavesOfAppend(a, b[..|b| - 1]);
    }
  }

  lemma LeavesOfSingleton(x: Node)
    ensures LeavesOf([x]) == Leaves(x)
  {
    assert [x][..0] == [];
  }

  /** The leaves of a child sequence split around child `i`. */
  lemma LeavesOfSplit(ns: seq<Node>, i: nat)
    requires i < |ns|
    ensures LeavesOf(ns) == LeavesOf(ns[..i]) + Leaves(ns[i]) + LeavesOf(ns[i + 1..])
  {
    var a, b := ns[..i], ns[i + 1..];
    assert ns == a + [ns[i]] + b;
    LeavesOfAppend(a + [ns[i]], b);
    LeavesOfAppend(a, [ns[i]]);
    LeavesOfSingleton(ns[i]);
  }

  /** The leaves of a child sequence in which child `i` was replaced by the run `xs`. */
  lemma LeavesOfSplice(ns: seq<Node>, i: nat, xs: seq<Node>)
    requires i < |ns|
    ensures LeavesOf(ns[..i] + xs + ns[i + 1..]) == LeavesOf(ns[..i]) + LeavesOf(xs) + LeavesOf(ns[i + 1..])
  {
    LeavesOfAppend(ns[..i] + xs, ns[i + 1..]);
    LeavesOfAppend(ns[..i], xs);
  }

  function LeafItems(n: Node): seq<Item> {
    if n.Leaf? then n.items else []
  }

  /** What measuring never changes about a leaf: its id, items and block flag. */
  function Content(n: Node): (nat, seq<Item>, bool) {
    if n.Leaf? then (n.id, n.items, n.isBlock) else (0, [], false)
  }

  /** Two leaf sequences that differ at most in boxes and margins. */
  predicate SameContent(a: seq<Node>, b: seq<Node>) {
    |a| == |b| && forall t :: 0 <= t < |a| ==> Content(a[t]) == Content(b[t])
  }

  /** The items of a sequence of leaves, concatenated in order. */
  function ItemsOf(ls: seq<Node>): seq<Item> {
    if ls == [] then [] else ItemsOf(ls[..|ls| - 1]) + LeafItems(ls[|ls| - 1])
  }

  lemma {:induction false} ItemsOfAppend(a: seq<Node>, b: seq<Node>)
    ensures ItemsOf(a + b) == ItemsOf(a) + ItemsOf(b)
    decreases |b|
  {
    if b == [] {
      assert a + b == a;
    } else {
      var b', y := b[..|b| - 1], b[|b| - 1];
      assert (a + b)[..|a + b| - 1] == a + b' && (a + b)[|a + b| - 1] == y;
      ItemsOfAppend(a, b');
      assert ItemsOf(a + b) == ItemsOf(a + b') + LeafItems(y);
      assert ItemsOf(b) == ItemsOf(b') + LeafItems(y);
    }
  }

  lemma ItemsOfSingleton(x: Node)
    ensures ItemsOf([x]) == LeafItems(x)
  {
    assert [x][..0] == [];
  }

  /** Document order: the items of all leaves of a tree. */
  function Items(n: Node): seq<Item> {
    ItemsOf(Leaves(n))
  }

  /** Every branch caches the sums of its children's counts and heights. */
  predicate Sums(n: Node) {
    n.Branch? ==>
      && (forall m: Metric :: Size(n, m) == Total(n.children, m))
      && forall i :: 0 <= i < |n.children| ==> Sums(n.children[i])
  }

  /** Every branch caches the maximum of its children's widths. */
  predicate Widths(n: Node) {
    n.Branch? ==>
      && n.box.width == MaxWidth(n.children)
      && forall i :: 0 <= i < |n.children| ==> Widths(n.children[i])
  }

  /** A leaf's counts are those of its items. */
  predicate LeafCounted(l: Node) {
    l.Leaf? ==> l.box.nodes == |l.items| && l.box.elements == |Elements(l.items)|
  }

  predicate Counted(n: Node) {
    forall i :: 0 <= i < |Leaves(n)| ==> LeafCounted(Leaves(n)[i])
  }

  /** No branch below this node is empty. */
  predicate NonEmpty(n: Node) {
    n.Branch? ==>
      && |n.children| > 0
      && forall i :: 0 <= i < |n.children| ==> NonEmpty(n.children[i])
  }

  /** Only the root may be an empty branch. */
  predicate Populated(root: Node) {
    root.Branch? && forall i :: 0 <= i < |root.children| ==> NonEmpty(root.children[i])
  }

  /** The degree bound `nodeMaxChildren`. */
  predicate Bounded(n: Node, max: nat) {
    n.Branch? ==>
      && |n.children| <= max
      && forall i :: 0 <= i < |n.children| ==> Bounded(n.children[i], max)
  }

  /** The state right after one child was added to the branch at `p`: that branch
      holds at most one child too many, every other branch is within the bound. */
  predicate BoundedBut(n: Node, p: seq<nat>, max: nat)
    decreases p
  {
    && n.Branch?
    && if p == [] then
         && |n.children| <= max + 1
         && forall i :: 0 <= i < |n.children| ==> Bounded(n.children[i], max)
       else
         && p[0] < |n.children|
         && |n.children| <= max
         && BoundedBut(n.children[p[0]], p[1..], max)
         && forall i :: 0 <= i < |n.children| && i != p[0] ==> Bounded(n.children[i], max)
  }

  /** The settled state of a tree after every mutating operation. */
  predicate Wf(root: Node, max: nat) {
    && root.Branch?
    && 2 <= max
    && Bounded(root, max)
    && Populated(root)
    && Sums(root)
    && Widths(root)
    && Counted(root)
  }

  /** A node's cached sums are the sums over its leaves. */
  lemma {:induction false} SizeIsLeafTotal(n: Node, m: Metric)
    requires Sums(n)
    ensures Size(n, m) == Total(Leaves(n), m)
    decreases n, 1
  {
    if n.Leaf? {
      TotalSingleton(n, m);
    } else {
      ChildrenTotalIsLeafTotal(n.children, m);
    }
  }

  lemma {:induction false} ChildrenTotalIsLeafTotal(ns: seq<Node>, m: Metric)
    requires forall i :: 0 <= i < |ns| ==> Sums(ns[i])
    ensures Total(ns, m) == Total(LeavesOf(ns), m)
    decreases ns, 0
  {
    if ns != [] {
      var init, last := ns[..|ns| - 1], ns[|ns| - 1];
      assert forall i :: 0 <= i < |init| ==> init[i] == ns[i];
      ChildrenTotalIsLeafTotal(init, m);
      SizeIsLeafTotal(last, m);
      TotalAppend(LeavesOf(init), Leaves(last), m);
    }
  }

  /** Replacing child `i` by `c` replaces the leaves of child `i` by those of `c`. */
  lemma LeavesReplaceChild(ns: seq<Node>, i: nat, c: Node)
    requires i < |ns|
    ensures LeavesOf(ns[i := c]) == LeavesOf(ns[..i]) + Leaves(c) + LeavesOf(ns[i + 1..])
  {
    var ns' := ns[i := c];
    assert ns'[..i] == ns[..i] && ns'[i + 1..] == ns[i + 1..];
    LeavesOfSplit(ns', i);
  }

  /** ... and when `c` differs from child `i` in one leaf, so does the whole sequence. */
  lemma LeavesUpdateChild(ns: seq<Node>, i: nat, c: Node, k: nat, x: Node)
    requires i < |ns| && k < |Leaves(ns[i])|
    requires Leaves(c) == Leaves(ns[i])[k := x]
    ensures LeavesOf(ns) == LeavesOf(ns[..i]) + Leaves(ns[i]) + LeavesOf(ns[i + 1..])
    ensures LeavesOf(ns[i := c]) == LeavesOf(ns)[|LeavesOf(ns[..i])| + k := x]
  {
    LeavesReplaceChild(ns, i, c);
    LeavesOfSplit(ns, i);
    UpdateInMiddle(LeavesOf(ns[..i]), Leaves(ns[i]), LeavesOf(ns[i + 1..]), k, x);
  }

  /** Updating an element of the middle part updates the concatenation. */
  lemma UpdateInMiddle<T>(a: seq<T>, l: seq<T>, b: seq<T>, k: nat, x: T)
    requires k < |l|
    ensures a + l[k := x] + b == (a + l + b)[|a| + k := x]
  {
  }

  /** A second update at the same index overrides the first. */
  lemma UpdateTwice<T>(s: seq<T>, k: nat, a: T, b: T)
    requires k < |s|
    ensures s[k := a][k := b] == s[k := b]
  {
  }

  lemma SliceAround<T>(a: seq<T>, l: seq<T>, b: seq<T>, k: nat)
    requires k < |l|
    ensures (a + l + b)[..|a| + k] == a + l[..k]
    ensures (a + l + b)[|a| + k + 1..] == l[k + 1..] + b
  {
  }

  lemma SpliceAround<T>(a: seq<T>, l: seq<T>, b: seq<T>, k: nat, x: seq<T>)
    requires k < |l|
    ensures a + (l[..k] + x + l[k + 1..]) + b == (a + l + b)[..|a| + k] + x + (a + l + b)[|a| + k + 1..]
  {
    SliceAround(a, l, b, k);
  }

  /** A non-empty subtree has at least one leaf. */
  lemma {:induction false} NonEmptyHasLeaf(n: Node)
    requires NonEmpty(n)
    ensures |Leaves(n)| > 0
  {
    if n.Branch? {
      LeavesOfSplit(n.children, 0);
      NonEmptyHasLeaf(n.children[0]);
    }
  }

  /** The number of item counts over leaves that are counted is the number of their items. */
  lemma {:induction false} NodeTotalIsItemCount(ls: seq<Node>)
    requires forall i :: 0 <= i < |ls| ==> ls[i].Leaf? && LeafCounted(ls[i])
    ensures Total(ls, NodeCount) == |ItemsOf(ls)|
    ensures Total(ls, ElementCount) == |Elements(ItemsOf(ls))|
  {
    if ls != [] {
      var init := ls[..|ls| - 1];
      assert forall i :: 0 <= i < |init| ==> init[i] == ls[i];
      NodeTotalIsItemCount(init);
      ElementsAppend(ItemsOf(init), LeafItems(ls[|ls| - 1]));
    }
  }

  // Paths

  /** `p` names a node: each entry is a child index one level further down. */
  predicate ValidPath(n: Node, p: seq<nat>)
    decreases p
  {
    p == [] || (n.Branch? && p[0] < |n.children| && ValidPath(n.children[p[0]], p[1..]))
  }

  function At(n: Node, p: seq<nat>): Node
    requires ValidPath(n, p)
    decreases p
  {
    if p == [] then n else At(n.children[p[0]], p[1..])
  }

  predicate IsLeafPath(n: Node, p: seq<nat>) {
    ValidPath(n, p) && At(n, p).Leaf?
  }

  /** The position in document order of the leaf at `p`. */
  function LeafIndex(n: Node, p: seq<nat>): (k: nat)
    requires IsLeafPath(n, p)
    ensures k < |Leaves(n)| && Leaves(n)[k] == At(n, p)
    decreases p
  {
    if p == [] then 0
    else
      LeavesOfSplit(n.children, p[0]);
      |LeavesOf(n.children[..p[0]])| + LeafIndex(n.children[p[0]], p[1..])
  }

  /** The child of a branch whose subtree holds leaf number `k`. */
  function ChildOf(ns: seq<Node>, k: nat): (i: nat)
    requires k < |LeavesOf(ns)|
    ensures i < |ns|
    ensures |LeavesOf(ns[..i])| <= k < |LeavesOf(ns[..i])| + |Leaves(ns[i])|
  {
    var init := ns[..|ns| - 1];
    if k < |LeavesOf(init)| then
      var i := ChildOf(init, k);
      assert init[..i] == ns[..i] && init[i] == ns[i];
      i
    else
      assert ns[..|ns| - 1] == init;
      |ns| - 1
  }

  /** The path of leaf number `k`: the inverse of `LeafIndex`. */
  function LeafPath(n: Node, k: nat): (p: seq<nat>)
    requires k < |Leaves(n)|
    ensures IsLeafPath(n, p) && LeafIndex(n, p) == k
    decreases n
  {
    if n.Leaf? then []
    else
      var i := ChildOf(n.children, k);
      LeavesOfSplit(n.children, i);
      var q := LeafPath(n.children[i], k - |LeavesOf(n.children[..i])|);
      assert ([i] + q)[1..] == q;
      [i] + q
  }

  function Parent(p: seq<nat>): seq<nat>
    requires p != []
  {
    p[..|p| - 1]
  }

  lemma {:induction false} ParentIsBranch(n: Node, p: seq<nat>)
    requires ValidPath(n, p) && p != []
    ensures ValidPath(n, Parent(p))
    ensures At(n, Parent(p)).Branch?
    ensures p[|p| - 1] < |At(n, Parent(p)).children|
    ensures At(At(n, Parent(p)), [p[|p| - 1]]) == At(n, p)
    decreases p
  {
    if |p| > 1 {
      assert Parent(p)[1..] == Parent(p[1..]);
      ParentIsBranch(n.children[p[0]], p[1..]);
    }
  }
}

=== FILE: update.dfy ===
/**
 Path-directed rewrites of a tree: replacing one node, shifting the summed
 metrics of a node and all its ancestors (the engine's delta propagation), and
 splicing a run of nodes into a parent in place of one child.
 */
module Update {
  import opened Tree

  /** The tree with the node at `p` replaced by `x`; the boxes of the ancestors are kept. */
  function ReplaceAt(n: Node, p: seq<nat>, x: Node): (r: Node)
    requires ValidPath(n, p)
    ensures ValidPath(r, p) && At(r, p) == x
    ensures p != [] ==> r.Branch? && r.box == n.box && |r.children| == |n.children|
    decreases p
  {
    if p == [] then x
    else Branch(n.children[p[0] := ReplaceAt(n.children[p[0]], p[1..], x)], n.box)
  }

  // One level of a path rewrite: child `i` of a branch replaced by `c`.

  lemma NonEmptyStep(n: Node, i: nat, c: Node, b: Box)
    requires n.Branch? && i < |n.children| && NonEmpty(n) && NonEmpty(c)
    ensures NonEmpty(Branch(n.children[i := c], b))
  {
    var cs := n.children[i := c];
    assert forall j :: 0 <= j < |cs| ==> NonEmpty(cs[j]);
  }

  lemma PopulatedStep(n: Node, i: nat, c: Node, b: Box)
    requires n.Branch? && i < |n.children| && Populated(n) && NonEmpty(c)
    ensures Populated(Branch(n.children[i := c], b))
  {
    var cs := n.children[i := c];
    assert forall j :: 0 <= j < |cs| ==> NonEmpty(cs[j]);
  }

  lemma BoundedStep(n: Node, i: nat, c: Node, b: Box, max: nat)
    requires n.Branch? && i < |n.children| && Bounded(n, max) && Bounded(c, max)
    ensures Bounded(Branch(n.children[i := c], b), max)
  {
    var cs := n.children[i := c];
    assert forall j :: 0 <= j < |cs| ==> Bounded(cs[j], max);
  }

  lemma SumsStep(n: Node, i: nat, c: Node, b: Box)
    requires n.Branch? && i < |n.children| && Sums(n) && Sums(c)
    requires forall m: Metric :: Size(Branch([], b), m) == Size(n, m) - Size(n.children[i], m) + Size(c, m)
    ensures Sums(Branch(n.children[i := c], b))
  {
    var cs := n.children[i := c];
    forall m: Metric
      ensures Size(Branch(cs, b), m) == Total(cs, m)
    {
      TotalReplace(n.children, i, c, m);
    }
    assert forall j :: 0 <= j < |cs| ==> Sums(cs[j]);
  }

  lemma WidthsStep(n: Node, i: nat, c: Node, b: Box)
    requires n.Branch? && i < |n.children| && Widths(n) && Widths(c)
    requires c.box.width == n.children[i].box.width && b.width == n.box.width
    ensures Widths(Branch(n.children[i := c], b))
  {
    var cs := n.children[i := c];
    MaxWidthReplace(n.children, i, c);
    assert forall j :: 0 <= j < |cs| ==> Widths(cs[j]);
  }

  lemma {:induction false} ReplaceKeepsNonEmpty(n: Node, p: seq<nat>, x: Node)
    requires ValidPath(n, p) && NonEmpty(n) && NonEmpty(x)
    ensures NonEmpty(ReplaceAt(n, p, x))
    decreases p
  {
    if p != [] {
      ReplaceKeepsNonEmpty(n.children[p[0]], p[1..], x);
      NonEmptyStep(n, p[0], ReplaceAt(n.children[p[0]], p[1..], x), n.box);
    }
  }

  lemma ReplaceKeepsPopulated(n: Node, p: seq<nat>, x: Node)
    requires ValidPath(n, p) && p != [] && Populated(n) && NonEmpty(x)
    ensures Populated(ReplaceAt(n, p, x))
  {
    ReplaceKeepsNonEmpty(n.children[p[0]], p[1..], x);
    PopulatedStep(n, p[0], ReplaceAt(n.children[p[0]], p[1..], x), n.box);
  }

  lemma {:induction false} ReplaceKeepsBounded(n: Node, p: seq<nat>, x: Node, max: nat)
    requires ValidPath(n, p) && Bounded(n, max) && Bounded(x, max)
    ensures Bounded(ReplaceAt(n, p, x), max)
    decreases p
  {
    if p != [] {
      ReplaceKeepsBounded(n.children[p[0]], p[1..], x, max);
      BoundedStep(n, p[0], ReplaceAt(n.children[p[0]], p[1..], x), n.box, max);
    }
  }

  lemma {:induction false} ReplaceKeepsSums(n: Node, p: seq<nat>, x: Node)
    requires ValidPath(n, p) && Sums(n) && Sums(x) && SameSums(x, At(n, p))
    ensures Sums(ReplaceAt(n, p, x))
    decreases p
  {
    if p != [] {
      var c := ReplaceAt(n.children[p[0]], p[1..], x);
      ReplaceKeepsSums(n.children[p[0]], p[1..], x);
      assert SameSums(c, n.children[p[0]]);
      SumsStep(n, p[0], c, n.box);
    }
  }

  lemma {:induction false} ReplaceKeepsWidths(n: Node, p: seq<nat>, x: Node)
    requires ValidPath(n, p) && Widths(n) && Widths(x) && x.box.width == At(n, p).box.width
    ensures Widths(ReplaceAt(n, p, x))
    decreases p
  {
    if p != [] {
      var c := ReplaceAt(n.children[p[0]], p[1..], x);
      ReplaceKeepsWidths(n.children[p[0]], p[1..], x);
      WidthsStep(n, p[0], c, n.box);
    }
  }

  /** Replacing a leaf by a leaf replaces one element of the leaf sequence. */
  lemma {:induction false} ReplaceLeaf(n: Node, p: seq<nat>, x: Node)
    requires IsLeafPath(n, p) && x.Leaf?
    ensures IsLeafPath(ReplaceAt(n, p, x), p)
    ensures LeafIndex(ReplaceAt(n, p, x), p) == LeafIndex(n, p)
    ensures Leaves(ReplaceAt(n, p, x)) == Leaves(n)[LeafIndex(n, p) := x]
    decreases p
  {
    if p != [] {
      var i := p[0];
      var c := ReplaceAt(n.children[i], p[1..], x);
      ReplaceLeaf(n.children[i], p[1..], x);
      LeavesUpdateChild(n.children, i, c, LeafIndex(n.children[i], p[1..]), x);
      assert n.children[i := c][..i] == n.children[..i];
    }
  }

  /** The tree with `d` added to the sums of the node at `p` and of every ancestor. */
  function AddAlong(n: Node, p: seq<nat>, d: Offsets): (r: Node)
    requires ValidPath(n, p)
    ensures ValidPath(r, p) && At(r, p) == WithBox(At(n, p), Shift(At(n, p).box, d))
    ensures r.box == Shift(n.box, d) && r.Leaf? == n.Leaf?
    ensures p != [] ==> |r.children| == |n.children|
    decreases p
  {
    if p == [] then WithBox(n, Shift(n.box, d))
    else Branch(n.children[p[0] := AddAlong(n.children[p[0]], p[1..], d)], Shift(n.box, d))
  }

  /** Shifting a leaf and all its ancestors by the same delta keeps every branch
      equal to the sum of its children, and touches nothing else. */
  lemma {:induction false} AddAlongKeeps(n: Node, p: seq<nat>, d: Offsets, max: nat)
    requires IsLeafPath(n, p)
    ensures NonEmpty(n) ==> NonEmpty(AddAlong(n, p, d))
    ensures Bounded(n, max) ==> Bounded(AddAlong(n, p, d), max)
    ensures Sums(n) ==> Sums(AddAlong(n, p, d))
    ensures Widths(n) ==> Widths(AddAlong(n, p, d))
    decreases p
  {
    if p != [] {
      var i := p[0];
      var c := AddAlong(n.children[i], p[1..], d);
      var b := Shift(n.box, d);
      AddAlongKeeps(n.children[i], p[1..], d, max);
      if NonEmpty(n) {
        NonEmptyStep(n, i, c, b);
      }
      if Bounded(n, max) {
        BoundedStep(n, i, c, b, max);
      }
      if Sums(n) {
        SumsStep(n, i, c, b);
      }
      if Widths(n) {
        WidthsStep(n, i, c, b);
      }
    }
  }

  lemma AddAlongPopulated(n: Node, p: seq<nat>, d: Offsets)
    requires IsLeafPath(n, p) && p != [] && Populated(n)
    ensures Populated(AddAlong(n, p, d))
  {
    AddAlongKeeps(n.children[p[0]], p[1..], d, 0);
    PopulatedStep(n, p[0], AddAlong(n.children[p[0]], p[1..], d), Shift(n.box, d));
  }

  /** Shifting along a leaf path changes only that leaf in the leaf sequence. */
  lemma {:induction false} AddAlongLeaf(n: Node, p: seq<nat>, d: Offsets)
    requires IsLeafPath(n, p)
    ensures IsLeafPath(AddAlong(n, p, d), p)
    ensures LeafIndex(AddAlong(n, p, d), p) == LeafIndex(n, p)
    ensures Leaves(AddAlong(n, p, d)) == Leaves(n)[LeafIndex(n, p) := At(AddAlong(n, p, d), p)]
    decreases p
  {
    if p != [] {
      var i := p[0];
      var c := AddAlong(n.children[i], p[1..], d);
      AddAlongLeaf(n.children[i], p[1..], d);
      LeavesUpdateChild(n.children, i, c, LeafIndex(n.children[i], p[1..]), At(c, p[1..]));
      assert n.children[i := c][..i] == n.children[..i];
    }
  }

  /** The tree with the node at `p` (not the root) replaced, inside its parent, by the run `xs`. */
  function SpliceAt(n: Node, p: seq<nat>, xs: seq<Node>): (r: Node)
    requires ValidPath(n, p) && p != []
    ensures r.Branch? && r.box == n.box
    decreases p
  {
    var i := p[0];
    if |p| == 1 then Branch(n.children[..i] + xs + n.children[i + 1..], n.box)
    else Branch(n.children[i := SpliceAt(n.children[i], p[1..], xs)], n.box)
  }

  /** Splicing at a leaf path replaces that leaf by the leaves of `xs`, in place. */
  lemma {:induction false} SpliceLeaves(n: Node, p: seq<nat>, xs: seq<Node>)
    requires IsLeafPath(n, p) && p != []
    ensures var k := LeafIndex(n, p);
      Leaves(SpliceAt(n, p, xs)) == Leaves(n)[..k] + LeavesOf(xs) + Leaves(n)[k + 1..]
    decreases p
  {
    var i := p[0];
    var cs := n.children;
    var a, l, b := LeavesOf(cs[..i]), Leaves(cs[i]), LeavesOf(cs[i + 1..]);
    LeavesOfSplit(cs, i);
    assert Leaves(n) == a + l + b;
    if |p| == 1 {
      assert p == [i];
      SpliceLeavesHere(n, i, xs, a, l, b);
    } else {
      SpliceLeaves(cs[i], p[1..], xs);
      SpliceLeavesBelow(n, p, xs, a, l, b);
    }
  }

  lemma SpliceLeavesHere(n: Node, i: nat, xs: seq<Node>, a: seq<Node>, l: seq<Node>, b: seq<Node>)
    requires IsLeafPath(n, [i])
    requires a == LeavesOf(n.children[..i]) && l == Leaves(n.children[i]) && b == LeavesOf(n.children[i + 1..])
    requires Leaves(n) == a + l + b
    ensures var k := LeafIndex(n, [i]);
      Leaves(SpliceAt(n, [i], xs)) == Leaves(n)[..k] + LeavesOf(xs) + Leaves(n)[k + 1..]
  {
    var cs := n.children;
    assert [i][1..] == [];
    assert LeafIndex(n, [i]) == |a|;
    assert l == [cs[i]];
    LeavesOfSplice(cs, i, xs);
    SliceAround(a, l, b, 0);
  }

  lemma SpliceLeavesBelow(n: Node, p: seq<nat>, xs: seq<Node>, a: seq<Node>, l: seq<Node>, b: seq<Node>)
    requires IsLeafPath(n, p) && |p| > 1
    requires a == LeavesOf(n.children[..p[0]]) && l == Leaves(n.children[p[0]]) && b == LeavesOf(n.children[p[0] + 1..])
    requires Leaves(n) == a + l + b
    requires var k' := LeafIndex(n.children[p[0]], p[1..]);
      Leaves(SpliceAt(n.children[p[0]], p[1..], xs)) == l[..k'] + LeavesOf(xs) + l[k' + 1..]
    ensures var k := LeafIndex(n, p);
      Leaves(SpliceAt(n, p, xs)) == Leaves(n)[..k] + LeavesOf(xs) + Leaves(n)[k + 1..]
  {
    var i := p[0];
    var cs := n.children;
    var k' := LeafIndex(cs[i], p[1..]);
    assert LeafIndex(n, p) == |a| + k';
    var c := SpliceAt(cs[i], p[1..], xs);
    var X := LeavesOf(xs);
    assert SpliceAt(n, p, xs) == Branch(cs[i := c], n.box);
    LeavesReplaceChild(cs, i, c);
    assert Leaves(SpliceAt(n, p, xs)) == a + (l[..k'] + X + l[k' + 1..]) + b;
    SpliceAround(a, l, b, k', X);
  }

  /** The parent of the spliced node now holds `xs` where the node was. */
  lemma {:induction false} SpliceParent(n: Node, p: seq<nat>, xs: seq<Node>)
    requires ValidPath(n, p) && p != []
    ensures ValidPath(SpliceAt(n, p, xs), Parent(p)) && At(SpliceAt(n, p, xs), Parent(p)).Branch?
    ensures ValidPath(n, Parent(p)) && At(n, Parent(p)).Branch?
    ensures var ps := At(n, Parent(p)).children; var j := p[|p| - 1];
      j < |ps| && At(SpliceAt(n, p, xs), Parent(p)).children == ps[..j] + xs + ps[j + 1..]
    decreases p
  {
    ParentIsBranch(n, p);
    if |p| > 1 {
      assert Parent(p)[1..] == Parent(p[1..]);
      assert Parent(p)[0] == p[0];
      SpliceParent(n.children[p[0]], p[1..], xs);
    }
  }

  predicate AllNonEmpty(xs: seq<Node>) {
    forall j :: 0 <= j < |xs| ==> NonEmpty(xs[j])
  }

  predicate AllSums(xs: seq<Node>) {
    forall j :: 0 <= j < |xs| ==> Sums(xs[j])
  }

  predicate AllWidths(xs: seq<Node>) {
    forall j :: 0 <= j < |xs| ==> Widths(xs[j])
  }

  lemma SpliceMembers(cs: seq<Node>, i: nat, xs: seq<Node>)
    requires i < |cs|
    ensures var cs' := cs[..i] + xs + cs[i + 1..];
      && |cs'| == |cs| - 1 + |xs|
      && (forall j :: 0 <= j < i ==> cs'[j] == cs[j])
      && (forall j :: i <= j < i + |xs| ==> cs'[j] == xs[j - i])
      && (forall j :: i + |xs| <= j < |cs'| ==> cs'[j] == cs[j - |xs| + 1])
  {
  }

  lemma {:induction false} SplicePopulated(n: Node, p: seq<nat>, xs: seq<Node>)
    requires ValidPath(n, p) && p != [] && Populated(n) && |xs| > 0 && AllNonEmpty(xs)
    ensures Populated(SpliceAt(n, p, xs))
  {
    var i := p[0];
    var cs := n.children;
    if |p| == 1 {
      SpliceMembers(cs, i, xs);
    } else {
      SpliceKeepsBelow(cs[i], p[1..], xs);
      PopulatedStep(n, i, SpliceAt(cs[i], p[1..], xs), n.box);
    }
  }

  lemma {:induction false} SpliceSums(n: Node, p: seq<nat>, xs: seq<Node>)
    requires ValidPath(n, p) && p != [] && Sums(n) && AllSums(xs)
    requires forall m: Metric :: Total(xs, m) == Size(At(n, p), m)
    ensures Sums(SpliceAt(n, p, xs))
    decreases p
  {
    var i := p[0];
    var cs := n.children;
    if |p| == 1 {
      var cs' := cs[..i] + xs + cs[i + 1..];
      assert At(n, p) == cs[i];
      forall m: Metric
        ensures Size(n, m) == Total(cs', m)
      {
        TotalSplice(cs, i, xs, m);
      }
      forall j | 0 <= j < |cs'|
        ensures Sums(cs'[j])
      {
        if j < i {
          assert cs'[j] == cs[j];
        } else if j < i + |xs| {
          assert cs'[j] == xs[j - i];
        } else {
          assert cs'[j] == cs[j - |xs| + 1];
        }
      }
    } else {
      var c := SpliceAt(cs[i], p[1..], xs);
      SpliceSums(cs[i], p[1..], xs);
      assert SameSums(c, cs[i]);
      SumsStep(n, i, c, n.box);
    }
  }

  lemma {:induction false} SpliceWidths(n: Node, p: seq<nat>, xs: seq<Node>)
    requires ValidPath(n, p) && p != [] && Widths(n) && AllWidths(xs)
    requires MaxWidth(xs) == Max(0, At(n, p).box.width)
    ensures Widths(SpliceAt(n, p, xs))
    decreases p
  {
    var i := p[0];
    var cs := n.children;
    if |p| == 1 {
      SpliceMembers(cs, i, xs);
      MaxWidthSplice(cs, i, xs);
    } else {
      var c := SpliceAt(cs[i], p[1..], xs);
      SpliceWidths(cs[i], p[1..], xs);
      WidthsStep(n, i, c, n.box);
    }
  }

  /** Below the root, a spliced subtree keeps its box and stays non-empty. */
  lemma {:induction false} SpliceKeepsBelow(n: Node, p: seq<nat>, xs: seq<Node>)
    requires ValidPath(n, p) && p != []
    ensures NonEmpty(n) && |xs| > 0 && AllNonEmpty(xs) ==> NonEmpty(SpliceAt(n, p, xs))
    decreases p
  {
    var i := p[0];
    var cs := n.children;
    if |p| == 1 {
      SpliceMembers(cs, i, xs);
    } else {
      SpliceKeepsBelow(cs[i], p[1..], xs);
      if NonEmpty(n) && |xs| > 0 && AllNonEmpty(xs) {
        NonEmptyStep(n, i, SpliceAt(cs[i], p[1..], xs), n.box);
      }
    }
  }

  /** Splicing at most two bounded nodes in place of one leaves at most one branch,
      the parent, one child over the bound. */
  lemma {:induction false} SpliceBounded(n: Node, p: seq<nat>, xs: seq<Node>, max: nat)
    requires ValidPath(n, p) && p != [] && |xs| <= 2
    requires Bounded(n, max) && forall j :: 0 <= j < |xs| ==> Bounded(xs[j], max)
    ensures BoundedBut(SpliceAt(n, p, xs), Parent(p), max)
    decreases p
  {
    var i := p[0];
    var cs := n.children;
    if |p| == 1 {
      assert Parent(p) == [];
      SpliceMembers(cs, i, xs);
    } else {
      var c := SpliceAt(cs[i], p[1..], xs);
      SpliceBounded(cs[i], p[1..], xs, max);
      assert Parent(p) == [i] + Parent(p[1..]);
      assert Parent(p)[1..] == Parent(p[1..]);
    }
  }

  /** Splicing in a run with the same leaves as the node it replaces keeps the leaf sequence. */
  lemma {:induction false} SpliceSameLeaves(n: Node, p: seq<nat>, xs: seq<Node>)
    requires ValidPath(n, p) && p != [] && LeavesOf(xs) == Leaves(At(n, p))
    ensures Leaves(SpliceAt(n, p, xs)) == Leaves(n)
    decreases p
  {
    var i := p[0];
    var cs := n.children;
    LeavesOfSplit(cs, i);
    if |p| == 1 {
      LeavesOfSplice(cs, i, xs);
    } else {
      SpliceSameLeaves(cs[i], p[1..], xs);
      LeavesReplaceChild(cs, i, SpliceAt(cs[i], p[1..], xs));
    }
  }

  /** Splicing two bounded nodes in place of the one branch that was over the bound
      moves the excess up to its parent. */
  lemma {:induction false} SpliceBoundedBut(n: Node, p: seq<nat>, xs: seq<Node>, max: nat)
    requires ValidPath(n, p) && p != [] && |xs| <= 2
    requires BoundedBut(n, p, max) && forall j :: 0 <= j < |xs| ==> Bounded(xs[j], max)
    ensures BoundedBut(SpliceAt(n, p, xs), Parent(p), max)
    decreases p
  {
    var i := p[0];
    var cs := n.children;
    if |p| == 1 {
      assert Parent(p) == [];
      SpliceMembers(cs, i, xs);
    } else {
      SpliceBoundedBut(cs[i], p[1..], xs, max);
      assert Parent(p) == [i] + Parent(p[1..]);
      assert Parent(p)[1..] == Parent(p[1..]);
    }
  }

  /** A branch that is within the bound is the end of the excess. */
  lemma {:induction false} BoundedButSettled(n: Node, p: seq<nat>, max: nat)
    requires BoundedBut(n, p, max) && ValidPath(n, p) && At(n, p).Branch? && |At(n, p).children| <= max
    ensures Bounded(n, max)
    decreases p
  {
    if p != [] {
      BoundedButSettled(n.children[p[0]], p[1..], max);
    }
  }

  // The invariants hold at every node below a node that has them.

  lemma {:induction false} SumsAt(n: Node, p: seq<nat>)
    requires ValidPath(n, p) && Sums(n)
    ensures Sums(At(n, p))
    decreases p
  {
    if p != [] {
      SumsAt(n.children[p[0]], p[1..]);
    }
  }

  lemma {:induction false} WidthsAt(n: Node, p: seq<nat>)
    requires ValidPath(n, p) && Widths(n)
    ensures Widths(At(n, p))
    decreases p
  {
    if p != [] {
      WidthsAt(n.children[p[0]], p[1..]);
    }
  }

  lemma {:induction false} NonEmptyAt(n: Node, p: seq<nat>)
    requires ValidPath(n, p) && NonEmpty(n)
    ensures NonEmpty(At(n, p))
    decreases p
  {
    if p != [] {
      NonEmptyAt(n.children[p[0]], p[1..]);
    }
  }

  lemma PopulatedAt(root: Node, p: seq<nat>)
    requires ValidPath(root, p) && p != [] && Populated(root)
    ensures NonEmpty(At(root, p))
  {
    NonEmptyAt(root.children[p[0]], p[1..]);
  }
}

=== FILE: windower.dfy ===
/**
 The scroll windower (`_updateViewportPosition`): when the viewport has moved
 out of the band rendered last time, a contiguous run of leaves around it is
 materialized. The run starts at the leaf whose bottom first passes
 `start = top - 2 * buffer` and continues, measuring stale leaves on the way,
 until the running bottom reaches `end = top + height + 2 * buffer` or the
 leaves run out. The rendered band always covers [start, end], which is what
 makes small scrolls free.
 */
module Windower {
  import opened Optional
  import opened Tree
  import opened Update
  import opened Navigation
  import opened Measure

  /** A rendered bound: `-Infinity` after a forced reset, or a pixel offset. */
  datatype Bound = NegInf | Px(v: int)

  /** The viewport top is above the rendered band's upper limit (`-Infinity + buffer`
      is `-Infinity`, which no viewport top is below). */
  predicate AboveLimit(renderedTop: Bound, viewportTop: int, buffer: int) {
    renderedTop.Px? && viewportTop < renderedTop.v + buffer
  }

  /** The viewport bottom is below the rendered band's lower limit (every viewport
      bottom is above `-Infinity - buffer`). */
  predicate BelowLimit(renderedBottom: Bound, viewportBottom: int, buffer: int) {
    renderedBottom.NegInf? || viewportBottom > renderedBottom.v - buffer
  }

  /** The condition under which `_updateViewportPosition` renders again. */
  predicate Triggers(renderedTop: Bound, renderedBottom: Bound, viewportTop: int, viewportHeight: int, buffer: int) {
    AboveLimit(renderedTop, viewportTop, buffer) || BelowLimit(renderedBottom, viewportTop + viewportHeight, buffer)
  }

  /** What the last pass rendered: the leaves `first .. first + count` after a top
      padding, and the band it covers. */
  datatype View = View(renderedTop: Bound, renderedBottom: Bound, first: nat, count: nat, padding: int)

  const Unrendered := View(NegInf, NegInf, 0, 0, 0)

  /** The height of the `count` leaves starting at `first`. */
  function Run(ls: seq<Node>, first: nat, count: nat): int
    requires first + count <= |ls|
  {
    Total(ls[first..first + count], Height)
  }

  /** A run grows by the height of the leaf after it. */
  lemma RunSnoc(ls: seq<Node>, first: nat, count: nat)
    requires first + count < |ls|
    ensures Run(ls, first, count + 1) == Run(ls, first, count) + ls[first + count].box.height
  {
    var b := first + count;
    assert ls[first..b + 1] == ls[first..b] + [ls[b]];
    TotalAppend(ls[first..b], [ls[b]], Height);
    TotalSingleton(ls[b], Height);
  }

  /** What a pass guarantees about the leaves `ls` it started from, the leaves
      `cur` it leaves behind and the view `v` it records, for the band
      [start, end]: the band is covered; the rendered run starts, after a padding of
      the heights above it, at a leaf ending below `start` that is leaf 0 or whose
      top does not exceed `start` (the leaf covering a non-negative `start`), or is
      empty when the tree ends above `start`; the run's leaves are measured in `state` and no
      other leaf is touched; no shorter run reaches `end`, and `renderedBottom` is
      the run's bottom when it reaches `end` and 0 (then clamped to `end`) when
      the leaves ran out first. */
  predicate Rendered(ls: seq<Node>, cur: seq<Node>, v: View, state: nat, start: int, end: int) {
    && |cur| == |ls| && v.first + v.count <= |ls|
    && v.renderedTop.Px? && v.renderedTop.v <= start && v.renderedTop.v == Min(v.padding, start)
    && v.renderedBottom.Px? && v.renderedBottom.v >= end
    && v.padding == Total(cur[..v.first], Height)
    && (forall t :: 0 <= t < |ls| && !(v.first <= t < v.first + v.count) ==> cur[t] == ls[t])
    && (forall t :: v.first <= t < v.first + v.count ==> cur[t].box.epoch >= state)
    && (v.count > 0 ==> start < Total(ls[..v.first + 1], Height) && (0 <= start ==> Covers(ls, Height, start, v.first)))
    && (v.count > 0 ==> v.first == 0 || v.padding <= start)
    && (v.count == 0 ==> v.first == |ls| && (ls == [] || Total(ls, Height) <= start))
    && (forall c :: 0 < c < v.count ==> v.padding + Run(cur, v.first, c) < end)
    && (v.count > 0 && v.padding + Run(cur, v.first, v.count) >= end ==>
          v.renderedBottom.v == v.padding + Run(cur, v.first, v.count))
    && (v.count == 0 || v.padding + Run(cur, v.first, v.count) < end ==>
          v.first + v.count == |ls| && v.renderedBottom.v == Max(0, end))
  }

  /** One pass of `_updateViewportPosition` once it has decided to render: the
      descent to the first leaf, and the loop that appends leaves, measuring those
      measured before the current `state` with the host's metrics `host(id)`. */
  method Render(root: Node, max: nat, state: nat, host: nat -> LeafMetrics,
                viewportTop: int, viewportHeight: int, buffer: int)
    returns (r: Node, v: View)
    requires Wf(root, max)
    ensures Wf(r, max) && Items(r) == Items(root) && SameContent(Leaves(r), Leaves(root))
    ensures Rendered(Leaves(root), Leaves(r), v, state, viewportTop - 2 * buffer, viewportTop + viewportHeight + 2 * buffer)
  {
    var start := viewportTop - 2 * buffer;
    var end := viewportTop + viewportHeight + 2 * buffer;
    var found := FindLeaf(root, Height, start);
    if found.None? {
      r := root;
      var top := Size(root, Height);
      v := View(Px(Min(top, start)), Px(Max(0, end)), |Leaves(root)|, 0, top);
      RenderedNothing(root, max, v, state, start, end);
      return;
    }
    r, v := RenderFrom(root, max, state, host, start, end);
  }

  /** The pass once the descent has found the first leaf ending below `start`. */
  method RenderFrom(root: Node, max: nat, state: nat, host: nat -> LeafMetrics, start: int, end: int)
    returns (r: Node, v: View)
    requires Wf(root, max) && FindLeaf(root, Height, start).Some?
    ensures Wf(r, max) && Items(r) == Items(root) && SameContent(Leaves(r), Leaves(root))
    ensures Rendered(Leaves(root), Leaves(r), v, state, start, end)
  {
    var found := FindLeaf(root, Height, start);
    var k := LeafIndex(root, found.value.path);
    var top := found.value.before.height;
    StartCovers(root, max, start);
    var c, rb;
    r, c, rb := Walk(root, max, state, host, k, top, end);
    v := View(Px(Min(top, start)), Px(Max(rb, end)), k, c, top);
    RenderedRun(Leaves(root), Leaves(r), v, rb, max, r, state, top, start, end);
  }

  /** The descent found no leaf: the whole tree ends above `start`, the padding is
      the tree's height and nothing is rendered. */
  lemma RenderedNothing(root: Node, max: nat, v: View, state: nat, start: int, end: int)
    requires Wf(root, max) && FindLeaf(root, Height, start).None?
    requires v == View(Px(Min(Size(root, Height), start)), Px(Max(0, end)), |Leaves(root)|, 0, Size(root, Height))
    ensures Rendered(Leaves(root), Leaves(root), v, state, start, end)
  {
    var ls := Leaves(root);
    FindLeafCorrect(root, Height, start);
    SizeIsLeafTotal(root, Height);
    assert ls[..|ls|] == ls;
  }

  /** Over non-negative heights a band starting above the tree's top is rendered
      from the first leaf: the descent starts with `top = 0`, and the first leaf
      already passes its test `top + height > start`. */
  lemma NegativeStartRendersFirst(ls: seq<Node>, cur: seq<Node>, v: View, state: nat, start: int, end: int)
    requires forall j :: 0 <= j < |ls| ==> Size(ls[j], Height) >= 0
    requires Rendered(ls, cur, v, state, start, end) && start < 0
    ensures v.count > 0 ==> v.first == 0 && v.padding == 0
    ensures v.count == 0 ==> ls == []
  {
    if v.count > 0 && v.first > 0 {
      assert cur[..v.first] == ls[..v.first] && ls[..0] == [];
      TotalMonotone(ls, Height, 0, v.first);
    }
    if v.count > 0 {
      assert cur[..0] == [];
    }
    if v.count == 0 && ls != [] {
      assert ls[..0] == [] && ls[..|ls|] == ls;
      TotalMonotone(ls, Height, 0, |ls|);
    }
  }

  /** The descent found a leaf: its top is the height above it, it ends below
      `start`, and it is leaf 0 or its top does not exceed `start`. */
  lemma StartCovers(root: Node, max: nat, start: int)
    requires Wf(root, max) && FindLeaf(root, Height, start).Some?
    ensures var f := FindLeaf(root, Height, start).value; var k := LeafIndex(root, f.path); var ls := Leaves(root);
      && k < |ls| && f.before.height == Total(ls[..k], Height)
      && start < Total(ls[..k + 1], Height) && (0 <= start ==> Covers(ls, Height, start, k))
      && (k == 0 || f.before.height <= start)
  {
    FindLeafCorrect(root, Height, start);
    FindLeafFound(root, Height, start);
  }

  lemma RenderedRun(ls: seq<Node>, cur: seq<Node>, v: View, rb: int, max: nat, r: Node, state: nat, top: int, start: int, end: int)
    requires cur == Leaves(r) && Walking(ls, r, max, state, v.first, v.count, top, end)
    requires top + Run(cur, v.first, v.count) >= end ==> rb == top + Run(cur, v.first, v.count)
    requires top + Run(cur, v.first, v.count) < end ==> rb == 0 && v.first + v.count == |ls|
    requires top == Total(ls[..v.first], Height)
    requires start < Total(ls[..v.first + 1], Height) && (0 <= start ==> Covers(ls, Height, start, v.first))
    requires v.first == 0 || top <= start
    requires v == View(Px(Min(top, start)), Px(Max(rb, end)), v.first, v.count, top)
    ensures Rendered(ls, cur, v, state, start, end)
    ensures ItemsOf(cur) == ItemsOf(ls) && SameContent(cur, ls)
  {
    ProgressDone(ls, cur, v.first, v.count, state);
  }

  /** The loop of a pass: from the leaf at `p`, whose top is `top`, visit leaves in
      order, adding up their heights, until the running bottom reaches `end`
      (`renderedBottom` becomes that bottom) or the last leaf is passed
      (`renderedBottom` stays 0). */
  method Walk(root: Node, max: nat, state: nat, host: nat -> LeafMetrics, k: nat, top: int, end: int)
    returns (r: Node, count: nat, rb: int)
    requires Wf(root, max) && k < |Leaves(root)|
    ensures Walking(Leaves(root), r, max, state, k, count, top, end)
    ensures top + Run(Leaves(r), k, count) >= end ==> rb == top + Run(Leaves(r), k, count)
    ensures top + Run(Leaves(r), k, count) < end ==> rb == 0 && k + count == |Leaves(root)|
  {
    ghost var ls := Leaves(root);
    var n := |Leaves(root)|;
    var bottom;
    r, count, bottom := Turn(ls, root, max, state, host, k, 0, top, top, end);
    while bottom < end && k + count < n
      invariant Walking(ls, r, max, state, k, count, top, end)
      invariant bottom == top + Run(Leaves(r), k, count)
      decreases n - (k + count)
    {
      r, count, bottom := Turn(ls, r, max, state, host, k, count, top, bottom, end);
    }
    rb := if bottom >= end then bottom else 0;
  }

  /** The state of a pass after visiting `count > 0` leaves from the `k`-th: the
      tree is well formed, the leaves so far are measured, and every shorter run
      ended above `end`. */
  predicate Walking(ls: seq<Node>, r: Node, max: nat, state: nat, k: nat, count: nat, top: int, end: int) {
    && Wf(r, max) && count > 0 && Progress(ls, Leaves(r), k, count, state)
    && (forall c :: 0 < c < count ==> top + Run(Leaves(r), k, c) < end)
  }

  /** One turn of the loop: visit the next leaf and add its height to the bottom. */
  method Turn(ghost ls: seq<Node>, root: Node, max: nat, state: nat, host: nat -> LeafMetrics,
              k: nat, count: nat, top: int, bottom: int, end: int)
    returns (r: Node, count': nat, bottom': int)
    requires count == 0 ==> Wf(root, max) && ls == Leaves(root) && k < |ls| && bottom == top
    requires count > 0 ==> Walking(ls, root, max, state, k, count, top, end) && bottom < end && k + count < |ls|
    requires bottom == top + Run(Leaves(root), k, count)
    ensures Walking(ls, r, max, state, k, count', top, end) && count' == count + 1
    ensures bottom' == top + Run(Leaves(r), k, count')
  {
    if count == 0 {
      assert Progress(ls, Leaves(root), k, 0, state);
    }
    var height;
    r, height := Advance(root, k + count, max, state, host);
    BelowEnd(ls, Leaves(root), Leaves(r), k, count, state, top, bottom, height, end);
    bottom' := bottom + height;
    count' := count + 1;
  }

  /** The leaves of a pass so far: those in the run `first .. first + count` are
      measured in `state`, the others are untouched, and all keep their items. */
  predicate Progress(ls: seq<Node>, cur: seq<Node>, first: nat, count: nat, state: nat) {
    && |cur| == |ls| && first + count <= |ls|
    && (forall t :: 0 <= t < |ls| && !(first <= t < first + count) ==> cur[t] == ls[t])
    && (forall t :: first <= t < first + count ==> cur[t].box.epoch >= state)
    && (forall t :: 0 <= t < |ls| ==> Content(cur[t]) == Content(ls[t]))
  }

  lemma ProgressStep(ls: seq<Node>, before: seq<Node>, after: seq<Node>, first: nat, count: nat, state: nat)
    requires Progress(ls, before, first, count, state) && Visited(before, after, first + count, state)
    ensures Progress(ls, after, first, count + 1, state)
  {
  }

  lemma ProgressDone(ls: seq<Node>, cur: seq<Node>, first: nat, count: nat, state: nat)
    requires Progress(ls, cur, first, count, state)
    ensures cur[..first] == ls[..first] && SameContent(cur, ls)
    ensures ItemsOf(cur) == ItemsOf(ls)
  {
    SameItemsOf(cur, ls);
  }

  /** Visiting a leaf during a pass: `_measure` brings it up to the current state
      when it was last measured in an earlier one; only that leaf changes, and its
      items stay. */
  method Visit(root: Node, p: seq<nat>, max: nat, state: nat, host: nat -> LeafMetrics) returns (r: Node)
    requires Wf(root, max) && IsLeafPath(root, p)
    ensures Wf(r, max) && IsLeafPath(r, p) && LeafIndex(r, p) == LeafIndex(root, p)
    ensures var k := LeafIndex(root, p);
      && |Leaves(r)| == |Leaves(root)|
      && Leaves(r) == Leaves(root)[k := Leaves(r)[k]]
      && Content(Leaves(r)[k]) == Content(Leaves(root)[k])
      && Leaves(r)[k].box.epoch >= state
      && (Leaves(root)[k].box.epoch >= state ==> r == root)
  {
    r := root;
    if At(root, p).box.epoch < state {
      var mm := host(At(root, p).id);
      MeasureLeafLeaves(root, p, state, mm);
      MeasureLeafKeeps(root, p, state, mm, max);
      r := MeasureAt(root, p, state, mm);
    }
  }

  /** What visiting leaf `k` does to the leaves: only leaf `k` changes, it keeps its
      items and ends measured in `state`. */
  predicate Visited(before: seq<Node>, after: seq<Node>, k: nat, state: nat) {
    && |after| == |before| && k < |before|
    && (forall t :: 0 <= t < |before| && t != k ==> after[t] == before[t])
    && Content(after[k]) == Content(before[k])
    && after[k].box.epoch >= state
  }

  /** The bookkeeping of one turn of the loop, at the level of leaf sequences. */
  lemma BelowEnd(ls: seq<Node>, before: seq<Node>, after: seq<Node>, first: nat, count: nat, state: nat,
                  top: int, bottom: int, height: int, end: int)
    requires Progress(ls, before, first, count, state) && Visited(before, after, first + count, state)
    requires bottom == top + Run(before, first, count) && height == after[first + count].box.height
    requires forall c :: 0 < c < count ==> top + Run(before, first, c) < end
    requires count > 0 ==> top + Run(before, first, count) < end
    ensures Progress(ls, after, first, count + 1, state)
    ensures forall c :: 0 < c < count + 1 ==> top + Run(after, first, c) < end
    ensures bottom + height == top + Run(after, first, count + 1)
  {
    RunGrows(before, after, first, count);
    ProgressStep(ls, before, after, first, count, state);
  }

  /** One turn of the loop: visit the `k`-th leaf (in order, the leaf after the
      one visited before it) and read its height. */
  method Advance(root: Node, k: nat, max: nat, state: nat, host: nat -> LeafMetrics)
    returns (r: Node, height: int)
    requires Wf(root, max) && k < |Leaves(root)|
    ensures Wf(r, max) && Visited(Leaves(root), Leaves(r), k, state)
    ensures height == Leaves(r)[k].box.height
  {
    var p := LeafPath(root, k);
    r := Visit(root, p, max, state, host);
    height := At(r, p).box.height;
  }

  /** Replacing the leaf just after a run keeps every prefix of the run and adds
      the new leaf's height to the longer run. */
  lemma RunGrows(before: seq<Node>, after: seq<Node>, first: nat, count: nat)
    requires |after| == |before| && first + count < |before|
    requires forall t :: 0 <= t < |before| && t != first + count ==> after[t] == before[t]
    ensures forall c :: 0 <= c <= count ==> Run(after, first, c) == Run(before, first, c)
    ensures Run(after, first, count + 1) == Run(before, first, count) + after[first + count].box.height
  {
    forall c | 0 <= c <= count
      ensures Run(after, first, c) == Run(before, first, c)
    {
      assert after[first..first + c] == before[first..first + c];
    }
    RunSnoc(after, first, count);
  }

  lemma NonEmptyAfterMeasure(r: Node, p: seq<nat>)
    requires Populated(r) && IsLeafPath(r, p)
    ensures NonEmpty(r)
  {
    PopulatedNonEmpty(r, p);
  }

  /** `_updateViewportPosition`: nothing happens while the viewport stays inside the
      band rendered last time; otherwise one pass renders a new band. */
  method UpdateViewportPosition(root: Node, view: View, max: nat, state: nat, host: nat -> LeafMetrics,
                                viewportTop: int, viewportHeight: int, buffer: int)
    returns (r: Node, v: View)
    requires Wf(root, max)
    ensures Wf(r, max) && Items(r) == Items(root) && SameContent(Leaves(r), Leaves(root))
    ensures !Triggers(view.renderedTop, view.renderedBottom, viewportTop, viewportHeight, buffer) ==> r == root && v == view
    ensures Triggers(view.renderedTop, view.renderedBottom, viewportTop, viewportHeight, buffer) ==>
      && Rendered(Leaves(root), Leaves(r), v, state, viewportTop - 2 * buffer, viewportTop + viewportHeight + 2 * buffer)
      && v.renderedTop.Px? && v.renderedTop.v <= viewportTop - 2 * buffer
      && v.renderedBottom.Px? && v.renderedBottom.v >= viewportTop + viewportHeight + 2 * buffer
  {
    if !Triggers(view.renderedTop, view.renderedBottom, viewportTop, viewportHeight, buffer) {
      r, v := root, view;
      return;
    }
    r, v := Render(root, max, state, host, viewportTop, viewportHeight, buffer);
  }

  /** Leaves that differ only in their boxes and margins hold the same items. */
  lemma {:induction false} SameItemsOf(a: seq<Node>, b: seq<Node>)
    requires SameContent(a, b)
    ensures ItemsOf(a) == ItemsOf(b)
    decreases |a|
  {
    if a != [] {
      var a', b' := a[..|a| - 1], b[..|b| - 1];
      assert forall t :: 0 <= t < |a'| ==> a'[t] == a[t] && b'[t] == b[t];
      SameItemsOf(a', b');
    }
  }

  /** `_forceUpdateViewportPosition`: the band is reset to `-Infinity`, so a pass
      always runs, whatever was rendered before. */
  method ForceUpdateViewportPosition(root: Node, max: nat, state: nat, host: nat -> LeafMetrics,
                                     viewportTop: int, viewportHeight: int, buffer: int)
    returns (r: Node, v: View)
    requires Wf(root, max)
    ensures Wf(r, max) && Items(r) == Items(root) && SameContent(Leaves(r), Leaves(root))
    ensures Rendered(Leaves(root), Leaves(r), v, state, viewportTop - 2 * buffer, viewportTop + viewportHeight + 2 * buffer)
    ensures v.renderedTop.Px? && v.renderedTop.v <= viewportTop - 2 * buffer
    ensures v.renderedBottom.Px? && v.renderedBottom.v >= viewportTop + viewportHeight + 2 * buffer
  {
    r, v := UpdateViewportPosition(root, Unrendered, max, state, host, viewportTop, viewportHeight, buffer);
  }

  /** Hysteresis: after a pass for a viewport, a scroll by at most `buffer` with the
      same viewport height does not render again. */
  lemma NoPassWithinBuffer(v: View, viewportTop: int, viewportHeight: int, buffer: int, newTop: int)
    requires v.renderedTop.Px? && v.renderedTop.v <= viewportTop - 2 * buffer
    requires v.renderedBottom.Px? && v.renderedBottom.v >= viewportTop + viewportHeight + 2 * buffer
    requires viewportTop - buffer <= newTop <= viewportTop + buffer
    ensures !Triggers(v.renderedTop, v.renderedBottom, newTop, viewportHeight, buffer)
  {
  }
}
